=== FILE: README.md ===
# AsLib-Server library core, modelled in Dafny

AsLib-Server is the back end of a library. It keeps books and their
physical copies ("book items"), users with roles and statuses, libraries
with assigned librarians, reservations (holds) and lendings (loans).
This project models the core of that system as pure Dafny functions over one
immutable database value:

- the copy / reservation / lending lifecycle:
  - a hold goes `pending → waiting → completed` or `→ cancelled`;
  - completing a hold creates a loan;
  - a daily sweep cancels holds left waiting past their due date;
  - a loan's late fee is derived on every read;
- the inventory ledger: creating and merge-updating copies, the barcode,
  library and rack checks, and the manual-status override of the public
  update route;
- accounts: the role rank table, the active-user and permission
  dependencies, the request validators, registration, login, updates, and the
  route guards that reserve role and status changes to administrators;
- librarian assignment, and the ordered listing of a library's active
  librarians;
- books: the isbn uniqueness rule, the title fallback and the author-set
  replacement on update;
- the query-parameter filter dicts and the `list_*_filtered_query`
  builders, as functions on strings.

Layout:

- `wrappers.dfy` holds `Option`, `Result`, `Outcome`, the error kinds and
  Python truthiness.
- `store.dfy` holds the database value (`State`).
- `enums.dfy` holds the string enumerations and the role rank table.
- `auth.dfy` holds the access dependencies.
- `text.dfy` holds string helpers and code-point order.
- `filters.dfy` holds what the query builders share.
- One file per repository follows: `book_items.dfy`, `lendings.dfy`,
  `reservations.dfy`, `users.dfy`, `librarians.dfy`, `books.dfy`.
- `lifecycle.dfy` puts every state-changing lifecycle operation into one
  transition relation and proves the facts that hold across all of them.

How the model treats the system:

- **Results.** Every repository method is a function `State → Result<(State, value)>`.
  A failure carries no state: the database is left as it was. Most
  repository methods run inside one `db.transaction()`. `register_new_user`
  and `update_user` have no transaction, but they raise only before their
  first write. The due-hold sweep (`cancel_due_reservations`) is not one
  transaction: each cancellation commits in the transaction of its own
  `cancel_reservation` call.
- **Errors.** An error is a kind plus the exact detail text of the source.
  The kinds are 404, 400 (which also covers 422 validation), 401, 403, and
  500 for a statement the database rejects. Because the text is exact, the
  order of the checks is observable.
- **Ids.** Serial ids come from one counter, `nextId`. `Store.Valid` says
  every row sits under its own id, below the counter.
- **Dates.** Dates are whole day numbers, and `today` is part of the state.
  The `Numeric` daily fee is a whole number.
- **Inputs from outside.** Password hashing is a parameter (`Credentials`),
  and so is password verification, a function parameter. Resolving a bearer
  token to a user is also outside the model: the dependencies receive the
  resulting user, or `None`.

## Model

| member | source | states |
|---|---|---|
| Enums.ParseStatus | app/models/book_item.py:19-24 | a parsed copy status is the one whose string value was given |
| Enums.StatusesAreFive | app/models/book_item.py:19-24 | there are exactly five copy statuses; each string value parses back to its status, and no other string parses |
| Enums.ParseCondition | app/models/book_item.py:7-10 | a parsed condition is the one whose string value was given |
| Enums.ConditionsAreThree | app/models/book_item.py:7-10 | there are exactly three conditions (like_new, good, bad), each round-tripping through its string |
| Enums.ManualStatusesAreSubset | app/models/book_item.py:13-16 | the manual statuses are a proper subset of all statuses and leave out exactly reserved and loaned |
| Enums.ParseReservationStatus | app/models/reservation.py:8-12 | a status parameter is accepted iff it is the value of one of the four reservation statuses |
| Enums.RoleRank | app/models/user.py:14-21 | default and a missing role rank 0, librarian 99, admin 999 |
| Enums.RoleRankIsStrictOrder | app/models/user.py:14-21 | default < librarian < admin, distinct roles have distinct ranks, and a missing role ranks as default |
| Enums.UserStatusesAreThree | app/models/user.py:24-27 | a user status is exactly one of active, deactivated, blacklisted |
| Store.InitIsValid | app/db/migrations/versions/8a9272ba5a3a_create_main_tables.py:55-77 | the seeded configuration row is reservation_due_day 7, lending_due_day 14, lending_daily_fee 5, and the empty database is well formed |
| Auth.CurrentActiveUser | app/api/dependencies/auth.py:27-40 | no user → 401 "No authenticated user."; a user whose status is not active → 401 "Not an active user."; otherwise the user |
| Auth.VerifyUserPermissions | app/api/dependencies/auth.py:43-48 | rejects with 403 exactly when the user's rank is below the required role's rank |
| Auth.CurrentUserWithPermissions | app/api/dependencies/auth.py:51-58 | the active-user check runs first and the rank check second; succeeds iff the user is active and ranked high enough |
| Auth.PermissionLadder | app/api/dependencies/auth.py:43-48 | admins pass every check, librarians pass librarian checks but fail admin ones, and default or role-less users fail librarian checks |
| Auth.PermissionIsMonotone | app/api/dependencies/auth.py:43-48 | passing a check for one role implies passing every check for a role of lower or equal rank |
| Auth.OwnerOrLibrarian | app/api/dependencies/reservations.py:27-32 | the owner passes; anyone else passes iff ranked librarian or above |
| Filters.Select | app/db/repositories/book_items.py:69-82 | a conjunct appears iff some rule with a truthy key carries it; none iff no key is truthy; never more conjuncts than rules |
| Filters.SelectOne | app/db/repositories/book_items.py:73-74 | one `if filters.get(key)` line appends its condition iff the key is truthy |
| Filters.SelectAppend | app/db/repositories/book_items.py:69-82 | the conjuncts of consecutive rule lists are concatenated in order, so the WHERE parts follow the order of the `if` lines |
| Filters.SelectAll | app/db/repositories/book_items.py:69-82 | with every key truthy, the conjuncts are all the conditions, one each, in the order of the `if` lines |
| Filters.SelectIgnoresValues | app/db/repositories/book_items.py:73-82 | two dicts with the same truthy keys give the same conjuncts: filter values never reach the SQL text |
| Filters.WhereMarksConjuncts | app/db/repositories/book_items.py:84-88 | the query carries " WHERE " after its head iff there is at least one conjunct |
| Filters.SemicolonLast | app/db/repositories/book_items.py:90-96 | the query ends in ";" iff the semicolon was asked for, whatever LIMIT/OFFSET were added |
| Filters.Assemble | app/db/repositories/book_items.py:68-98 | the shared builder layout, exactly: head first; then " WHERE " and the conjuncts joined by " AND " iff there are any; then the ORDER BY; then LIMIT/OFFSET for each given value and ";" iff requested, with no other text (its length is the sum of these parts) |
| Filters.AssembleIsPinned | app/db/repositories/book_items.py:68-98 | any text with the layout's prefix, suffix and length is the assembled query, so the builder contract admits no extra SQL |
| BookItems.ValidateForeignKeys | app/db/repositories/book_items.py:107-136 | the four rejections, in order: a changed, non-empty barcode that is taken; a changed library that is missing; a rack that is missing; a rack from a different library than the update's own library_id. Passes iff none applies |
| BookItems.Merge | app/db/repositories/book_items.py:179 | unset or None fields keep the current value; id and book_id never change |
| BookItems.MergeLaws | app/db/repositories/book_items.py:179 | merging is idempotent, the empty update is the identity, and merging a copy's own fields gives it back |
| BookItems.UpdateBookItem | app/db/repositories/book_items.py:177-187 | succeeds iff validation passes; the stored copy becomes the merge and no other row changes; a failure leaves everything unchanged |
| BookItems.StatusOnlyUpdateSucceeds | app/db/repositories/book_items.py:107-136 | an internal status-only update is never rejected and changes only the status |
| BookItems.BarcodeCheckOnlyWhenChanged | app/db/repositories/book_items.py:108-115 | re-sending the copy's own barcode, or none, or an empty one, never raises the barcode conflict |
| BookItems.RackCheckIgnoresCurrentLibrary | app/db/repositories/book_items.py:124-136 | a rack of another library is accepted when the update does not also name a library, leaving the copy's rack and library inconsistent |
| BookItems.ManualOverride | app/api/routes/book_items.py:38-42 | asking for available takes effect only on a lost or written-off copy; any other request, or none, passes through unchanged |
| BookItems.UpdateBookItemById | app/api/routes/book_items.py:32-43 | the status after a public update: unchanged when none is sent, available only from lost/written_off, lost and written_off always applied; the status never decides acceptance |
| BookItems.CreateBookItem | app/db/repositories/book_items.py:138-144 | validates against the empty record: a non-empty barcode must be unused and a non-zero library_id must exist; a given rack must exist and, for a non-zero library_id, belong to it; the new copy belongs to the given book and is never reserved or loaned |
| BookItems.LedgerPreservesValid | app/db/repositories/book_items.py:138-187 | creating and updating copies keep every row under its own id and below the serial counter |
| BookItems.ListBookItemsQuery | app/db/repositories/book_items.py:68-98 | exactly: the fixed SELECT, then the selected conjuncts joined by " AND " after " WHERE " (no WHERE iff no filter key is truthy), then ORDER BY id, LIMIT/OFFSET for each given value, ";" iff requested, and nothing else |
| Lendings.PopulateFee | app/db/repositories/lendings.py:164-172 | a stored fee is kept; otherwise the fee is (today − due date) × daily fee when that is positive, and stays None (not 0) otherwise; no other field changes |
| Lendings.PopulateFeeLaws | app/db/repositories/lendings.py:164-172 | populating is idempotent, ignores the return date, and a non-negative rate never gives a negative fee |
| Lendings.FeeExamples | app/db/repositories/lendings.py:168-172 | three days late at the default rate 5 is 15; on the due day there is no fee |
| Lendings.CreateLending | app/db/repositories/lendings.py:92-121 | checks, in order: missing user 404, inactive user 400, missing copy 404, copy not available 400; the loan is due lending_due_day days from today, with no return date and the given reservation id; the copy is untouched |
| Lendings.CreateLendingAsWritten | app/db/migrations/versions/8a9272ba5a3a_create_main_tables.py:322-332 | against the migrated schema, a loan tied to a hold is refused unless some library has the hold's id; every other outcome is CreateLending's |
| Lendings.GetLendingById | app/db/repositories/lendings.py:123-127 | found iff stored; the stored row with only its fee populated: a stored fee is kept, an unset fee becomes days late times the daily rate after the due date and stays unset until then |
| Lendings.GetLendingByIdFromPath | app/api/dependencies/lendings.py:14-25 | an id below 1 is rejected, a missing one is 404, otherwise the populated loan |
| Lendings.VerifyLendingAccess | app/api/dependencies/lendings.py:28-33 | the borrower passes; anyone else passes iff ranked librarian or above |
| Lendings.CompleteLending | app/db/repositories/lendings.py:150-162 | fails iff the loan is missing or already returned; otherwise stores return date today and the populated fee in one write |
| Lendings.CompleteTwiceFails | app/db/repositories/lendings.py:152-156 | a second completion is refused and the stored fee stays what the first wrote |
| Lendings.CompleteOverdueExample | app/db/repositories/lendings.py:157-161 | five days late at rate 2 stores a fee of 10 |
| Lendings.OnTimeReturnIsChargedLater | app/db/repositories/lendings.py:164-172 | a loan returned on time shows a fee on every read after its due date |
| Lendings.LendingsPreserveValid | app/db/repositories/lendings.py:92-162 | creating and completing loans keep every row under its own id and below the serial counter |
| Lendings.LendingFiltersFromQuery | app/api/dependencies/lendings.py:36-54 | ids below 1 are rejected; each other given parameter is copied; `returned` is copied only when true |
| Lendings.Conjuncts | app/db/repositories/lendings.py:57-66 | the returned line emits "IS  NULL" exactly when `returned` is truthy, and never the "NOT NULL" form |
| Lendings.ListLendingsQuery | app/db/repositories/lendings.py:52-82 | exactly: the fixed SELECT, then the selected conjuncts joined by " AND " after " WHERE " (no WHERE iff no filter key is truthy), then ORDER BY id, LIMIT/OFFSET for each given value, ";" iff requested, and nothing else |
| Lendings.ListedMeans | app/db/repositories/lendings.py:57-66 | a row is listed iff it matches every given id, its due date is strictly before due_by, and, for returned, it has no return date |
| Lendings.ReturnedFilterIsInverted | app/api/dependencies/lendings.py:51-52 | `returned=true` lists exactly the outstanding loans, and `returned=false` filters nothing |
| Reservations.ValidateUserAndLibrary | app/db/repositories/reservations.py:99-116 | for a user other than the requester: missing 404, then inactive 400; then a missing library 404 |
| Reservations.CreateReservation | app/db/repositories/reservations.py:118-133 | the borrower defaults to the requester; after the user/library checks a missing book is 404; stores a pending hold with no copy and no due date under the next id |
| Reservations.WriteReservation | app/db/repositories/reservations.py:45-52 | the one status write sets copy and status, and always resets the due date to reservation_due_day days from today; nothing else changes |
| Reservations.SetCopyStatus | app/db/repositories/reservations.py:191-193 | the internal status update is the ledger update with status only, and always succeeds |
| Reservations.FulfillReservation | app/db/repositories/reservations.py:163-198 | the failures, in order: not pending, a copy already attached, copy missing, copy not available, copy of another library. On success the copy is reserved and the hold waits with that copy and a due date |
| Reservations.CancelReservation | app/db/repositories/reservations.py:200-221 | refused on a cancelled or completed hold; otherwise it is cancelled, keeps its copy and gets a fresh due date. An attached copy goes back to available unless lost or written off |
| Reservations.CompleteReservation | app/db/repositories/reservations.py:223-251 | refused on a terminal hold or a missing/lost/written-off copy; otherwise the copy is set available, the hold completed, and a loan of the copy to the hold's user, tied to the hold, is created |
| Reservations.CompleteReservationAsWritten | app/db/repositories/reservations.py:250-251 | under the migrated schema, a completion that would succeed fails with the foreign-key error when no library has the hold's id |
| Reservations.GetReservationByIdFromPath | app/api/dependencies/reservations.py:13-24 | an id below 1 is rejected, a missing one is 404, otherwise the stored hold |
| Reservations.VerifyReservationAccess | app/api/dependencies/reservations.py:27-32 | the holder passes; anyone else passes iff ranked librarian or above |
| Reservations.ReservationFiltersFromQuery | app/api/dependencies/reservations.py:35-56 | rejects ids below 1 and unknown status names; the dict holds exactly the given truthy parameters |
| Reservations.ListReservationsQuery | app/db/repositories/reservations.py:55-87 | exactly: the fixed SELECT, then the selected conjuncts joined by " AND " after " WHERE " (no WHERE iff no filter key is truthy), then ORDER BY id, LIMIT/OFFSET for each given value, ";" iff requested, and nothing else |
| Reservations.ListedMeans | app/db/repositories/reservations.py:60-71 | a row is listed iff it matches every given id and status and its due date is strictly before due_by |
| Reservations.SweepListsDue | app/db/repositories/reservations.py:253-258 | the sweep's list query selects exactly the holds that are waiting with a due date strictly before today, without LIMIT or OFFSET |
| Reservations.CancelDueReservations | app/db/repositories/reservations.py:253-261 | every listed cancellation succeeds; the end state has every due hold cancelled and each one's copy freed unless lost or written off |
| Reservations.SweptMeans | app/db/repositories/reservations.py:253-261 | after the sweep a hold that was not due is unchanged and a due hold is cancelled with a fresh due date |
| Reservations.SweepStep | app/db/repositories/reservations.py:260-261 | cancelling one more due hold extends a partial sweep by exactly that hold |
| Reservations.DueTodaySurvives | app/db/repositories/reservations.py:70-71 | a hold due today is kept by today's sweep (strict `<`) |
| Users.UsernameNewlineGap | app/models/user.py:42 | the username pattern accepts a valid name followed by one newline, but not two newlines or a leading one |
| Users.CheckUsername | app/models/user.py:42 | accepts iff at least 3 characters from [A-Za-z0-9_-] (with the trailing-newline allowance) |
| Users.CheckPassword | app/models/user.py:41 | accepts iff 7 to 100 characters |
| Users.CheckCard | app/models/user.py:45 | accepts iff 7 to 14 decimal digits (with the trailing-newline allowance) |
| Users.ValidateUserCreate | app/models/user.py:39-45 | passes iff password, username and any given card number are valid |
| Users.ValidateUserUpdate | app/models/user.py:53-58 | passes iff any given password and card number are valid |
| Users.UserByEmail | app/db/repositories/users.py:157-161 | found iff some stored user has that email, and it is that user |
| Users.UserByUsername | app/db/repositories/users.py:163-167 | found iff some stored user has that username, and it is that user |
| Users.GetUserById | app/db/repositories/users.py:169-173 | found iff stored under that id |
| Users.GetUserByUsernameFromPath | app/api/dependencies/users.py:9-20 | a malformed name is rejected, an unknown one is 404, otherwise the stored user with that name |
| Users.RegisterNewUser | app/db/repositories/users.py:196-216 | a taken email is rejected, then a taken username; otherwise the user is stored unverified with the salted hash, and an empty profile is created for them |
| Users.RegisterPreservesInvariants | app/db/repositories/users.py:196-216 | registration keeps ids well formed and logins unique, and the new user is then found by email and by username |
| Users.RegisterGuard | app/api/routes/users.py:33-41 | a role ranked above default, or a status other than active, needs an administrator (400 otherwise) |
| Users.RegisterGuardDefaults | app/models/user.py:43-44 | leaving role and status out never needs an administrator; a status sent as null does |
| Users.RegisterRoute | app/api/routes/users.py:27-43 | success needs a librarian, a valid body, and an administrator for any elevated role or non-active status |
| Users.AuthenticateUser | app/db/repositories/users.py:218-227 | the login is tried as an email first, then as a username: an email match is returned iff its password verifies; with no email match, a username match is returned iff its password verifies; None when nobody matches |
| Users.EmailShadowsUsername | app/db/repositories/users.py:218-221 | when someone's email equals another user's username, that other user can never log in by username |
| Users.ApplyUpdate | app/db/repositories/users.py:230-233 | only set fields are merged; id, username and verification never change; password and salt change only for a non-empty password |
| Users.UpdateUser | app/db/repositories/users.py:229-253 | a changed card number held by someone is rejected, then a changed email held by someone; otherwise the row is rewritten from the merge, keeping the username |
| Users.UpdateUserLaws | app/db/repositories/users.py:229-253 | a password-only update changes only the credentials; an empty update changes nothing |
| Users.UpdateUserGuard | app/api/routes/users.py:90-97 | sending a role or status key at all, even unchanged or null, needs an administrator (403 otherwise) |
| Users.UpdateUserRoute | app/api/routes/users.py:83-100 | success needs a librarian and a valid body; a non-administrator never changes anyone's role or status (403); once every check passes, the result is the repository update of the user named in the path |
| Users.UpdateCurrentUserRoute | app/api/routes/users.py:73-80 | as intended: for an active user and a valid body, the result is the repository update of the caller; the email sent is stored, a non-empty password replaces the hash and salt, and role, status and card number never change |
| Users.UpdateCurrentUserRouteAsWritten | app/db/repositories/users.py:229-235 | as the code stands: no request ever succeeds; past authentication and body validation it is a server error, with nothing written |
| Users.UpdateCurrentUserNeverApplies | app/db/repositories/users.py:235 | every request the intended route would carry out fails as written |
| Users.UpdateCurrentUserEmailFails | app/api/routes/users.py:73-80 | an active user changing only their email: the intended route succeeds, the route as written fails |
| Users.ViewUserRoute | app/api/routes/users.py:63-70 | succeeds iff the session is active, the path names a user, and it is the caller or the caller is a librarian or above; then the result is that user; anyone else gets 403 |
| Librarians.Assignment | app/db/repositories/librarians.py:48-53 | the library the user is assigned to, if any |
| Librarians.RemoveAssignments | app/db/repositories/librarians.py:64-65 | the user has no assignment afterwards; other users are untouched |
| Librarians.AssignLibrarian | app/db/repositories/librarians.py:55-62 | afterwards the user is assigned to exactly that library; a no-op when already assigned there; other users are untouched |
| Librarians.UnassignLibrarian | app/db/repositories/librarians.py:67-75 | succeeds iff the user is assigned to exactly that library, and leaves them with no assignment |
| Librarians.AssignIsIdempotent | app/db/repositories/librarians.py:57-60 | assigning twice is assigning once |
| Librarians.AssignThenUnassign | app/db/repositories/librarians.py:55-75 | unassigning right after assigning succeeds and leaves no row for the user |
| Librarians.UnassignThenAssign | app/db/repositories/librarians.py:55-75 | a successful unassign is undone by assigning the same library again |
| Librarians.AssignMovesUser | app/db/repositories/librarians.py:58-62 | assigning to another library moves the user: unassigning from the old library then fails |
| Librarians.RowLeTotal | app/db/repositories/librarians.py:31-34 | any two listed rows are comparable under (first name, surname, id) with nulls last |
| Librarians.RowLeAntisymmetric | app/db/repositories/librarians.py:31-34 | two distinct librarians are never tied, so the order of the list is fully determined |
| Librarians.ListLibraryLibrarians | app/db/repositories/librarians.py:39-46 | exactly the assigned active users with a profile, each once, sorted by first name, surname, id |
| Librarians.ListedRowsAreActiveLibrarians | app/db/repositories/librarians.py:24-35 | every listed row is an active user assigned to the library |
| Librarians.AdminTarget | app/api/routes/libraries/librarians.py:23-30 | the library must exist, the user must exist, be active and be a librarian, and the caller must be an administrator |
| Librarians.AssignLibrarianRoute | app/api/routes/libraries/librarians.py:23-30 | succeeds iff the dependencies pass, and then assigns |
| Librarians.UnassignLibrarianRoute | app/api/routes/libraries/librarians.py:33-43 | succeeds iff the dependencies pass and the user is assigned to that library, and then unassigns |
| Librarians.ListAssignedLibrariansRoute | app/api/routes/libraries/librarians.py:14-20 | any active user may list an existing library's librarians, sorted, each once |
| Books.CheckIsbnExists | app/db/repositories/books.py:134-139 | rejects iff an isbn is given and some stored book has it |
| Books.CreateBook | app/db/repositories/books.py:141-156 | a taken isbn is rejected; otherwise the book is stored under the next id with exactly the given author names, which join the authors table |
| Books.CreateTakesIsbn | app/db/repositories/books.py:141-156 | after a create with an isbn, a second create with the same isbn fails |
| Books.CreateBookPreservesValid | app/db/repositories/books.py:141-156 | creation keeps every row under its own id |
| Books.GetBookByIdFromPath | app/api/dependencies/books.py:13-24 | an id below 1 is rejected, a missing one is 404, otherwise the stored book |
| Books.MergeBook | app/db/repositories/books.py:201-204 | a falsy title keeps the current title; every other set field replaces its column; the id never changes |
| Books.ReplaceAuthors | app/db/repositories/books.py:210-222 | the author set after a non-empty authors update is exactly the supplied names |
| Books.UpdateBook | app/db/repositories/books.py:199-226 | fails iff the sent isbn is taken (with no "has it changed" test); otherwise stores the merge, replaces the authors only for a non-empty list, and returns the populated book |
| Books.UpdateOwnIsbnFails | app/db/repositories/books.py:204 | re-sending the book's own isbn is rejected as a duplicate |
| Books.UpdateWithoutIsbnSucceeds | app/db/repositories/books.py:134-139 | an update without an isbn, or with null, never fails |
| Books.EmptyUpdateIsNoOp | app/db/repositories/books.py:199-226 | an update with no field set changes nothing and returns the stored book |
| Books.SameAuthorsKeepSet | app/db/repositories/books.py:210-222 | re-sending the book's current authors leaves its author set as it was |
| Books.Contains | app/api/dependencies/books.py:37-44 | the pattern is the text wrapped in one "%" on each side |
| Books.SearchTextsRecovered | app/api/dependencies/books.py:37-44 | every search text sent is recovered from its filter entry by dropping the two wildcards, so different search texts build different filters |
| Books.BookFiltersFromQuery | app/api/dependencies/books.py:27-48 | rejects any text over 50 characters; the dict holds exactly the truthy parameters, text ones as substring patterns, publish_date unwrapped |
| Books.JoinParts | app/db/repositories/books.py:80-126 | the authors join appears iff inauthor is set; exactly one book_items join appears iff library_id or rack_id is set |
| Books.ListBooksQuery | app/db/repositories/books.py:80-126 | exactly: the fixed head and joins, then the selected conjuncts joined by " AND " after " WHERE " (no WHERE iff no filter is set), then GROUP BY B.id and ORDER BY B.id, LIMIT/OFFSET for each given value, ";" iff requested, and nothing else |
| Books.ListBooksQueryIgnoresValues | app/db/repositories/books.py:80-126 | the query depends only on which filters are set, never on their values |
| Lifecycle.Step | app/api/routes/reservations.py:100-132 | no operation of the lifecycle ever makes a copy loaned; the day and the configuration never change |
| Lifecycle.InitIsShaped | app/db/repositories/reservations.py:18-22 | the empty database is well formed and every hold in it is shaped |
| Lifecycle.StepPreservesValid | app/db/repositories/reservations.py:118-251 | every lifecycle operation keeps the store well formed |
| Lifecycle.StepPreservesShape | app/db/repositories/reservations.py:45-52 | every operation keeps holds shaped: pending has no copy and no due date; waiting and completed have both; cancelled has a due date |
| Lifecycle.SweepPreservesInvariants | app/db/repositories/reservations.py:253-261 | the sweep keeps the store well formed and holds shaped, and never marks a copy loaned |
| Lifecycle.FulfillById | app/api/routes/reservations.py:100-109 | fulfilling a pending hold by id with an available copy of its library succeeds, reserves the copy and makes the hold wait |
| Lifecycle.CompleteById | app/api/routes/reservations.py:126-132 | completing a waiting hold whose copy is reserved and whose user is active succeeds and stores the loan under the next id |
| Lifecycle.ReserveById | app/db/repositories/reservations.py:118-133 | creating a hold stores it pending under the next id and changes nothing else |
| Lifecycle.ReserveFulfillComplete | app/db/repositories/reservations.py:163-251 | reserve, fulfil, complete: the borrower gets a loan of the copy tied to the hold, due lending_due_day days from today; the hold is completed and the copy is available |
| Lifecycle.ReserveFulfillCompleteAsWritten | app/db/repositories/reservations.py:250-251 | the same path under the migrated schema fails at completion when no library has the hold's id |
| Lifecycle.CopyOnLoanCanBeLentAgain | app/db/repositories/reservations.py:237-251 | after a completion the copy is available while its loan is outstanding, so it can be lent again |

## Left out

- SQL execution, the database driver and transaction isolation. Each
  repository call is one atomic step. The concurrent double-fulfilment
  question is not modelled.
- NOT NULL, UNIQUE and foreign-key constraints of the schema are not
  enforced by the model, with two exceptions. Unique emails and usernames
  are assumed where lookups need them (`Users.UniqueLogins`). The one
  foreign key that changes observable behaviour is modelled under Findings.
- The daily `repeat_every` timer and the admin seeding of
  `app/core/tasks.py`. The sweep is a plain operation.
- Password hashing, salts and JWT encoding and decoding. These are foreign
  libraries: the hash and salt are a parameter, and verification is a
  function parameter.
- `EmailStr` validation and the lookahead ISBN regex. Both depend on a regex
  engine or library, so emails and isbns are taken as given.
- Timestamps, `updated_at` triggers and the rest of the migration DDL.
- HTTP status codes and response models. Errors are abstract kinds with the
  source's detail text. A 422 from request validation is mapped to
  BadRequest. When a request has several faults, the order between
  validation errors and dependency errors is simplified.
- Thin CRUD repositories and the routes that only forward to them:
  addresses, profiles, racks, libraries, authors, system_config. Deleting
  books and copies is also left out.
- Window-function counts (`query_count`), pagination arithmetic and the
  `users_count` query.
- The list endpoints run their SQL. The model gives the text of each query
  and the meaning of each WHERE conjunct for one row (`ListedMeans`). It
  does not evaluate the joins of the book list query.
- Librarians.ListLibraryLibrarians: compares text by code point. The
  database compares it by its collation.
- Librarians.AdminTarget: fixes one order of the dependency checks (library
  from path, user from query, admin permission). FastAPI may resolve shared
  sub-dependencies in a different order, so when several checks fail the
  reported error may differ.
- Users.RegisterNewUser: does not check that the library card number is
  free. The source does not check it either, and leaves it to the database's
  UNIQUE constraint.
- Store.Rack and Store.Reservation: `library_id` (and a hold's `book_id` and
  `user_id`) are plain ids, though the schema allows NULL. The model deletes
  no library, book or user, and only such a deletion (SET NULL) or a direct
  insert could store NULL there.
- Lifecycle.Step: the `Lend` operation passes a reservation id. The public
  route never passes one (app/api/routes/lendings.py:27); only
  `complete_reservation` does.

Where the behaviour departs from what one would expect of a library, the
model follows the code:

- No operation sets a copy to `loaned`. Completing a hold leaves its copy
  `available` while the loan is outstanding (`Lifecycle.CopyOnLoanCanBeLentAgain`).
- Every status write of a hold resets its due date, including cancellation
  and completion. So a cancelled pending hold has a due date.
- The sweep uses a strict `<`.
- `populate_fee` ignores the return date.
- A rack is compared only with a library_id sent in the same update.
- The lending filter `returned=true` emits `LE.return_date IS  NULL`.
- `update_book` rejects the book's own isbn.
- `create_lending` reports a missing copy as "No user found with that id."
  (app/db/repositories/lendings.py:107-111).
- The "already <status>" message renders the status value, e.g.
  "Reservation is already cancelled." (app/db/repositories/reservations.py:168).
  That is how Python 3.10 and earlier format a `(str, Enum)` member in an
  f-string. From Python 3.11 on the same line renders
  "Reservation is already ReservationStatus.cancelled.". The model uses the
  older text.

## Findings

| source | as written | input that shows it | evidently intended | confidence | as-written member | corrected member |
|---|---|---|---|---|---|---|
| app/db/migrations/versions/8a9272ba5a3a_create_main_tables.py:328 | `lendings.reservation_id` is declared as a foreign key to `libraries.id` | a database with a single library (id 1) and a hold with id 2: waiting, its copy reserved, its user active. Completing the hold inserts a loan with reservation_id 2, which no library row matches, so the insert and the whole completion are rolled back | a foreign key to `reservations.id`, so that completing a hold always creates its loan | high, not executed | Lendings.CreateLendingAsWritten, Reservations.CompleteReservationAsWritten, Lifecycle.ReserveFulfillCompleteAsWritten | Lendings.CreateLending, Reservations.CompleteReservation, Lifecycle.ReserveFulfillComplete |
| app/db/repositories/users.py:235 | `update_user` reads `user_update.library_card_number`, but `update_current_user` (app/api/routes/users.py:75) passes a `CurrentUserUpdate`, which declares only `email` and `password` (app/models/user.py:48-50) | an active user sends `PUT /users/me/` with body `{"user_update": {"email": "new@example.com"}}`. The attribute read raises AttributeError before any write, so the request ends in a 500 | the route updates the caller's email and password | medium, not executed (the `CoreModel` base class is not part of this model; a base class that tolerates unknown attributes would avoid the error) | Users.UpdateCurrentUserRouteAsWritten, Users.UpdateCurrentUserNeverApplies, Users.UpdateCurrentUserEmailFails | Users.UpdateCurrentUserRoute |

=== FILE: auth.dfy ===
/** The access dependencies every route is built from: the active-user
    check, the role-rank permission check, their composition, and the
    owner-or-librarian rule of the reservation and lending routes.

    Resolving the bearer token to a user (JWT decoding and the username
    lookup) is outside the model: the dependencies receive its result, the
    user record or `None`.
 */
module Auth {
  import opened Wrappers
  import opened Enums
  import opened Store

  const NoAuthenticatedUser := "No authenticated user."
  const NotActiveUser := "Not an active user."
  const NotAuthorized := "You're not authorized to access this resource"

  predicate IsActive(u: User) {
    u.status == Some(Active)
  }

  /** `get_current_active_user`. */
  function CurrentActiveUser(u: Option<User>): (r: Result<User>)
    ensures u.None? ==> r == Raise(Unauthorized, NoAuthenticatedUser)
    ensures u.Some? && !IsActive(u.value) ==> r == Raise(Unauthorized, NotActiveUser)
    ensures r.Success? <==> u.Some? && IsActive(u.value)
    ensures r.Success? ==> r.value == u.value
  {
    if u.None? then Raise(Unauthorized, NoAuthenticatedUser)
    else if u.value.status != Some(Active) then Raise(Unauthorized, NotActiveUser)
    else Success(u.value)
  }

  /** `verify_user_permissions`: rejects exactly the users ranked below the
      required role. */
  function VerifyUserPermissions(u: User, role: UserRole): (o: Outcome)
    ensures o.Fail? <==> RoleRank(u.role) < RoleRank(Some(role))
    ensures o.Fail? ==> o.error == Error(Forbidden, NotAuthorized)
  {
    if RoleRank(u.role) < RoleRank(Some(role)) then Fail(Error(Forbidden, NotAuthorized)) else Pass
  }

  /** `get_current_active_user_with_permissions(role)`: the active check
      first, then the rank check. */
  function CurrentUserWithPermissions(u: Option<User>, role: UserRole): (r: Result<User>)
    ensures u.None? ==> r == Raise(Unauthorized, NoAuthenticatedUser)
    ensures u.Some? && !IsActive(u.value) ==> r == Raise(Unauthorized, NotActiveUser)
    ensures u.Some? && IsActive(u.value) && RoleRank(u.value.role) < RoleRank(Some(role))
      ==> r == Raise(Forbidden, NotAuthorized)
    ensures r.Success? <==> u.Some? && IsActive(u.value) && RoleRank(u.value.role) >= RoleRank(Some(role))
    ensures r.Success? ==> r.value == u.value
  {
    var user :- CurrentActiveUser(u);
    var o := VerifyUserPermissions(user, role);
    if o.Fail? then Failure(o.error) else Success(user)
  }

  /** Admins pass every check, librarians pass librarian checks but not
      admin checks, and default (or role-less) users pass only default
      checks. */
  lemma PermissionLadder(u: User)
    ensures u.role == Some(Admin) ==> forall r :: VerifyUserPermissions(u, r) == Pass
    ensures u.role == Some(Librarian) ==>
      VerifyUserPermissions(u, Librarian) == Pass && VerifyUserPermissions(u, Admin).Fail?
    ensures u.role in {None, Some(Default)} ==>
      VerifyUserPermissions(u, Default) == Pass && VerifyUserPermissions(u, Librarian).Fail?
  {
  }

  /** Passing a check implies passing every check of a lower or equal role. */
  lemma PermissionIsMonotone(u: User, high: UserRole, low: UserRole)
    requires RoleRank(Some(low)) <= RoleRank(Some(high))
    requires VerifyUserPermissions(u, high) == Pass
    ensures VerifyUserPermissions(u, low) == Pass
  {
  }

  /** The rule of `verify_reservation_access` and `verify_lending_access`:
      the owner passes, anyone else needs librarian rank. */
  function OwnerOrLibrarian(ownerId: int, current: User): (o: Outcome)
    ensures o == Pass <==> ownerId == current.id || RoleRank(current.role) >= RoleRank(Some(Librarian))
    ensures o.Fail? ==> o.error == Error(Forbidden, NotAuthorized)
  {
    if ownerId != current.id then VerifyUserPermissions(current, Librarian) else Pass
  }
}

=== FILE: book_items.dfy ===
/** The inventory ledger: creation of book copies, the merge-update that is
    the only way any copy field changes, the foreign-key checks both run
    first, the manual-status override of the public update route, and the
    copies list query.
 */
module BookItems {
  import opened Wrappers
  import opened Enums
  import opened Store
  import opened Filters

  /** `BookItemBase`: every copy field optional.  It is the shape of an
      update (unset and `None` are the same here, because the merge drops
      both) and of the empty record a creation validates against. */
  datatype ItemFields = ItemFields(
    barcode: Option<string>,
    condition: Option<BookItemCondition>,
    libraryId: Option<int>,
    rackId: Option<int>,
    status: Option<BookItemStatus>)

  /** `BookItemBase()`: the empty record. */
  const NoFields: ItemFields := ItemFields(None, None, None, None, None)

  /** An internal update that sets the status and nothing else. */
  function StatusOnly(s: BookItemStatus): ItemFields {
    NoFields.(status := Some(s))
  }

  function FieldsOf(c: BookItem): ItemFields {
    ItemFields(Some(c.barcode), Some(c.condition), c.libraryId, c.rackId, Some(c.status))
  }

  /** `BookItemCreate`: barcode, condition, library and a manual status are
      required; the rack is optional. */
  datatype NewBookItem = NewBookItem(
    barcode: string,
    condition: BookItemCondition,
    libraryId: int,
    rackId: Option<int>,
    status: ManualStatus)

  function FieldsOfNew(n: NewBookItem): ItemFields {
    ItemFields(Some(n.barcode), Some(n.condition), Some(n.libraryId), n.rackId, Some(n.status))
  }

  /** `BookItemUpdate`: the public update body; its status can only be one
      of the manual statuses. */
  datatype ItemUpdate = ItemUpdate(
    barcode: Option<string>,
    condition: Option<BookItemCondition>,
    libraryId: Option<int>,
    rackId: Option<int>,
    status: Option<ManualStatus>)

  const BarcodeExists := "Given barcode already exists in database."
  const NoLibrary := "No library found with that id."
  const NoRack := "No rack found with that id."
  const RackElsewhere := "Given rack does not belong to book item library."
  const NoBookItem := "No book item found with that id."
  const NoBook := "No book found with that id."

  predicate BarcodeTaken(s: State, barcode: string) {
    exists k :: k in s.copies && s.copies[k].barcode == barcode
  }

  // The four rejections of `validate_foreign_keys_update`, in the order the
  // source tests them.

  predicate BarcodeConflict(s: State, cur: ItemFields, upd: ItemFields) {
    TruthyText(upd.barcode) && upd.barcode != cur.barcode && BarcodeTaken(s, upd.barcode.value)
  }

  predicate LibraryMissing(s: State, cur: ItemFields, upd: ItemFields) {
    TruthyId(upd.libraryId) && upd.libraryId != cur.libraryId && upd.libraryId.value !in s.libraries
  }

  predicate RackMissing(s: State, upd: ItemFields) {
    TruthyId(upd.rackId) && upd.rackId.value !in s.racks
  }

  /** The rack is compared with the library named in the same update only;
      the copy's current library is never consulted. */
  predicate RackMismatch(s: State, upd: ItemFields) {
    && TruthyId(upd.rackId) && upd.rackId.value in s.racks
    && TruthyId(upd.libraryId) && s.racks[upd.rackId.value].libraryId != upd.libraryId.value
  }

  function ValidateForeignKeys(s: State, cur: ItemFields, upd: ItemFields): (o: Outcome)
    ensures BarcodeConflict(s, cur, upd) ==> o == Fail(Error(BadRequest, BarcodeExists))
    ensures !BarcodeConflict(s, cur, upd) && LibraryMissing(s, cur, upd) ==> o == Fail(Error(NotFound, NoLibrary))
    ensures !BarcodeConflict(s, cur, upd) && !LibraryMissing(s, cur, upd) && RackMissing(s, upd)
      ==> o == Fail(Error(NotFound, NoRack))
    ensures !BarcodeConflict(s, cur, upd) && !LibraryMissing(s, cur, upd) && !RackMissing(s, upd) && RackMismatch(s, upd)
      ==> o == Fail(Error(BadRequest, RackElsewhere))
    ensures o == Pass <==>
      !BarcodeConflict(s, cur, upd) && !LibraryMissing(s, cur, upd) && !RackMissing(s, upd) && !RackMismatch(s, upd)
  {
    if TruthyText(upd.barcode) && upd.barcode != cur.barcode && BarcodeTaken(s, upd.barcode.value) then
      Fail(Error(BadRequest, BarcodeExists))
    else if TruthyId(upd.libraryId) && upd.libraryId != cur.libraryId && upd.libraryId.value !in s.libraries then
      Fail(Error(NotFound, NoLibrary))
    else if TruthyId(upd.rackId) then
      if upd.rackId.value !in s.racks then Fail(Error(NotFound, NoRack))
      else if TruthyId(upd.libraryId) && s.racks[upd.rackId.value].libraryId != upd.libraryId.value then
        Fail(Error(BadRequest, RackElsewhere))
      else Pass
    else Pass
  }

  /** `book_item.copy(update=update.dict(exclude_unset=True, exclude_none=True))`. */
  function Merge(c: BookItem, p: ItemFields): (m: BookItem)
    ensures m.id == c.id && m.bookId == c.bookId
    ensures m.barcode == (if p.barcode.Some? then p.barcode.value else c.barcode)
    ensures m.condition == (if p.condition.Some? then p.condition.value else c.condition)
    ensures m.status == (if p.status.Some? then p.status.value else c.status)
    ensures m.libraryId == (if p.libraryId.Some? then p.libraryId else c.libraryId)
    ensures m.rackId == (if p.rackId.Some? then p.rackId else c.rackId)
  {
    BookItem(
      c.id,
      p.barcode.GetOr(c.barcode),
      p.condition.GetOr(c.condition),
      p.status.GetOr(c.status),
      c.bookId,
      if p.libraryId.Some? then p.libraryId else c.libraryId,
      if p.rackId.Some? then p.rackId else c.rackId)
  }

  /** Merging is idempotent, an empty update changes nothing, and merging
      the copy's own fields gives the copy back. */
  lemma MergeLaws(c: BookItem, p: ItemFields)
    ensures Merge(Merge(c, p), p) == Merge(c, p)
    ensures Merge(c, NoFields) == c
    ensures Merge(c, FieldsOf(c)) == c
  {
  }

  /** `update_book_item` on the copy with the given id (read as the route's
      path dependency reads it). */
  function UpdateBookItem(s: State, id: int, p: ItemFields): (r: Result<(State, BookItem)>)
    ensures id !in s.copies ==> r == Raise(NotFound, NoBookItem)
    ensures id in s.copies ==>
      (r.Success? <==> ValidateForeignKeys(s, FieldsOf(s.copies[id]), p) == Pass)
    ensures id in s.copies && r.Failure? ==> Fail(r.error) == ValidateForeignKeys(s, FieldsOf(s.copies[id]), p)
    ensures r.Success? ==>
      && r.value.1 == Merge(s.copies[id], p)
      && r.value.0 == s.(copies := s.copies[id := r.value.1])
  {
    if id !in s.copies then Raise(NotFound, NoBookItem)
    else
      var c := s.copies[id];
      var m := Merge(c, p);
      var o := ValidateForeignKeys(s, FieldsOf(c), p);
      if o.Fail? then Failure(o.error)
      else Success((s.(copies := s.copies[id := m]), m))
  }

  /** An update that names only a status passes every check, so the internal
      status writes of the reservation manager never fail. */
  lemma StatusOnlyUpdateSucceeds(s: State, id: int, st: BookItemStatus)
    requires id in s.copies
    ensures UpdateBookItem(s, id, StatusOnly(st)).Success?
    ensures UpdateBookItem(s, id, StatusOnly(st)).value.1 == s.copies[id].(status := st)
  {
  }

  /** The barcode check fires only for a non-empty barcode that differs from
      the copy's own and is already stored. */
  lemma BarcodeCheckOnlyWhenChanged(s: State, id: int, p: ItemFields)
    requires id in s.copies
    requires p.barcode == Some(s.copies[id].barcode) || p.barcode == None || p.barcode == Some("")
    ensures UpdateBookItem(s, id, p) != Raise(BadRequest, BarcodeExists)
  {
  }

  /** A rack from another library passes when the update does not also name
      a library, even though it contradicts the copy's current library. */
  lemma RackCheckIgnoresCurrentLibrary(s: State, id: int, rack: int)
    requires id in s.copies && rack in s.racks && rack != 0
    requires s.copies[id].libraryId != Some(s.racks[rack].libraryId)
    ensures UpdateBookItem(s, id, NoFields.(rackId := Some(rack))).Success?
    ensures var c := UpdateBookItem(s, id, NoFields.(rackId := Some(rack))).value.1;
      c.rackId == Some(rack) && c.libraryId != Some(s.racks[rack].libraryId)
  {
  }

  /** The public route's override of a requested manual status: asking for
      `available` only takes effect on a lost or written-off copy. */
  function ManualOverride(current: BookItemStatus, requested: Option<ManualStatus>): (eff: Option<BookItemStatus>)
    ensures requested != Some(Available) ==> eff == requested
    ensures requested == Some(Available) ==> eff == Some(if current in {Lost, WrittenOff} then Available else current)
  {
    if requested == Some(Available) && current !in {Lost, WrittenOff} then Some(current)
    else requested
  }

  function PublicFields(s: State, id: int, u: ItemUpdate): ItemFields
    requires id in s.copies
  {
    ItemFields(u.barcode, u.condition, u.libraryId, u.rackId, ManualOverride(s.copies[id].status, u.status))
  }

  /** `PUT /book-items/{id}/`: the override, then the ledger update. */
  function UpdateBookItemById(s: State, id: int, u: ItemUpdate): (r: Result<(State, BookItem)>)
    ensures id !in s.copies ==> r == Raise(NotFound, NoBookItem)
    ensures r.Success? ==> id in s.copies && r.value.0 == s.(copies := s.copies[id := r.value.1])
    // the status after a public update
    ensures r.Success? ==> r.value.1.status == s.copies[id].status || IsManual(r.value.1.status)
    ensures r.Success? && u.status == None ==> r.value.1.status == s.copies[id].status
    ensures r.Success? && u.status == Some(Available) && s.copies[id].status !in {Lost, WrittenOff}
      ==> r.value.1.status == s.copies[id].status
    ensures r.Success? && u.status == Some(Available) && s.copies[id].status in {Lost, WrittenOff}
      ==> r.value.1.status == Available
    ensures r.Success? && u.status.Some? && u.status.value in {Lost, WrittenOff} ==> r.value.1.status == u.status.value
    // the status never decides whether the update is accepted
    ensures id in s.copies ==>
      (r.Success? <==> ValidateForeignKeys(s, FieldsOf(s.copies[id]), PublicFields(s, id, u).(status := None)) == Pass)
  {
    if id !in s.copies then Raise(NotFound, NoBookItem)
    else UpdateBookItem(s, id, PublicFields(s, id, u))
  }

  /** `create_book_item` for the book in the path: validates against the
      empty record, then inserts under a fresh id. */
  function CreateBookItem(s: State, bookId: int, n: NewBookItem): (r: Result<(State, BookItem)>)
    ensures bookId !in s.books ==> r == Raise(NotFound, NoBook)
    ensures bookId in s.books ==>
      (r.Success? <==> ValidateForeignKeys(s, NoFields, FieldsOfNew(n)) == Pass)
    ensures r.Success? ==>
      var c := r.value.1;
      && c.id == s.nextId && c.bookId == bookId
      && c.barcode == n.barcode && c.condition == n.condition
      && c.libraryId == Some(n.libraryId) && c.rackId == n.rackId
      && c.status == n.status && c.status !in {Reserved, Loaned}
      && r.value.0 == s.(copies := s.copies[c.id := c], nextId := s.nextId + 1)
    // against the empty record, a non-empty barcode and a non-zero library id are always checked
    ensures r.Success? && n.barcode != "" ==> !BarcodeTaken(s, n.barcode)
    ensures r.Success? && n.libraryId != 0 ==> n.libraryId in s.libraries
    ensures r.Success? && TruthyId(n.rackId) ==>
      n.rackId.value in s.racks && (n.libraryId != 0 ==> s.racks[n.rackId.value].libraryId == n.libraryId)
  {
    if bookId !in s.books then Raise(NotFound, NoBook)
    else
      var o := ValidateForeignKeys(s, NoFields, FieldsOfNew(n));
      if o.Fail? then Failure(o.error)
      else
        var c := BookItem(s.nextId, n.barcode, n.condition, n.status, bookId, Some(n.libraryId), n.rackId);
        Success((s.(copies := s.copies[c.id := c], nextId := s.nextId + 1), c))
  }

  /** The ledger updates keep every row under its own id and below the
      serial counter. */
  lemma LedgerPreservesValid(s: State, id: int, p: ItemFields, bookId: int, n: NewBookItem, u: ItemUpdate)
    requires Valid(s)
    ensures UpdateBookItem(s, id, p).Success? ==> Valid(UpdateBookItem(s, id, p).value.0)
    ensures UpdateBookItemById(s, id, u).Success? ==> Valid(UpdateBookItemById(s, id, u).value.0)
    ensures CreateBookItem(s, bookId, n).Success? ==> Valid(CreateBookItem(s, bookId, n).value.0)
  {
  }

  // ------------------------------------------------------------ list query

  const ListStart := "\n    SELECT \n        id, \n        barcode, \n        condition,\n        status, \n        book_id, \n        library_id, \n        rack_id, \n        created_at,\n        updated_at,\n        count(*) OVER() AS query_count\n    FROM book_items BI\n"

  const Rules: seq<Rule> := [
    Rule("condition", "BI.condition = :condition"),
    Rule("status", "BI.status = :status"),
    Rule("rack_id", "BI.rack_id = :rack_id"),
    Rule("library_id", "BI.library_id = :library_id"),
    Rule("book_id", "BI.book_id = :book_id")
  ]

  const OrderBy := " ORDER BY BI.id "

  /** `list_book_items_filtered_query`. */
  function ListBookItemsQuery(f: FilterDict, addSemicolon: bool): (q: string)
    ensures Text.StartsWith(q, ListStart)
    ensures HasWhere(q, ListStart) <==> exists i :: 0 <= i < |Rules| && Has(f, Rules[i].key)
    ensures var cs := Select(f, Rules);
      cs != [] ==> Text.StartsWith(q, ListStart + " WHERE " + Text.Join(cs, " AND ") + OrderBy)
    ensures Select(f, Rules) == [] ==> Text.StartsWith(q, ListStart + OrderBy)
    ensures Text.EndsWith(q, OrderBy + Paging(f) + Terminator(addSemicolon))
    ensures |q| == |ListStart| + |WhereClause(Select(f, Rules))| + |OrderBy| + |Paging(f)| + |Terminator(addSemicolon)|
    ensures |q| > 0 && (q[|q| - 1] == ';' <==> addSemicolon)
  {
    Assemble(ListStart, Select(f, Rules), OrderBy, f, addSemicolon)
  }
}

=== FILE: books.dfy ===
/** Books: the isbn uniqueness rule, creation and update (with the title
    fallback and the author-set replacement), the path lookup, the query
    filter dict and the list query builder with its joins.

    Author names live in two tables: `authors` (every known name, grown by
    `create_authors_that_dont_exist`) and `books_to_authors` (the pairs, with
    `ON CONFLICT DO NOTHING`, so a book's authors form a set).
 */
module Books {
  import opened Wrappers
  import opened Store
  import opened Text
  import opened Filters

  const IsbnExists := "Given isbn already exists in database."
  const NoBook := "No book found with that id."
  /** The validation error of a `max_length=50` query parameter. */
  const TooLong := "ensure this value has at most 50 characters"

  /** `BookCreate`: the title is required, the rest optional. */
  datatype BookCreate = BookCreate(
    isbn: Option<string>,
    title: string,
    description: Option<string>,
    publisher: Option<string>,
    pageCount: Option<int>,
    publishDate: Option<int>,
    authors: Option<seq<string>>)

  /** `BookUpdate` as `exclude_unset` sees it; `authors` is never part of
      the merged row, so only its value matters. */
  datatype BookUpdate = BookUpdate(
    isbn: Field<string>,
    title: Field<string>,
    description: Field<string>,
    publisher: Field<string>,
    pageCount: Field<int>,
    publishDate: Field<int>,
    authors: Option<seq<string>>)

  /** `BookPublic`: the row with its author names. */
  datatype BookPublic = BookPublic(book: Book, authors: set<string>)

  /** The `books_to_authors` names of a book (no row: no authors). */
  function AuthorsOf(s: State, bookId: int): set<string> {
    if bookId in s.bookAuthors then s.bookAuthors[bookId] else {}
  }

  /** `populate_book`. */
  function Populate(s: State, b: Book): (p: BookPublic)
    ensures p.book == b && p.authors == AuthorsOf(s, b.id)
  {
    BookPublic(b, AuthorsOf(s, b.id))
  }

  /** `if new_book.authors:` — a list that is present and non-empty. */
  predicate AuthorsGiven(a: Option<seq<string>>) {
    a.Some? && |a.value| > 0
  }

  function NameSet(names: seq<string>): (r: set<string>)
    ensures forall n :: n in r <==> n in names
  {
    set n | n in names
  }

  /** Some stored book has this isbn (`get_book_by_isbn`). */
  predicate IsbnTaken(s: State, isbn: string) {
    exists k :: k in s.books && s.books[k].isbn == Some(isbn)
  }

  /** `check_isbn_exists`: `WHERE isbn = NULL` matches nothing, so a
      missing isbn never conflicts. */
  function CheckIsbnExists(s: State, isbn: Option<string>): (o: Outcome)
    ensures o.Fail? <==> isbn.Some? && IsbnTaken(s, isbn.value)
    ensures o.Fail? ==> o.error == Error(BadRequest, IsbnExists)
  {
    if isbn.Some? && IsbnTaken(s, isbn.value) then Fail(Error(BadRequest, IsbnExists)) else Pass
  }

  /** `create_book`: the isbn check, the insert under the next id, then the
      author names when the list is non-empty. */
  function CreateBook(s: State, nb: BookCreate): (r: Result<(State, BookPublic)>)
    ensures r.Failure? <==> nb.isbn.Some? && IsbnTaken(s, nb.isbn.value)
    ensures r.Failure? ==> r.error == Error(BadRequest, IsbnExists)
    ensures r.Success? ==>
      var (t, p) := r.value;
      && p.book == Book(s.nextId, nb.isbn, nb.title, nb.description, nb.publisher, nb.pageCount, nb.publishDate)
      && t.books == s.books[s.nextId := p.book] && t.nextId == s.nextId + 1
      && (forall n :: n in AuthorsOf(t, s.nextId) <==> AuthorsGiven(nb.authors) && n in nb.authors.value)
      && (forall n :: n in t.authors <==> n in s.authors || n in AuthorsOf(t, s.nextId))
      && (forall k :: k != s.nextId ==> AuthorsOf(t, k) == AuthorsOf(s, k))
      && p.authors == AuthorsOf(t, s.nextId)
      && t == s.(books := t.books, nextId := t.nextId, authors := t.authors, bookAuthors := t.bookAuthors)
  {
    var o := CheckIsbnExists(s, nb.isbn);
    if o.Fail? then Failure(o.error)
    else
      var id := s.nextId;
      var b := Book(id, nb.isbn, nb.title, nb.description, nb.publisher, nb.pageCount, nb.publishDate);
      var names := if AuthorsGiven(nb.authors) then NameSet(nb.authors.value) else {};
      var t := s.(books := s.books[id := b], nextId := id + 1,
                  authors := s.authors + names, bookAuthors := s.bookAuthors[id := names]);
      Success((t, Populate(t, b)))
  }

  /** Creating a book makes its isbn taken: a second create with the same
      isbn fails. */
  lemma CreateTakesIsbn(s: State, nb: BookCreate, again: BookCreate)
    requires CreateBook(s, nb).Success? && nb.isbn.Some?
    requires again.isbn == nb.isbn
    ensures CreateBook(CreateBook(s, nb).value.0, again) == Raise(BadRequest, IsbnExists)
  {
    var t := CreateBook(s, nb).value.0;
    assert t.books[s.nextId].isbn == nb.isbn;
  }

  lemma CreateBookPreservesValid(s: State, nb: BookCreate)
    requires Valid(s) && CreateBook(s, nb).Success?
    ensures Valid(CreateBook(s, nb).value.0)
  {
  }

  /** `get_book_by_id_from_path`. */
  function GetBookByIdFromPath(s: State, id: int): (r: Result<Book>)
    ensures id < 1 ==> r == Raise(BadRequest, BelowOne)
    ensures id >= 1 && id !in s.books ==> r == Raise(NotFound, NoBook)
    ensures r.Success? <==> id >= 1 && id in s.books
    ensures r.Success? ==> r.value == s.books[id]
  {
    if id < 1 then Raise(BadRequest, BelowOne)
    else if id !in s.books then Raise(NotFound, NoBook)
    else Success(s.books[id])
  }

  // --------------------------------------------------------------- update

  function Pick<T>(f: Field<T>, current: Option<T>): (v: Option<T>)
    ensures f.Unset? ==> v == current
    ensures f.Set? ==> v == f.given
  {
    if f.Set? then f.given else current
  }

  /** The row `book.copy(update=...)` produces. A falsy title (unset, null
      or empty) is replaced by the current title before the merge. */
  function MergeBook(b: Book, u: BookUpdate): (m: Book)
    ensures m.id == b.id
    ensures m.title == (if u.title.Set? && TruthyText(u.title.given) then u.title.given.value else b.title)
    ensures m.isbn == Pick(u.isbn, b.isbn) && m.description == Pick(u.description, b.description)
    ensures m.publisher == Pick(u.publisher, b.publisher)
    ensures m.pageCount == Pick(u.pageCount, b.pageCount) && m.publishDate == Pick(u.publishDate, b.publishDate)
  {
    var title := if u.title.Set? && TruthyText(u.title.given) then u.title.given.value else b.title;
    b.(isbn := Pick(u.isbn, b.isbn), title := title, description := Pick(u.description, b.description),
       publisher := Pick(u.publisher, b.publisher), pageCount := Pick(u.pageCount, b.pageCount),
       publishDate := Pick(u.publishDate, b.publishDate))
  }

  /** The isbn the update sends (`book_update.isbn`, `None` when unset). */
  function SentIsbn(u: BookUpdate): Option<string> {
    if u.isbn.Set? then u.isbn.given else None
  }

  /** The author rows after a non-empty authors update: the current names
      not in the new list are removed, then every new name is added. */
  function ReplaceAuthors(current: set<string>, names: seq<string>): (r: set<string>)
    ensures forall n :: n in r <==> n in names
  {
    var removed := set n | n in current && n !in names;
    (current - removed) + NameSet(names)
  }

  /** `update_book`: the isbn check runs on the sent isbn with no "has it
      changed" test, before any write. */
  function UpdateBook(s: State, id: int, u: BookUpdate): (r: Result<(State, BookPublic)>)
    requires id in s.books && s.books[id].id == id
    ensures r.Failure? <==> SentIsbn(u).Some? && IsbnTaken(s, SentIsbn(u).value)
    ensures r.Failure? ==> r.error == Error(BadRequest, IsbnExists)
    ensures r.Success? ==>
      var (t, p) := r.value;
      && t.books == s.books[id := MergeBook(s.books[id], u)]
      && (AuthorsGiven(u.authors) ==> forall n :: n in AuthorsOf(t, id) <==> n in u.authors.value)
      && (AuthorsGiven(u.authors) ==> forall n :: n in u.authors.value ==> n in t.authors)
      && (!AuthorsGiven(u.authors) ==> t.authors == s.authors && t.bookAuthors == s.bookAuthors)
      && (forall k :: k != id ==> AuthorsOf(t, k) == AuthorsOf(s, k))
      && p.book == t.books[id] && p.authors == AuthorsOf(t, id)
      && t == s.(books := t.books, authors := t.authors, bookAuthors := t.bookAuthors)
  {
    var merged := MergeBook(s.books[id], u);
    :- CheckIsbnExists(s, SentIsbn(u));
    var t := s.(books := s.books[id := merged]);
    var t' :=
      if AuthorsGiven(u.authors) then
        t.(authors := t.authors + NameSet(u.authors.value),
           bookAuthors := t.bookAuthors[id := ReplaceAuthors(AuthorsOf(t, id), u.authors.value)])
      else t;
    Success((t', Populate(t', merged)))
  }

  /** Re-sending the book's own isbn is rejected as a duplicate. */
  lemma UpdateOwnIsbnFails(s: State, id: int, u: BookUpdate)
    requires id in s.books && s.books[id].id == id
    requires s.books[id].isbn.Some? && u.isbn == Set(s.books[id].isbn)
    ensures UpdateBook(s, id, u) == Raise(BadRequest, IsbnExists)
  {
  }

  /** An update that sends no isbn (or `null`) always succeeds. */
  lemma UpdateWithoutIsbnSucceeds(s: State, id: int, u: BookUpdate)
    requires id in s.books && s.books[id].id == id && u.isbn in {Unset, Set(None)}
    ensures UpdateBook(s, id, u).Success?
  {
  }

  /** An update with no field set changes nothing and returns the stored
      book. */
  lemma EmptyUpdateIsNoOp(s: State, id: int)
    requires id in s.books && s.books[id].id == id
    ensures UpdateBook(s, id, BookUpdate(Unset, Unset, Unset, Unset, Unset, Unset, None))
         == Success((s, Populate(s, s.books[id])))
  {
    assert s.books[id := s.books[id]] == s.books;
  }

  /** Sending the authors the book already has leaves its author set as it
      was. */
  lemma SameAuthorsKeepSet(s: State, id: int, u: BookUpdate)
    requires id in s.books && s.books[id].id == id
    requires AuthorsGiven(u.authors) && UpdateBook(s, id, u).Success?
    requires forall n :: n in AuthorsOf(s, id) <==> n in u.authors.value
    ensures AuthorsOf(UpdateBook(s, id, u).value.0, id) == AuthorsOf(s, id)
  {
  }

  // ---------------------------------------------------------- filter dict

  predicate Short(v: Option<string>) {
    v.None? || |v.value| <= 50
  }

  /** `f"%{v}%"`: the ILIKE pattern for a substring match. */
  function Contains(v: string): (p: string)
    ensures |p| == |v| + 2 && p[0] == '%' && p[|p| - 1] == '%' && p[1..|p| - 1] == v
  {
    "%" + v + "%"
  }

  function AddText(f: FilterDict, key: string, v: Option<string>): FilterDict {
    if TruthyText(v) then f[key := TextVal(Contains(v.value))] else f
  }

  /** `get_book_filters_from_query`: each text parameter is at most 50
      characters; the truthy ones become substring patterns, and
      `publish_date` is passed through. */
  function BookFiltersFromQuery(inisbn: Option<string>, intitle: Option<string>, inpublisher: Option<string>,
                                inauthor: Option<string>, publishDate: Option<int>): (r: Result<FilterDict>)
    ensures r.Success? <==> Short(inisbn) && Short(intitle) && Short(inpublisher) && Short(inauthor)
    ensures r.Failure? ==> r.error == Error(BadRequest, TooLong)
    ensures r.Success? ==>
      && ("inisbn" in r.value <==> TruthyText(inisbn))
      && ("intitle" in r.value <==> TruthyText(intitle))
      && ("inpublisher" in r.value <==> TruthyText(inpublisher))
      && ("inauthor" in r.value <==> TruthyText(inauthor))
      && ("publish_date" in r.value <==> publishDate.Some?)
      && (TruthyText(inisbn) ==> r.value["inisbn"] == TextVal(Contains(inisbn.value)))
      && (TruthyText(intitle) ==> r.value["intitle"] == TextVal(Contains(intitle.value)))
      && (TruthyText(inpublisher) ==> r.value["inpublisher"] == TextVal(Contains(inpublisher.value)))
      && (TruthyText(inauthor) ==> r.value["inauthor"] == TextVal(Contains(inauthor.value)))
      && (publishDate.Some? ==> r.value["publish_date"] == DateVal(publishDate.value))
      && (forall k :: k in r.value ==> k in {"inisbn", "intitle", "inpublisher", "inauthor", "publish_date"})
  {
    if !(Short(inisbn) && Short(intitle) && Short(inpublisher) && Short(inauthor)) then
      Raise(BadRequest, TooLong)
    else
      var f1 := AddText(map[], "inisbn", inisbn);
      var f2 := AddText(f1, "inauthor", inauthor);
      var f3 := AddText(f2, "intitle", intitle);
      var f4 := AddText(f3, "inpublisher", inpublisher);
      Success(if publishDate.Some? then f4["publish_date" := DateVal(publishDate.value)] else f4)
  }

  /** The filters built from a query string keep every search text: the
      text is what lies between the two wildcards of its dict entry, so two
      requests that differ in a search text build different filters. */
  lemma SearchTextsRecovered(inisbn: Option<string>, intitle: Option<string>, inpublisher: Option<string>,
                             inauthor: Option<string>, publishDate: Option<int>)
    requires BookFiltersFromQuery(inisbn, intitle, inpublisher, inauthor, publishDate).Success?
    ensures var f := BookFiltersFromQuery(inisbn, intitle, inpublisher, inauthor, publishDate).value;
      && (TruthyText(inisbn) ==> Unwrap(f["inisbn"]) == inisbn.value)
      && (TruthyText(intitle) ==> Unwrap(f["intitle"]) == intitle.value)
      && (TruthyText(inpublisher) ==> Unwrap(f["inpublisher"]) == inpublisher.value)
      && (TruthyText(inauthor) ==> Unwrap(f["inauthor"]) == inauthor.value)
  {
    var f := BookFiltersFromQuery(inisbn, intitle, inpublisher, inauthor, publishDate).value;
    if TruthyText(inisbn) { UnwrapContains(inisbn.value); }
    if TruthyText(intitle) { UnwrapContains(intitle.value); }
    if TruthyText(inpublisher) { UnwrapContains(inpublisher.value); }
    if TruthyText(inauthor) { UnwrapContains(inauthor.value); }
  }

  /** The search text inside a `%...%` dict entry. */
  function Unwrap(v: FilterValue): string {
    if v.TextVal? && |v.t| >= 2 then v.t[1..|v.t| - 1] else ""
  }

  lemma UnwrapContains(v: string)
    ensures Unwrap(TextVal(Contains(v))) == v
  {
  }

  // ----------------------------------------------------------- list query

  const ListStart := "\n    SELECT \n        B.id,\n        B.isbn,\n        B.title,\n        B.description,\n        B.publisher,\n        B.page_count,\n        B.publish_date,\n        B.created_at,\n        B.updated_at,\n        count(*) OVER() AS query_count\n    FROM books B\n"

  const AuthorJoin := "INNER JOIN books_to_authors BA ON B.id = BA.book_id"
  const ItemJoin := "INNER JOIN book_items BI ON BI.book_id = B.id"

  const Rules: seq<Rule> := [
    Rule("inisbn", "B.isbn ILIKE :inisbn"),
    Rule("inauthor", "BA.author_name ILIKE :inauthor"),
    Rule("intitle", "B.title ILIKE :intitle"),
    Rule("inpublisher", "B.publisher ILIKE :inpublisher"),
    Rule("publish_date", "publish_date = :publish_date"),
    Rule("library_id", "BI.library_id = :library_id"),
    Rule("rack_id", "BI.rack_id = :rack_id")
  ]

  /** `" GROUP BY B.id "` followed by `" ORDER BY B.id "`. */
  const GroupOrder := " GROUP BY B.id " + " ORDER BY B.id "

  /** The joins the filters need: the authors join for `inauthor`, and one
      book_items join for `library_id`, `rack_id` or both. */
  function JoinParts(f: FilterDict): (js: seq<string>)
    ensures AuthorJoin in js <==> Has(f, "inauthor")
    ensures ItemJoin in js <==> Has(f, "library_id") || Has(f, "rack_id")
    ensures multiset(js)[ItemJoin] <= 1 && multiset(js)[AuthorJoin] <= 1
    ensures forall j :: j in js ==> j in {AuthorJoin, ItemJoin}
  {
    (if Has(f, "inauthor") then [AuthorJoin] else [])
    + (if Has(f, "library_id") || Has(f, "rack_id") then [ItemJoin] else [])
  }

  function JoinClause(f: FilterDict): string {
    var js := JoinParts(f);
    if js == [] then "" else " " + Join(js, " ") + " "
  }

  /** `list_books_filtered_query`. */
  function ListBooksQuery(f: FilterDict, addSemicolon: bool): (q: string)
    ensures StartsWith(q, ListStart + JoinClause(f))
    ensures HasWhere(q, ListStart + JoinClause(f)) <==> exists i :: 0 <= i < |Rules| && Has(f, Rules[i].key)
    ensures var cs := Select(f, Rules);
      cs != [] ==> StartsWith(q, ListStart + JoinClause(f) + " WHERE " + Join(cs, " AND ") + GroupOrder)
    ensures Select(f, Rules) == [] ==> StartsWith(q, ListStart + JoinClause(f) + GroupOrder)
    ensures EndsWith(q, GroupOrder + Paging(f) + Terminator(addSemicolon))
    ensures |q| == |ListStart| + |JoinClause(f)| + |WhereClause(Select(f, Rules))| + |GroupOrder| + |Paging(f)| + |Terminator(addSemicolon)|
    ensures |q| > 0 && (q[|q| - 1] == ';' <==> addSemicolon)
  {
    Assemble(ListStart + JoinClause(f), Select(f, Rules), GroupOrder, f, addSemicolon)
  }

  /** The query depends only on which filter keys are truthy, and on
      whether LIMIT and OFFSET are given, never on the values. */
  lemma ListBooksQueryIgnoresValues(f: FilterDict, g: FilterDict, addSemicolon: bool)
    requires SamePresence(f, g, Rules)
    requires (Get(f, "limit") == NoneVal) == (Get(g, "limit") == NoneVal)
    requires (Get(f, "offset") == NoneVal) == (Get(g, "offset") == NoneVal)
    ensures ListBooksQuery(f, addSemicolon) == ListBooksQuery(g, addSemicolon)
  {
    SelectIgnoresValues(f, g, Rules);
    assert Has(f, "inauthor") == Has(g, "inauthor") by { assert Rules[1].key == "inauthor"; }
    assert Has(f, "library_id") == Has(g, "library_id") by { assert Rules[5].key == "library_id"; }
    assert Has(f, "rack_id") == Has(g, "rack_id") by { assert Rules[6].key == "rack_id"; }
    assert JoinClause(f) == JoinClause(g);
    assert Paging(f) == Paging(g);
    AssembleReadsOnlyPaging(ListStart + JoinClause(f), Select(f, Rules), GroupOrder, f, g, addSemicolon);
  }
}

=== FILE: enums.dfy ===
/** The string enumerations of the library backend (copy status and
    condition, reservation status, user role and status), each with the
    string value it carries as a `str` enum, a parser for that string, and
    the numeric rank table of user roles.
 */
module Enums {
  import opened Wrappers

  // ---------------------------------------------------------------- copies

  datatype BookItemStatus = Available | Lost | WrittenOff | Reserved | Loaned

  /** The statuses a librarian may set by hand: available, lost, written_off. */
  predicate IsManual(s: BookItemStatus) {
    s == Available || s == Lost || s == WrittenOff
  }

  /** `BookItemManualStatus`: the manual statuses, as a subset of all statuses. */
  type ManualStatus = s: BookItemStatus | IsManual(s) witness Available

  datatype BookItemCondition = LikeNew | Good | Bad

  function StatusName(s: BookItemStatus): string {
    match s
    case Available => "available"
    case Lost => "lost"
    case WrittenOff => "written_off"
    case Reserved => "reserved"
    case Loaned => "loaned"
  }

  function ParseStatus(t: string): (r: Option<BookItemStatus>)
    ensures r.Some? ==> StatusName(r.value) == t
  {
    if t == "available" then Some(Available)
    else if t == "lost" then Some(Lost)
    else if t == "written_off" then Some(WrittenOff)
    else if t == "reserved" then Some(Reserved)
    else if t == "loaned" then Some(Loaned)
    else None
  }

  function ConditionName(c: BookItemCondition): string {
    match c
    case LikeNew => "like_new"
    case Good => "good"
    case Bad => "bad"
  }

  function ParseCondition(t: string): (r: Option<BookItemCondition>)
    ensures r.Some? ==> ConditionName(r.value) == t
  {
    if t == "like_new" then Some(LikeNew)
    else if t == "good" then Some(Good)
    else if t == "bad" then Some(Bad)
    else None
  }

  const AllStatuses: set<BookItemStatus> := {Available, Lost, WrittenOff, Reserved, Loaned}
  const ManualStatuses: set<BookItemStatus> := {Available, Lost, WrittenOff}
  const AllConditions: set<BookItemCondition> := {LikeNew, Good, Bad}

  /** A copy status is exactly one of five values, each with its own string;
      the string value parses back to the status and nothing else parses. */
  lemma StatusesAreFive()
    ensures |AllStatuses| == 5
    ensures forall s: BookItemStatus :: s in AllStatuses
    ensures forall s: BookItemStatus :: ParseStatus(StatusName(s)) == Some(s)
    ensures forall t: string :: ParseStatus(t).Some? <==> t in set s | s in AllStatuses :: StatusName(s)
  {
    forall s: BookItemStatus ensures s in AllStatuses {
      match s
      case Available =>
      case Lost =>
      case WrittenOff =>
      case Reserved =>
      case Loaned =>
    }
  }

  /** A copy condition is exactly one of three values: like_new, good, bad. */
  lemma ConditionsAreThree()
    ensures |AllConditions| == 3
    ensures forall c: BookItemCondition :: c in AllConditions
    ensures forall c: BookItemCondition :: ParseCondition(ConditionName(c)) == Some(c)
    ensures forall t: string :: ParseCondition(t).Some? <==> t in set c | c in AllConditions :: ConditionName(c)
  {
    forall c: BookItemCondition ensures c in AllConditions {
      match c
      case LikeNew =>
      case Good =>
      case Bad =>
    }
  }

  /** The manual statuses are a subset of all statuses and leave out exactly
      reserved and loaned. */
  lemma ManualStatusesAreSubset()
    ensures ManualStatuses < AllStatuses
    ensures AllStatuses - ManualStatuses == {Reserved, Loaned}
    ensures forall s: BookItemStatus :: IsManual(s) <==> s in ManualStatuses
  {
  }

  // ----------------------------------------------------------- reservations

  datatype ReservationStatus = Pending | Waiting | Cancelled | Completed

  function ReservationStatusName(s: ReservationStatus): string {
    match s
    case Pending => "pending"
    case Waiting => "waiting"
    case Cancelled => "cancelled"
    case Completed => "completed"
  }

  /** What request validation accepts for a `ReservationStatus` parameter. */
  function ParseReservationStatus(t: string): (r: Option<ReservationStatus>)
    ensures r.Some? ==> ReservationStatusName(r.value) == t
    ensures forall s :: ReservationStatusName(s) == t ==> r == Some(s)
  {
    if t == "pending" then Some(Pending)
    else if t == "waiting" then Some(Waiting)
    else if t == "cancelled" then Some(Cancelled)
    else if t == "completed" then Some(Completed)
    else None
  }

  /** Cancelled and completed reservations accept no further transition. */
  predicate IsTerminal(s: ReservationStatus) {
    s == Cancelled || s == Completed
  }

  // ------------------------------------------------------------------ users

  datatype UserRole = Default | Librarian | Admin

  datatype UserStatus = Active | Deactivated | Blacklisted

  const AllUserStatuses: set<UserStatus> := {Active, Deactivated, Blacklisted}

  /** `UserRole.get_numeric_value`: default 0, librarian 99, admin 999; any
      other value (only `None` can reach it here) falls back to 0. */
  function RoleRank(r: Option<UserRole>): (n: int)
    ensures n in {0, 99, 999}
    ensures r == Some(Librarian) <==> n == 99
    ensures r == Some(Admin) <==> n == 999
    ensures r !in {Some(Librarian), Some(Admin)} <==> n == 0
  {
    match r
    case Some(Default) => 0
    case Some(Librarian) => 99
    case Some(Admin) => 999
    case None => 0
  }

  /** The rank table orders the three roles strictly: default < librarian <
      admin, and a missing role ranks like default. */
  lemma RoleRankIsStrictOrder()
    ensures RoleRank(Some(Default)) < RoleRank(Some(Librarian)) < RoleRank(Some(Admin))
    ensures RoleRank(None) == RoleRank(Some(Default))
    ensures forall a: UserRole, b: UserRole :: a != b ==> RoleRank(Some(a)) != RoleRank(Some(b))
  {
  }

  /** A user status is exactly one of active, deactivated, blacklisted. */
  lemma UserStatusesAreThree()
    ensures |AllUserStatuses| == 3
    ensures forall s: UserStatus :: s in AllUserStatuses
  {
    forall s: UserStatus ensures s in AllUserStatuses {
      match s
      case Active =>
      case Deactivated =>
      case Blacklisted =>
    }
  }
}

=== FILE: filters.dfy ===
/** The pieces the `list_*_filtered_query` builders share: the filter dict
    they read with `dict.get`, Python truthiness of its values, the ordered
    selection of WHERE conjuncts, and the clause layout of the final text.

    Filter values never enter the SQL text: each conjunct names a bind
    parameter (`:book_id`, ...), and only whether a key is truthy decides
    whether its conjunct appears.
 */
module Filters {
  import opened Text

  datatype FilterValue = IntVal(i: int) | TextVal(t: string) | BoolVal(b: bool) | DateVal(d: int) | NoneVal

  type FilterDict = map<string, FilterValue>

  /** `filters.get(key)`: a missing key reads as `None`. */
  function Get(f: FilterDict, key: string): FilterValue {
    if key in f then f[key] else NoneVal
  }

  /** Python truthiness; a date object is always true. */
  predicate Truthy(v: FilterValue) {
    match v
    case IntVal(i) => i != 0
    case TextVal(t) => t != ""
    case BoolVal(b) => b
    case DateVal(_) => true
    case NoneVal => false
  }

  /** `if filters.get(key):` */
  predicate Has(f: FilterDict, key: string) {
    Truthy(Get(f, key))
  }

  /** One `if filters.get(key): where_query_parts.append(condition)` line. */
  datatype Rule = Rule(key: string, condition: string)

  /** The WHERE conjuncts a sequence of rules appends, in rule order. */
  function Select(f: FilterDict, rules: seq<Rule>): (cs: seq<string>)
    ensures |cs| <= |rules|
    ensures forall c :: c in cs <==> exists i :: 0 <= i < |rules| && Has(f, rules[i].key) && rules[i].condition == c
    ensures cs == [] <==> forall i :: 0 <= i < |rules| ==> !Has(f, rules[i].key)
  {
    if |rules| == 0 then []
    else
      var rest := Select(f, rules[1..]);
      assert forall i :: 1 <= i < |rules| ==> rules[i] == rules[1..][i - 1];
      if Has(f, rules[0].key) then [rules[0].condition] + rest else rest
  }

  /** One rule contributes its condition exactly when its key is truthy. */
  lemma SelectOne(f: FilterDict, r: Rule)
    ensures Select(f, [r]) == (if Has(f, r.key) then [r.condition] else [])
  {
    assert [r][1..] == [];
  }

  /** Selection distributes over concatenation of rule lists, so the
      conjuncts keep the order of the rules that produced them. */
  lemma {:induction false} SelectAppend(f: FilterDict, a: seq<Rule>, b: seq<Rule>)
    ensures Select(f, a + b) == Select(f, a) + Select(f, b)
    decreases |a|
  {
    if |a| > 0 {
      assert (a + b)[0] == a[0];
      assert (a + b)[1..] == a[1..] + b;
      SelectAppend(f, a[1..], b);
    } else {
      assert a + b == b;
    }
  }

  /** With every key truthy, the conjuncts are the rules' conditions in
      rule order, one each. */
  lemma {:induction false} SelectAll(f: FilterDict, rules: seq<Rule>)
    requires forall i :: 0 <= i < |rules| ==> Has(f, rules[i].key)
    ensures |Select(f, rules)| == |rules|
    ensures forall i :: 0 <= i < |rules| ==> Select(f, rules)[i] == rules[i].condition
    decreases |rules|
  {
    if |rules| > 0 {
      assert Has(f, rules[0].key);
      assert forall i :: 0 <= i < |rules[1..]| ==> rules[1..][i] == rules[i + 1];
      SelectAll(f, rules[1..]);
      assert Select(f, rules) == [rules[0].condition] + Select(f, rules[1..]);
    }
  }

  /** Two dicts agree on which of the rules' keys are truthy. */
  ghost predicate SamePresence(f: FilterDict, g: FilterDict, rules: seq<Rule>) {
    forall i :: 0 <= i < |rules| ==> (Has(f, rules[i].key) <==> Has(g, rules[i].key))
  }

  /** The conjuncts depend only on which keys are truthy, never on the
      values behind them. */
  lemma {:induction false} SelectIgnoresValues(f: FilterDict, g: FilterDict, rules: seq<Rule>)
    requires SamePresence(f, g, rules)
    ensures Select(f, rules) == Select(g, rules)
    decreases |rules|
  {
    if |rules| > 0 {
      assert SamePresence(f, g, rules[1..]) by {
        forall i | 0 <= i < |rules[1..]|
          ensures Has(f, rules[1..][i].key) <==> Has(g, rules[1..][i].key)
        {
          assert rules[1..][i] == rules[i + 1];
        }
      }
      SelectIgnoresValues(f, g, rules[1..]);
    }
  }

  /** `" WHERE " + " AND ".join(parts)`, only when there are parts. */
  function WhereClause(parts: seq<string>): string {
    if parts == [] then "" else " WHERE " + Join(parts, " AND ")
  }

  /** LIMIT and OFFSET are added when the dict holds a value other than
      `None` for them (a value of 0 still counts). */
  function Paging(f: FilterDict): string {
    (if Get(f, "limit") != NoneVal then " LIMIT :limit " else "")
    + (if Get(f, "offset") != NoneVal then " OFFSET :offset " else "")
  }

  function Terminator(addSemicolon: bool): string {
    if addSemicolon then ";" else ""
  }

  /** Whether `q` continues its fixed head with a WHERE clause. */
  predicate HasWhere(q: string, head: string) {
    StartsWith(q, head + " WHERE ")
  }

  /** A query laid out as head, optional WHERE clause, then a tail that
      starts with a clause other than WHERE carries a WHERE exactly when
      there are conjuncts. */
  lemma WhereMarksConjuncts(head: string, parts: seq<string>, tail: string)
    requires |tail| >= 2 && tail[0] == ' ' && tail[1] != 'W'
    ensures HasWhere(head + WhereClause(parts) + tail, head) <==> parts != []
  {
    var q := head + WhereClause(parts) + tail;
    if parts == [] {
      assert q[|head| + 1] == tail[1];
      assert (head + " WHERE ")[|head| + 1] == 'W';
    } else {
      assert q == (head + " WHERE ") + (Join(parts, " AND ") + tail);
    }
  }

  /** A query ending in `tail + Paging(f) + Terminator(semi)`, where `tail`
      ends in a space, ends in `;` exactly when the semicolon was asked for. */
  lemma SemicolonLast(body: string, f: FilterDict, semi: bool)
    requires |body| > 0 && body[|body| - 1] == ' '
    ensures var q := body + Paging(f) + Terminator(semi);
      |q| > 0 && (q[|q| - 1] == ';' <==> semi)
  {
    var p := Paging(f);
    assert |p| > 0 ==> p[|p| - 1] == ' ';
    var q := body + p + Terminator(semi);
    if !semi {
      if |p| == 0 {
        assert q[|q| - 1] == body[|body| - 1];
      } else {
        assert q[|q| - 1] == p[|p| - 1];
      }
    }
  }

  /** A clause that may follow the (optional) WHERE clause: it starts with a
      space, is not itself a WHERE, and ends with a space. */
  predicate IsTailClause(c: string) {
    |c| >= 2 && c[0] == ' ' && c[1] != 'W' && c[|c| - 1] == ' '
  }

  /** Prefix and suffix facts of a five-piece concatenation. */
  lemma Pieces(h: string, w: string, o: string, p: string, t: string)
    ensures var q := h + w + o + p + t;
      && StartsWith(q, h + w + o) && StartsWith(q, h)
      && EndsWith(q, o + p + t)
      && q == h + w + (o + p + t)
  {
    var q := h + w + o + p + t;
    assert q == (h + w + o) + (p + t);
    assert q == (h + w) + (o + p + t);
    assert q == h + w + (o + p + t);
    PrefixOfConcat(h + w + o, p + t);
    PrefixOfConcat(h + w, o + p + t);
    PrefixOfConcat(h + w, o);
    PrefixOfConcat(h, w);
    PrefixTrans(h + w + o, h + w, h);
    PrefixTrans(q, h + w + o, h);
  }

  /** What the WHERE clause spells out between head and tail. */
  lemma WhereText(head: string, parts: seq<string>, order: string)
    ensures parts != [] ==> head + WhereClause(parts) + order == head + " WHERE " + Join(parts, " AND ") + order
    ensures parts == [] ==> head + WhereClause(parts) + order == head + order
  {
  }

  /** The facts about one laid-out query that `Assemble` promises. */
  lemma AssembleLayout(head: string, parts: seq<string>, order: string, f: FilterDict, addSemicolon: bool)
    requires IsTailClause(order)
    ensures var q := head + WhereClause(parts) + order + Paging(f) + Terminator(addSemicolon);
      && StartsWith(q, head + WhereClause(parts) + order)
      && StartsWith(q, head)
      && EndsWith(q, order + Paging(f) + Terminator(addSemicolon))
      && (HasWhere(q, head) <==> parts != [])
      && |q| > 0 && (q[|q| - 1] == ';' <==> addSemicolon)
  {
    var w := WhereClause(parts);
    var p := Paging(f);
    var t := Terminator(addSemicolon);
    Pieces(head, w, order, p, t);
    WhereMarksConjuncts(head, parts, order + p + t);
    SemicolonLast(head + w + order, f, addSemicolon);
  }

  /** The layout every list builder shares: fixed head, WHERE clause when
      there are conjuncts, the ORDER BY (and GROUP BY) clauses, LIMIT/OFFSET,
      then the optional semicolon. */
  function Assemble(head: string, parts: seq<string>, order: string, f: FilterDict, addSemicolon: bool): (q: string)
    requires IsTailClause(order)
    ensures StartsWith(q, head)
    ensures HasWhere(q, head) <==> parts != []
    ensures parts != [] ==> StartsWith(q, head + " WHERE " + Join(parts, " AND ") + order)
    ensures parts == [] ==> StartsWith(q, head + order)
    ensures EndsWith(q, order + Paging(f) + Terminator(addSemicolon))
    ensures |q| == |head| + |WhereClause(parts)| + |order| + |Paging(f)| + |Terminator(addSemicolon)|
    ensures |q| > 0 && (q[|q| - 1] == ';' <==> addSemicolon)
  {
    AssembleLayout(head, parts, order, f, addSemicolon);
    WhereText(head, parts, order);
    head + WhereClause(parts) + order + Paging(f) + Terminator(addSemicolon)
  }

  /** The dict reaches the layout only through its paging clauses. */
  lemma AssembleReadsOnlyPaging(head: string, parts: seq<string>, order: string, f: FilterDict, g: FilterDict, addSemicolon: bool)
    requires IsTailClause(order) && Paging(f) == Paging(g)
    ensures Assemble(head, parts, order, f, addSemicolon) == Assemble(head, parts, order, g, addSemicolon)
  {
  }

  /** The contract of `Assemble` leaves no room for other text: any string
      that meets it is the laid-out query. */
  lemma AssembleIsPinned(head: string, parts: seq<string>, order: string, f: FilterDict, addSemicolon: bool, q: string)
    requires IsTailClause(order)
    requires StartsWith(q, head + WhereClause(parts) + order)
    requires EndsWith(q, order + Paging(f) + Terminator(addSemicolon))
    requires |q| == |head| + |WhereClause(parts)| + |order| + |Paging(f)| + |Terminator(addSemicolon)|
    ensures q == Assemble(head, parts, order, f, addSemicolon)
  {
    var a := head + WhereClause(parts);
    var b := Paging(f) + Terminator(addSemicolon);
    assert order + Paging(f) + Terminator(addSemicolon) == order + b;
    PinnedByEnds(q, a, order, b);
    assert a + order + b == head + WhereClause(parts) + order + Paging(f) + Terminator(addSemicolon);
  }
}

=== FILE: lendings.dfy ===
/** Loans: creation (checked against the borrower and the copy), the
    derived late fee every read fills in, completion, the lending path and
    filter dependencies, and the lendings list query together with the
    meaning of each WHERE conjunct it can emit.
 */
module Lendings {
  import opened Wrappers
  import opened Enums
  import opened Store
  import opened Filters
  import Auth
  import Users

  // The first copy check reuses the user message; the model keeps it.
  const NoUser := "No user found with that id."
  const UserNotActive := "Given user is not active."
  const ItemUnavailable := "Given book item is unavailable."
  const NoLending := "No lending found with that id."
  const AlreadyCompleted := "Lending is already completed."

  // ------------------------------------------------------------------ fee

  /** `populate_fee`: a stored fee is kept; otherwise a loan read after its
      due date shows days-late times the daily rate, and one read on or
      before its due date shows no fee (not a fee of 0). */
  function PopulateFee(cfg: Config, today: int, l: Lending): (r: Lending)
    ensures r.(fee := l.fee) == l
    ensures l.fee.Some? ==> r == l
    ensures l.fee.None? && today > l.dueDate ==> r.fee == Some((today - l.dueDate) * cfg.lendingDailyFee)
    ensures l.fee.None? && today <= l.dueDate ==> r.fee == None
  {
    if l.fee.Some? then l
    else if today - l.dueDate > 0 then l.(fee := Some((today - l.dueDate) * cfg.lendingDailyFee))
    else l
  }

  /** Populating twice is populating once; the return date plays no part,
      so a loan returned on time (stored fee `None`) is charged again by
      every read after its due date; a non-negative rate never yields a
      negative fee. */
  lemma PopulateFeeLaws(cfg: Config, today: int, l: Lending, ret: Option<int>)
    ensures PopulateFee(cfg, today, PopulateFee(cfg, today, l)) == PopulateFee(cfg, today, l)
    ensures PopulateFee(cfg, today, l.(returnDate := ret)) == PopulateFee(cfg, today, l).(returnDate := ret)
    ensures cfg.lendingDailyFee >= 0 && PopulateFee(cfg, today, l).fee.Some? && l.fee.None?
      ==> PopulateFee(cfg, today, l).fee.value >= 0
  {
  }

  /** Three days late at rate 5 is 15; on the due day there is no fee. */
  lemma FeeExamples(d: int)
    ensures PopulateFee(Config(7, 14, 5), d + 3, Lending(1, 1, 1, None, d, None, None)).fee == Some(15)
    ensures PopulateFee(Config(7, 14, 5), d, Lending(1, 1, 1, None, d, None, None)).fee == None
  {
  }

  // ----------------------------------------------------------- operations

  /** `create_lending`: the borrower must exist and be active, the copy must
      exist and be available; the new loan is due `lending_due_day` days
      from today, has no return date and no stored fee, and is returned
      with its fee populated.  The copy's status is left as it was. */
  function CreateLending(s: State, userId: int, itemId: int, reservationId: Option<int>): (r: Result<(State, Lending)>)
    ensures userId !in s.users ==> r == Raise(NotFound, NoUser)
    ensures userId in s.users && !Auth.IsActive(s.users[userId]) ==> r == Raise(BadRequest, UserNotActive)
    ensures userId in s.users && Auth.IsActive(s.users[userId]) && itemId !in s.copies
      ==> r == Raise(NotFound, NoUser)
    ensures userId in s.users && Auth.IsActive(s.users[userId]) && itemId in s.copies && s.copies[itemId].status != Available
      ==> r == Raise(BadRequest, ItemUnavailable)
    ensures r.Success? <==>
      userId in s.users && Auth.IsActive(s.users[userId]) && itemId in s.copies && s.copies[itemId].status == Available
    ensures r.Success? ==>
      var l := r.value.1;
      && l.id == s.nextId && l.userId == userId && l.bookItemId == itemId && l.reservationId == reservationId
      && l.dueDate == s.today + s.config.lendingDueDay && l.returnDate == None
      && l.fee == (if s.config.lendingDueDay < 0 then Some(-s.config.lendingDueDay * s.config.lendingDailyFee) else None)
      && r.value.0 == s.(lendings := s.lendings[l.id := l.(fee := None)], nextId := s.nextId + 1)
  {
    var user := Users.GetUserById(s, userId);
    if user.None? then Raise(NotFound, NoUser)
    else if user.value.status != Some(Active) then Raise(BadRequest, UserNotActive)
    else if itemId !in s.copies then Raise(NotFound, NoUser)
    else if s.copies[itemId].status != Available then Raise(BadRequest, ItemUnavailable)
    else
      var stored := Lending(s.nextId, userId, itemId, reservationId, s.today + s.config.lendingDueDay, None, None);
      Success((s.(lendings := s.lendings[stored.id := stored], nextId := s.nextId + 1),
               PopulateFee(s.config, s.today, stored)))
  }

  /** The database's refusal of a loan row whose `reservation_id` names no
      library. */
  const ReservationKeyViolation := "insert or update on table \"lendings\" violates foreign key constraint \"lendings_reservation_id_fkey\""

  /** `create_lending` against the schema as migrated, where
      `lendings.reservation_id` references `libraries.id`: the insert of a
      loan tied to a hold is refused unless a library happens to carry the
      hold's id. Every other outcome is that of `CreateLending`. */
  function CreateLendingAsWritten(s: State, userId: int, itemId: int, reservationId: Option<int>): (r: Result<(State, Lending)>)
    ensures r.Success? ==> r == CreateLending(s, userId, itemId, reservationId)
    ensures CreateLending(s, userId, itemId, reservationId).Success? && reservationId.Some? && reservationId.value !in s.libraries
      ==> r == Raise(ServerError, ReservationKeyViolation)
    ensures r.Failure? && r.error.kind != ServerError ==> r == CreateLending(s, userId, itemId, reservationId)
  {
    var c := CreateLending(s, userId, itemId, reservationId);
    if c.Success? && reservationId.Some? && reservationId.value !in s.libraries then
      Raise(ServerError, ReservationKeyViolation)
    else c
  }

  /** `get_lending_by_id`: the stored row with its fee populated. */
  function GetLendingById(s: State, id: int): (r: Option<Lending>)
    ensures r.Some? <==> id in s.lendings
    ensures r.Some? ==> r.value.(fee := s.lendings[id].fee) == s.lendings[id]
    ensures r.Some? && s.lendings[id].fee.Some? ==> r.value == s.lendings[id]
    ensures r.Some? && s.lendings[id].fee.None? && s.today > s.lendings[id].dueDate
      ==> r.value.fee == Some((s.today - s.lendings[id].dueDate) * s.config.lendingDailyFee)
    ensures r.Some? && s.lendings[id].fee.None? && s.today <= s.lendings[id].dueDate ==> r.value.fee == None
  {
    if id in s.lendings then Some(PopulateFee(s.config, s.today, s.lendings[id])) else None
  }

  /** `get_lending_by_id_from_path`. */
  function GetLendingByIdFromPath(s: State, id: int): (r: Result<Lending>)
    ensures id < 1 ==> r == Raise(BadRequest, BelowOne)
    ensures id >= 1 && id !in s.lendings ==> r == Raise(NotFound, NoLending)
    ensures r.Success? <==> id >= 1 && id in s.lendings
    ensures r.Success? ==> Some(r.value) == GetLendingById(s, id)
  {
    if id < 1 then Raise(BadRequest, BelowOne)
    else
      match GetLendingById(s, id)
      case None => Raise(NotFound, NoLending)
      case Some(l) => Success(l)
  }

  /** `verify_lending_access`: the borrower, or a librarian or above. */
  function VerifyLendingAccess(l: Lending, current: User): (o: Outcome)
    ensures o == Pass <==> l.userId == current.id || RoleRank(current.role) >= RoleRank(Some(Librarian))
    ensures o.Fail? ==> o.error == Error(Forbidden, Auth.NotAuthorized)
  {
    Auth.OwnerOrLibrarian(l.userId, current)
  }

  /** `PUT /lendings/{id}/complete`: the lending as the path dependency
      reads it, then `complete_lending`, which rejects a loan already
      returned and otherwise stores today's date and the populated fee. */
  function CompleteLending(s: State, id: int): (r: Result<(State, Lending)>)
    ensures id < 1 ==> r == Raise(BadRequest, BelowOne)
    ensures id >= 1 && id !in s.lendings ==> r == Raise(NotFound, NoLending)
    ensures id >= 1 && id in s.lendings && s.lendings[id].returnDate.Some? ==> r == Raise(BadRequest, AlreadyCompleted)
    ensures r.Success? <==> id >= 1 && id in s.lendings && s.lendings[id].returnDate.None?
    ensures r.Success? ==>
      var old_ := s.lendings[id];
      var l := r.value.1;
      && l.returnDate == Some(s.today)
      && l.(returnDate := old_.returnDate, fee := old_.fee) == old_
      && (old_.fee.Some? ==> l.fee == old_.fee)
      && (old_.fee.None? && s.today > old_.dueDate ==> l.fee == Some((s.today - old_.dueDate) * s.config.lendingDailyFee))
      && (old_.fee.None? && s.today <= old_.dueDate ==> l.fee == None)
      && r.value.0 == s.(lendings := s.lendings[id := l])
  {
    var l :- GetLendingByIdFromPath(s, id);
    if l.returnDate.Some? then Raise(BadRequest, AlreadyCompleted)
    else
      var withFee := PopulateFee(s.config, s.today, l);
      var stored := s.lendings[id].(returnDate := Some(s.today), fee := withFee.fee);
      Success((s.(lendings := s.lendings[id := stored]), stored))
  }

  /** Completing twice fails the second time, and the stored fee stays what
      the first completion wrote. */
  lemma CompleteTwiceFails(s: State, id: int)
    requires CompleteLending(s, id).Success?
    ensures var t := CompleteLending(s, id).value.0;
      && CompleteLending(t, id) == Raise(BadRequest, AlreadyCompleted)
      && t.lendings[id].fee == CompleteLending(s, id).value.1.fee
  {
  }

  /** Five days late at rate 2: completion stores a fee of 10, and the
      second completion is refused. */
  lemma CompleteOverdueExample(s: State, id: int)
    requires id >= 1 && id in s.lendings && s.lendings[id].returnDate == None && s.lendings[id].fee == None
    requires s.lendings[id].dueDate == s.today - 5 && s.config.lendingDailyFee == 2
    ensures CompleteLending(s, id).Success?
    ensures CompleteLending(s, id).value.1.fee == Some(10)
    ensures CompleteLending(CompleteLending(s, id).value.0, id) == Raise(BadRequest, AlreadyCompleted)
  {
  }

  /** A loan returned on time keeps no stored fee, so on any later day past
      its due date every read shows a fee for days it was no longer out. */
  lemma OnTimeReturnIsChargedLater(s: State, id: int, later: int)
    requires CompleteLending(s, id).Success?
    requires s.lendings[id].fee == None && s.today <= s.lendings[id].dueDate
    requires later > s.lendings[id].dueDate
    ensures var t := CompleteLending(s, id).value.0.(today := later);
      GetLendingById(t, id) == Some(t.lendings[id].(fee := Some((later - s.lendings[id].dueDate) * s.config.lendingDailyFee)))
  {
  }

  /** Creating and completing keep every row under its own id and below the
      serial counter. */
  lemma LendingsPreserveValid(s: State, userId: int, itemId: int, resId: Option<int>, id: int)
    requires Valid(s)
    ensures CreateLending(s, userId, itemId, resId).Success? ==> Valid(CreateLending(s, userId, itemId, resId).value.0)
    ensures CompleteLending(s, id).Success? ==> Valid(CompleteLending(s, id).value.0)
  {
  }

  // -------------------------------------------------------------- filters

  /** `get_lending_filters_from_query`: ids below 1 are rejected by
      validation; each given parameter is copied into the dict, and
      `returned` only when it is true. */
  function LendingFiltersFromQuery(bookItemId: Option<int>, reservationId: Option<int>, dueBy: Option<int>, returned: Option<bool>)
    : (r: Result<FilterDict>)
    ensures r.Success? <==> (bookItemId.None? || bookItemId.value >= 1) && (reservationId.None? || reservationId.value >= 1)
    ensures r.Failure? ==> r.error == Error(BadRequest, BelowOne)
    ensures r.Success? ==>
      && ("book_item_id" in r.value <==> bookItemId.Some?)
      && ("reservation_id" in r.value <==> reservationId.Some?)
      && ("due_by" in r.value <==> dueBy.Some?)
      && ("returned" in r.value <==> returned == Some(true))
      && (bookItemId.Some? ==> r.value["book_item_id"] == IntVal(bookItemId.value))
      && (reservationId.Some? ==> r.value["reservation_id"] == IntVal(reservationId.value))
      && (dueBy.Some? ==> r.value["due_by"] == DateVal(dueBy.value))
      && (returned == Some(true) ==> r.value["returned"] == BoolVal(true))
      && (forall k :: k in r.value ==> k in {"book_item_id", "reservation_id", "due_by", "returned"})
  {
    if (bookItemId.Some? && bookItemId.value < 1) || (reservationId.Some? && reservationId.value < 1) then
      Raise(BadRequest, BelowOne)
    else
      var f1: FilterDict := if bookItemId.Some? then map["book_item_id" := IntVal(bookItemId.value)] else map[];
      var f2 := if reservationId.Some? then f1["reservation_id" := IntVal(reservationId.value)] else f1;
      var f3 := if dueBy.Some? then f2["due_by" := DateVal(dueBy.value)] else f2;
      var f4 := if returned == Some(true) then f3["returned" := BoolVal(true)] else f3;
      Success(f4)
  }

  // ----------------------------------------------------------- list query

  const ListStart := "\n    SELECT \n        LE.id,\n        LE.user_id,\n        LE.book_item_id,\n        LE.reservation_id,\n        LE.due_date,\n        LE.return_date,\n        LE.fee,\n        LE.created_at,\n        LE.updated_at,\n        count(*) OVER() AS query_count\n    FROM lendings LE\n"

  const ByUser := "LE.user_id = :user_id"
  const ByItem := "LE.book_item_id = :book_item_id"
  const ByReservation := "LE.reservation_id = :reservation_id"
  const DueBefore := "LE.due_date < :due_by"
  /** What the `returned` line emits for a true value: note the two spaces. */
  const NotReturned := "LE.return_date IS  NULL"
  const Returned := "LE.return_date IS NOT NULL"

  const Rules: seq<Rule> := [
    Rule("user_id", ByUser),
    Rule("book_item_id", ByItem),
    Rule("reservation_id", ByReservation),
    Rule("due_by", DueBefore)
  ]

  const OrderBy := " ORDER BY LE.id "

  /** The `returned` line: its f-string picks the empty word for a truthy
      value, but the line runs only when the value is truthy. */
  function ReturnedConjunct(v: FilterValue): string {
    "LE.return_date IS " + (if Truthy(v) then "" else "NOT") + " NULL"
  }

  function Conjuncts(f: FilterDict): (cs: seq<string>)
    ensures Returned !in cs
    ensures NotReturned in cs <==> Has(f, "returned")
  {
    var base := Select(f, Rules);
    assert Returned !in base && NotReturned !in base;
    if Has(f, "returned") then
      assert ReturnedConjunct(Get(f, "returned")) == NotReturned;
      base + [ReturnedConjunct(Get(f, "returned"))]
    else base
  }

  /** `list_lendings_filtered_query`. */
  function ListLendingsQuery(f: FilterDict, addSemicolon: bool): (q: string)
    ensures Text.StartsWith(q, ListStart)
    ensures HasWhere(q, ListStart) <==>
      (exists i :: 0 <= i < |Rules| && Has(f, Rules[i].key)) || Has(f, "returned")
    ensures var cs := Conjuncts(f);
      cs != [] ==> Text.StartsWith(q, ListStart + " WHERE " + Text.Join(cs, " AND ") + OrderBy)
    ensures Conjuncts(f) == [] ==> Text.StartsWith(q, ListStart + OrderBy)
    ensures Text.EndsWith(q, OrderBy + Paging(f) + Terminator(addSemicolon))
    ensures |q| == |ListStart| + |WhereClause(Conjuncts(f))| + |OrderBy| + |Paging(f)| + |Terminator(addSemicolon)|
    ensures |q| > 0 && (q[|q| - 1] == ';' <==> addSemicolon)
  {
    Assemble(ListStart, Conjuncts(f), OrderBy, f, addSemicolon)
  }

  /** The meaning of each conjunct the builder can emit, for one row. */
  predicate ConjunctHolds(c: string, f: FilterDict, l: Lending) {
    if c == ByUser then Get(f, "user_id") == IntVal(l.userId)
    else if c == ByItem then Get(f, "book_item_id") == IntVal(l.bookItemId)
    else if c == ByReservation then l.reservationId.Some? && Get(f, "reservation_id") == IntVal(l.reservationId.value)
    else if c == DueBefore then Get(f, "due_by").DateVal? && l.dueDate < Get(f, "due_by").d
    else if c == NotReturned then l.returnDate.None?
    else if c == Returned then l.returnDate.Some?
    else false
  }

  /** A row is listed when every emitted conjunct holds for it. */
  predicate Listed(f: FilterDict, l: Lending) {
    var cs := Conjuncts(f);
    forall i :: 0 <= i < |cs| ==> ConjunctHolds(cs[i], f, l)
  }

  /** What the list query selects, stated on the filter values: equality on
      each given id, a due date strictly before `due_by`, and for
      `returned=true` the loans NOT yet returned. */
  lemma ListedMeans(f: FilterDict, l: Lending)
    ensures Listed(f, l) <==>
      && (Has(f, "user_id") ==> Get(f, "user_id") == IntVal(l.userId))
      && (Has(f, "book_item_id") ==> Get(f, "book_item_id") == IntVal(l.bookItemId))
      && (Has(f, "reservation_id") ==> l.reservationId.Some? && Get(f, "reservation_id") == IntVal(l.reservationId.value))
      && (Has(f, "due_by") ==> Get(f, "due_by").DateVal? && l.dueDate < Get(f, "due_by").d)
      && (Has(f, "returned") ==> l.returnDate.None?)
  {
    var cs := Conjuncts(f);
    var base := Select(f, Rules);
    assert forall c :: c in cs <==> c in base || (Has(f, "returned") && c == NotReturned);
    if Listed(f, l) {
      forall k | k in {0, 1, 2, 3} && Has(f, Rules[k].key)
        ensures ConjunctHolds(Rules[k].condition, f, l)
      {
        assert Rules[k].condition in cs;
        var i :| 0 <= i < |cs| && cs[i] == Rules[k].condition;
      }
      if Has(f, "returned") {
        var i :| 0 <= i < |cs| && cs[i] == NotReturned;
      }
      assert Rules[0] == Rule("user_id", ByUser) && Rules[1] == Rule("book_item_id", ByItem);
      assert Rules[2] == Rule("reservation_id", ByReservation) && Rules[3] == Rule("due_by", DueBefore);
      assert Has(f, "user_id") ==> ConjunctHolds(ByUser, f, l);
      assert Has(f, "book_item_id") ==> ConjunctHolds(ByItem, f, l);
      assert Has(f, "reservation_id") ==> ConjunctHolds(ByReservation, f, l);
      assert Has(f, "due_by") ==> ConjunctHolds(DueBefore, f, l);
    }
    if && (Has(f, "user_id") ==> Get(f, "user_id") == IntVal(l.userId))
       && (Has(f, "book_item_id") ==> Get(f, "book_item_id") == IntVal(l.bookItemId))
       && (Has(f, "reservation_id") ==> l.reservationId.Some? && Get(f, "reservation_id") == IntVal(l.reservationId.value))
       && (Has(f, "due_by") ==> Get(f, "due_by").DateVal? && l.dueDate < Get(f, "due_by").d)
       && (Has(f, "returned") ==> l.returnDate.None?)
    {
      forall i | 0 <= i < |cs| ensures ConjunctHolds(cs[i], f, l) {
        assert cs[i] in cs;
        if cs[i] in base {
          var j :| 0 <= j < |Rules| && Has(f, Rules[j].key) && Rules[j].condition == cs[i];
          assert j in {0, 1, 2, 3};
        }
      }
    }
  }

  /** The filters a request can produce never ask for returned loans:
      `returned=true` lists outstanding loans and `returned=false` filters
      nothing. */
  lemma ReturnedFilterIsInverted(bookItemId: Option<int>, reservationId: Option<int>, dueBy: Option<int>, l: Lending)
    requires LendingFiltersFromQuery(bookItemId, reservationId, dueBy, Some(true)).Success?
    ensures var f := LendingFiltersFromQuery(bookItemId, reservationId, dueBy, Some(true)).value;
      l.returnDate.Some? ==> !Listed(f, l)
    ensures LendingFiltersFromQuery(bookItemId, reservationId, dueBy, Some(false))
         == LendingFiltersFromQuery(bookItemId, reservationId, dueBy, None)
  {
    var f := LendingFiltersFromQuery(bookItemId, reservationId, dueBy, Some(true)).value;
    ListedMeans(f, l);
  }
}

=== FILE: librarians.dfy ===
/** Librarian assignment: the `libraries_to_librarians` table seen as a map
    from user id to library id, the assign / unassign transitions, the
    active-librarian listing with its ordering, and the admin routes around
    them.

    The table itself has no uniqueness constraint on `user_id`; the
    repository keeps at most one row per user by deleting every row of the
    user before inserting a new one, which is what makes the map
    representation exact.
 */
module Librarians {
  import opened Wrappers
  import opened Enums
  import opened Store
  import opened Text
  import opened Auth
  import Users

  const NotAssigned := "Given user is not assigned to the selected library."
  const NotLibrarian := "Given user is not a librarian."
  const NoLibrary := "No library found with that id."
  const NoUser := "No user found with that id."
  const UserNotActive := "Given user is not active."

  // ----------------------------------------------------------- assignment

  /** `get_librarian_assignment_by_user_id`: the library the user is
      assigned to, if any. */
  function Assignment(s: State, userId: int): (r: Option<int>)
    ensures r.Some? <==> userId in s.librarians
    ensures r.Some? ==> r.value == s.librarians[userId]
  {
    if userId in s.librarians then Some(s.librarians[userId]) else None
  }

  /** `remove_librarian_assignments`: deletes every row of the user. */
  function RemoveAssignments(s: State, userId: int): (t: State)
    ensures Assignment(t, userId).None?
    ensures forall u :: u != userId ==> Assignment(t, u) == Assignment(s, u)
    ensures t == s.(librarians := t.librarians)
  {
    s.(librarians := s.librarians - {userId})
  }

  /** `assign_librarian`: a no-op when the user already serves this library;
      otherwise the user's rows are removed and one new row is added. */
  function AssignLibrarian(s: State, userId: int, libraryId: int): (t: State)
    ensures Assignment(t, userId) == Some(libraryId)
    ensures forall u :: u != userId ==> Assignment(t, u) == Assignment(s, u)
    ensures Assignment(s, userId) == Some(libraryId) ==> t == s
    ensures t == s.(librarians := t.librarians)
  {
    match Assignment(s, userId)
    case Some(current) =>
      if current == libraryId then s
      else Insert(RemoveAssignments(s, userId), userId, libraryId)
    case None => Insert(s, userId, libraryId)
  }

  /** `ASSIGN_LIBRARIAN_QUERY` on a user with no row left. */
  function Insert(s: State, userId: int, libraryId: int): State
    requires userId !in s.librarians
  {
    s.(librarians := s.librarians[userId := libraryId])
  }

  /** `unassign_librarian`: fails unless the user serves exactly this
      library; then removes the user's rows. */
  function UnassignLibrarian(s: State, userId: int, libraryId: int): (r: Result<State>)
    ensures r.Success? <==> Assignment(s, userId) == Some(libraryId)
    ensures r.Failure? ==> r.error == Error(BadRequest, NotAssigned)
    ensures r.Success? ==> Assignment(r.value, userId).None?
    ensures r.Success? ==> forall u :: u != userId ==> Assignment(r.value, u) == Assignment(s, u)
    ensures r.Success? ==> r.value == s.(librarians := r.value.librarians)
  {
    match Assignment(s, userId)
    case Some(current) =>
      if current != libraryId then Raise(BadRequest, NotAssigned)
      else Success(RemoveAssignments(s, userId))
    case None => Raise(BadRequest, NotAssigned)
  }

  /** Assigning twice is the same as assigning once. */
  lemma AssignIsIdempotent(s: State, userId: int, libraryId: int)
    ensures AssignLibrarian(AssignLibrarian(s, userId, libraryId), userId, libraryId)
         == AssignLibrarian(s, userId, libraryId)
  {
  }

  /** Unassigning right after an assignment succeeds and leaves the user
      with no row at all, whatever the user's earlier assignment was. */
  lemma AssignThenUnassign(s: State, userId: int, libraryId: int)
    ensures UnassignLibrarian(AssignLibrarian(s, userId, libraryId), userId, libraryId)
         == Success(RemoveAssignments(s, userId))
  {
    var t := AssignLibrarian(s, userId, libraryId);
    assert t.librarians - {userId} == s.librarians - {userId};
  }

  /** A successful unassign is undone by assigning the same library again. */
  lemma UnassignThenAssign(s: State, userId: int, libraryId: int)
    requires UnassignLibrarian(s, userId, libraryId).Success?
    ensures AssignLibrarian(UnassignLibrarian(s, userId, libraryId).value, userId, libraryId) == s
  {
    var t := UnassignLibrarian(s, userId, libraryId).value;
    assert t.librarians[userId := libraryId] == s.librarians;
  }

  /** Assigning a user to another library moves the user: the old library
      no longer has them, and unassigning from the old library fails. */
  lemma AssignMovesUser(s: State, userId: int, oldLibrary: int, newLibrary: int)
    requires Assignment(s, userId) == Some(oldLibrary) && oldLibrary != newLibrary
    ensures UnassignLibrarian(AssignLibrarian(s, userId, newLibrary), userId, oldLibrary)
         == Raise(BadRequest, NotAssigned)
  {
  }

  // -------------------------------------------------------------- listing

  /** One row of `LIST_LIBRARY_LIBRARIANS_QUERY` (`LibrarianPublic`). */
  datatype LibrarianRow = LibrarianRow(id: int, username: string, firstName: Option<string>, surname: Option<string>)

  /** A user the listing query returns for the library: assigned to it,
      active, and joined with a profile. */
  predicate Listed(s: State, libraryId: int, userId: int) {
    && userId in s.librarians && s.librarians[userId] == libraryId
    && userId in s.users && s.users[userId].status == Some(Active)
    && userId in s.profiles
  }

  function RowOf(s: State, userId: int): (row: LibrarianRow)
    requires userId in s.users && userId in s.profiles
    ensures row.id == userId
  {
    LibrarianRow(userId, s.users[userId].username, s.profiles[userId].firstName, s.profiles[userId].surname)
  }

  /** The rows of the given users. */
  ghost function RowsOf(s: State, ids: set<int>): set<LibrarianRow>
    requires forall k :: k in ids ==> k in s.users && k in s.profiles
  {
    set k | k in ids :: RowOf(s, k)
  }

  /** Everything the query returns for the library, as a set. */
  ghost function ListedRows(s: State, libraryId: int): set<LibrarianRow> {
    RowsOf(s, set k | k in s.librarians && Listed(s, libraryId, k))
  }

  /** Ascending order on a nullable text column: PostgreSQL puts NULL after
      every value. */
  predicate NullsLastLe(a: Option<string>, b: Option<string>) {
    match a
    case None => b.None?
    case Some(x) => b.None? || LexLe(x, b.value)
  }

  /** `ORDER BY P.first_name, P.surname, U.id`: `a` may come before `b`. */
  predicate RowLe(a: LibrarianRow, b: LibrarianRow) {
    if a.firstName != b.firstName then NullsLastLe(a.firstName, b.firstName)
    else if a.surname != b.surname then NullsLastLe(a.surname, b.surname)
    else a.id <= b.id
  }

  predicate Sorted(rows: seq<LibrarianRow>) {
    forall i :: 0 < i < |rows| ==> RowLe(rows[i - 1], rows[i])
  }

  lemma NullsLastTotal(a: Option<string>, b: Option<string>)
    ensures NullsLastLe(a, b) || NullsLastLe(b, a)
  {
    if a.Some? && b.Some? {
      LexLeTotal(a.value, b.value);
    }
  }

  /** Any two rows are comparable. */
  lemma RowLeTotal(a: LibrarianRow, b: LibrarianRow)
    ensures RowLe(a, b) || RowLe(b, a)
  {
    NullsLastTotal(a.firstName, b.firstName);
    NullsLastTotal(a.surname, b.surname);
  }

  /** Two distinct librarians (distinct ids) are never tied, so the order
      the query returns is fully determined. */
  lemma RowLeAntisymmetric(a: LibrarianRow, b: LibrarianRow)
    requires RowLe(a, b) && RowLe(b, a)
    ensures a.firstName == b.firstName && a.surname == b.surname && a.id == b.id
  {
    if a.firstName != b.firstName {
      NullsLastAntisymmetric(a.firstName, b.firstName);
    } else if a.surname != b.surname {
      NullsLastAntisymmetric(a.surname, b.surname);
    }
  }

  lemma NullsLastAntisymmetric(a: Option<string>, b: Option<string>)
    requires NullsLastLe(a, b) && NullsLastLe(b, a)
    ensures a == b
  {
    if a.Some? && b.Some? {
      LexLeAntisymmetric(a.value, b.value);
    }
  }

  /** Inserts one row into a sorted sequence. */
  function InsertRow(x: LibrarianRow, rows: seq<LibrarianRow>): (r: seq<LibrarianRow>)
    requires Sorted(rows)
    ensures Sorted(r)
    ensures multiset(r) == multiset(rows) + multiset{x}
    ensures r[0] == x || (|rows| > 0 && r[0] == rows[0])
    decreases |rows|
  {
    if |rows| == 0 then [x]
    else if RowLe(x, rows[0]) then [x] + rows
    else
      RowLeTotal(x, rows[0]);
      assert rows == [rows[0]] + rows[1..];
      [rows[0]] + InsertRow(x, rows[1..])
  }

  lemma RowsOfAddOne(s: State, ids: set<int>, k: int)
    requires forall j :: j in ids ==> j in s.users && j in s.profiles
    requires k in s.users && k in s.profiles && k !in ids
    ensures multiset(RowsOf(s, ids + {k})) == multiset(RowsOf(s, ids)) + multiset{RowOf(s, k)}
  {
    assert RowsOf(s, ids + {k}) == RowsOf(s, ids) + {RowOf(s, k)};
    assert RowOf(s, k) !in RowsOf(s, ids);
  }

  /** `list_library_librarians`: exactly the active users assigned to the
      library that have a profile, each once, in (first name, surname, id)
      order. Text is compared by code point; the database compares it by
      its collation. */
  method ListLibraryLibrarians(s: State, libraryId: int) returns (rows: seq<LibrarianRow>)
    requires Valid(s)
    ensures Sorted(rows)
    ensures multiset(rows) == multiset(ListedRows(s, libraryId))
  {
    rows := [];
    var i := 1;
    while i < s.nextId
      invariant 1 <= i <= s.nextId
      invariant Sorted(rows)
      invariant multiset(rows) == multiset(RowsOf(s, ListedBelow(s, libraryId, i)))
    {
      if i in s.librarians && Listed(s, libraryId, i) {
        assert ListedBelow(s, libraryId, i + 1) == ListedBelow(s, libraryId, i) + {i};
        RowsOfAddOne(s, ListedBelow(s, libraryId, i), i);
        rows := InsertRow(RowOf(s, i), rows);
      } else {
        assert ListedBelow(s, libraryId, i + 1) == ListedBelow(s, libraryId, i);
      }
      i := i + 1;
    }
    assert ListedBelow(s, libraryId, i) == set k | k in s.librarians && Listed(s, libraryId, k);
  }

  /** The listed users with an id below `i`. */
  ghost function ListedBelow(s: State, libraryId: int, i: int): set<int> {
    set k | k in s.librarians && Listed(s, libraryId, k) && k < i
  }

  /** Every listed row belongs to an active user assigned to the library. */
  lemma ListedRowsAreActiveLibrarians(s: State, libraryId: int, row: LibrarianRow)
    requires row in ListedRows(s, libraryId)
    ensures Listed(s, libraryId, row.id)
    ensures row == RowOf(s, row.id)
  {
  }

  // --------------------------------------------------------------- routes

  /** The shared dependencies of the assign and unassign routes, in the
      order the routes declare them: the library from the path
      (`get_library_by_id_from_path`), the user from the query
      (`get_user_by_id_from_query`, `get_librarian_by_id_from_query`), then
      the admin permission. */
  function AdminTarget(s: State, session: Option<User>, libraryId: int, userId: int): (r: Result<User>)
    ensures r.Success? <==>
      && session.Some? && IsActive(session.value)
      && libraryId >= 1 && libraryId in s.libraries
      && userId >= 1 && userId in s.users && IsActive(s.users[userId])
      && s.users[userId].role == Some(Librarian)
      && RoleRank(session.value.role) >= RoleRank(Some(Admin))
    ensures r.Success? ==> r.value == s.users[userId]
    ensures session.Some? && IsActive(session.value) && libraryId >= 1 && libraryId in s.libraries
      && userId >= 1 && userId in s.users && IsActive(s.users[userId])
      && s.users[userId].role != Some(Librarian)
      ==> r == Raise(BadRequest, NotLibrarian)
  {
    var _ :- CurrentActiveUser(session);
    if libraryId < 1 then Raise(BadRequest, BelowOne)
    else if libraryId !in s.libraries then Raise(NotFound, NoLibrary)
    else if userId < 1 then Raise(BadRequest, BelowOne)
    else
      match Users.GetUserById(s, userId)
      case None => Raise(NotFound, NoUser)
      case Some(user) =>
        if !IsActive(user) then Raise(BadRequest, UserNotActive)
        else if user.role != Some(Librarian) then Raise(BadRequest, NotLibrarian)
        else
          var _ :- CurrentUserWithPermissions(session, Admin);
          Success(user)
  }

  /** `PUT /libraries/{id}/librarians`. */
  function AssignLibrarianRoute(s: State, session: Option<User>, libraryId: int, userId: int): (r: Result<State>)
    ensures r.Success? <==> AdminTarget(s, session, libraryId, userId).Success?
    ensures r.Success? ==> r.value == AssignLibrarian(s, s.users[userId].id, libraryId)
  {
    var user :- AdminTarget(s, session, libraryId, userId);
    Success(AssignLibrarian(s, user.id, libraryId))
  }

  /** `DELETE /libraries/{id}/librarians`. */
  function UnassignLibrarianRoute(s: State, session: Option<User>, libraryId: int, userId: int): (r: Result<State>)
    ensures r.Success? ==> AdminTarget(s, session, libraryId, userId).Success?
    ensures AdminTarget(s, session, libraryId, userId).Success? ==>
      r == UnassignLibrarian(s, s.users[userId].id, libraryId)
  {
    var user :- AdminTarget(s, session, libraryId, userId);
    UnassignLibrarian(s, user.id, libraryId)
  }

  /** `GET /libraries/{id}/librarians`: any active user may list. */
  method ListAssignedLibrariansRoute(s: State, session: Option<User>, libraryId: int)
    returns (r: Result<seq<LibrarianRow>>)
    requires Valid(s)
    ensures r.Success? <==> session.Some? && IsActive(session.value) && libraryId >= 1 && libraryId in s.libraries
    ensures r.Success? ==> Sorted(r.value) && multiset(r.value) == multiset(ListedRows(s, libraryId))
  {
    var current := CurrentActiveUser(session);
    if current.Failure? {
      return Failure(current.error);
    }
    if libraryId < 1 {
      return Raise(BadRequest, BelowOne);
    }
    if libraryId !in s.libraries {
      return Raise(NotFound, NoLibrary);
    }
    var rows := ListLibraryLibrarians(s, libraryId);
    return Success(rows);
  }
}

=== FILE: lifecycle.dfy ===
/** The copy / reservation / lending lifecycle as one transition system:
    every state-changing operation of the core, addressed by id the way the
    routes address it (the record is read from the store, then handed to
    the repository method), and the facts that hold across all of them.
 */
module Lifecycle {
  import opened Wrappers
  import opened Enums
  import opened Store
  import Auth
  import BookItems
  import Lendings
  import Reservations

  datatype Op =
    | Reserve(n: Reservations.NewReservation, requester: User)
    | Fulfill(reservationId: int, itemId: int)
    | Cancel(reservationId: int)
    | Complete(reservationId: int)
    | Lend(userId: int, itemId: int, forReservation: Option<int>)
    | Return(lendingId: int)
    | AddCopy(bookId: int, item: BookItems.NewBookItem)
    | EditCopy(copyId: int, update: BookItems.ItemUpdate)

  /** No copy is `loaned` afterwards unless it already was. */
  ghost predicate NoCopyBecomesLoaned(s: State, t: State) {
    forall k :: k in t.copies && t.copies[k].status == Loaned ==> k in s.copies && s.copies[k].status == Loaned
  }

  /** One operation. The reservation operations look the hold up by id
      first (`get_reservation_by_id_from_path`). */
  function Step(s: State, op: Op): (r: Result<State>)
    requires Valid(s)
    ensures r.Success? ==> NoCopyBecomesLoaned(s, r.value)
    ensures r.Success? ==> r.value.today == s.today && r.value.config == s.config
  {
    match op
    case Reserve(n, requester) =>
      var p :- Reservations.CreateReservation(s, n, requester);
      Success(p.0)
    case Fulfill(id, itemId) =>
      var h :- Reservations.GetReservationByIdFromPath(s, id);
      var p :- Reservations.FulfillReservation(s, h, itemId);
      Success(p.0)
    case Cancel(id) =>
      var h :- Reservations.GetReservationByIdFromPath(s, id);
      var p :- Reservations.CancelReservation(s, h);
      Success(p.0)
    case Complete(id) =>
      var h :- Reservations.GetReservationByIdFromPath(s, id);
      var p :- Reservations.CompleteReservation(s, h);
      Success(p.0)
    case Lend(userId, itemId, forReservation) =>
      var p :- Lendings.CreateLending(s, userId, itemId, forReservation);
      Success(p.0)
    case Return(id) =>
      var p :- Lendings.CompleteLending(s, id);
      Success(p.0)
    case AddCopy(bookId, item) =>
      var p :- BookItems.CreateBookItem(s, bookId, item);
      Success(p.0)
    case EditCopy(id, update) =>
      var p :- BookItems.UpdateBookItemById(s, id, update);
      Success(p.0)
  }

  // ------------------------------------------------------------ the shape

  /** What a hold's status says about its copy and due date: a pending hold
      has neither, a waiting or completed hold has both, and a cancelled
      hold has a due date (every status write sets one). */
  ghost predicate HoldShaped(h: Reservation) {
    && (h.status == Pending ==> h.bookItemId.None? && h.dueDate.None?)
    && (h.status in {Waiting, Completed} ==> h.bookItemId.Some? && h.dueDate.Some?)
    && (h.status == Cancelled ==> h.dueDate.Some?)
  }

  ghost predicate Shaped(s: State) {
    forall k :: k in s.reservations ==> HoldShaped(s.reservations[k])
  }

  lemma InitIsShaped(today: int)
    ensures Shaped(Init(today)) && Valid(Init(today))
  {
  }

  /** Every operation keeps the store well-formed. */
  lemma StepPreservesValid(s: State, op: Op)
    requires Valid(s)
    requires Step(s, op).Success?
    ensures Valid(Step(s, op).value)
  {
    match op
    case Reserve(n, requester) =>
    case Fulfill(id, itemId) =>
      assert s.reservations[id].id == id;
    case Cancel(id) =>
      assert s.reservations[id].id == id;
    case Complete(id) =>
      CompleteKeepsValid(s, id);
    case Lend(userId, itemId, forReservation) =>
      Lendings.LendingsPreserveValid(s, userId, itemId, forReservation, 0);
    case Return(id) =>
      Lendings.LendingsPreserveValid(s, 0, 0, None, id);
    case AddCopy(bookId, item) =>
      BookItems.LedgerPreservesValid(s, 0, BookItems.NoFields, bookId, item, BookItems.ItemUpdate(None, None, None, None, None));
    case EditCopy(id, update) =>
      BookItems.LedgerPreservesValid(s, id, BookItems.NoFields, 0, BookItems.NewBookItem("", Good, 0, None, Available), update);
  }

  lemma CompleteKeepsValid(s: State, id: int)
    requires Valid(s) && Step(s, Complete(id)).Success?
    ensures Valid(Step(s, Complete(id)).value)
  {
    var h := s.reservations[id];
    assert h.id == id;
    var k := h.bookItemId.value;
    var mid := Reservations.WriteReservation(s, id, h.bookItemId, Completed).(copies := s.copies[k := s.copies[k].(status := Available)]);
    assert Valid(mid);
    Lendings.LendingsPreserveValid(mid, h.userId, k, Some(id), 0);
  }

  /** Every operation keeps every hold shaped. */
  lemma StepPreservesShape(s: State, op: Op)
    requires Valid(s) && Shaped(s)
    requires Step(s, op).Success?
    ensures Shaped(Step(s, op).value)
  {
    var t := Step(s, op).value;
    match op
    case Reserve(n, requester) =>
    case Fulfill(id, itemId) =>
      assert s.reservations[id].id == id;
      OnlyOneHoldChanges(s, t, id);
    case Cancel(id) =>
      assert s.reservations[id].id == id;
      OnlyOneHoldChanges(s, t, id);
    case Complete(id) =>
      assert s.reservations[id].id == id;
      assert t.reservations == s.reservations[id := t.reservations[id]];
      OnlyOneHoldChanges(s, t, id);
    case Lend(userId, itemId, forReservation) =>
    case Return(id) =>
    case AddCopy(bookId, item) =>
    case EditCopy(id, update) =>
  }

  lemma OnlyOneHoldChanges(s: State, t: State, id: int)
    requires Shaped(s) && id in t.reservations && HoldShaped(t.reservations[id])
    requires t.reservations == s.reservations[id := t.reservations[id]]
    ensures Shaped(t)
  {
  }

  /** The daily sweep keeps the invariants and never marks a copy loaned. */
  lemma SweepPreservesInvariants(s: State, t: State)
    requires Valid(s) && Shaped(s)
    requires Reservations.SweptState(s, Reservations.DueIds(s), t)
    ensures Valid(t) && Shaped(t) && NoCopyBecomesLoaned(s, t)
  {
    forall k | k in t.reservations
      ensures HoldShaped(t.reservations[k])
    {
      assert HoldShaped(s.reservations[k]);
    }
  }

  // ------------------------------------------------------ the happy path

  /** Fulfilling a pending hold, by id, with an available copy of its
      library. */
  lemma FulfillById(s: State, id: int, itemId: int)
    requires Valid(s) && id in s.reservations
    requires s.reservations[id].status == Pending && s.reservations[id].bookItemId == None
    requires itemId in s.copies && s.copies[itemId].status == Available
    requires s.copies[itemId].libraryId == Some(s.reservations[id].libraryId)
    ensures Step(s, Fulfill(id, itemId)).Success?
    ensures var t := Step(s, Fulfill(id, itemId)).value;
      && Valid(t) && id in t.reservations && itemId in t.copies
      && t.reservations[id].status == Waiting && t.reservations[id].bookItemId == Some(itemId)
      && t.reservations[id].userId == s.reservations[id].userId
      && t.copies[itemId].status == Reserved
      && t.users == s.users && t.libraries == s.libraries && t.nextId == s.nextId
      && t.today == s.today && t.config == s.config
  {
    assert s.reservations[id].id == id;
    StepPreservesValid(s, Fulfill(id, itemId));
  }

  /** Completing a waiting hold, by id, whose copy is reserved and whose
      user is active. */
  lemma CompleteById(s: State, id: int)
    requires Valid(s) && id in s.reservations
    requires var h := s.reservations[id];
      && h.status == Waiting && h.bookItemId.Some? && h.bookItemId.value in s.copies
      && s.copies[h.bookItemId.value].status == Reserved
      && h.userId in s.users && Auth.IsActive(s.users[h.userId])
    ensures Step(s, Complete(id)).Success?
    ensures var t := Step(s, Complete(id)).value;
      var h := s.reservations[id];
      && id in t.reservations && t.reservations[id].status == Completed
      && h.bookItemId.value in t.copies && t.copies[h.bookItemId.value].status == Available
      && s.nextId in t.lendings
      && t.lendings[s.nextId] == Lending(s.nextId, h.userId, h.bookItemId.value, Some(id),
                                         s.today + s.config.lendingDueDay, None, None)
  {
    assert s.reservations[id].id == id;
    assert Reservations.Releases(s, s.reservations[id]);
  }

  /** Reserve, fulfil with an available copy of the hold's library, then
      complete: the borrower gets a loan of that copy, tied to the hold,
      due `lending_due_day` days from today; the hold is completed and the
      copy is back to available. */
  lemma ReserveFulfillComplete(s: State, n: Reservations.NewReservation, requester: User, itemId: int)
    requires Valid(s)
    requires Reservations.CreateReservation(s, n, requester).Success?
    requires Reservations.Borrower(n, requester) in s.users
    requires Auth.IsActive(s.users[Reservations.Borrower(n, requester)])
    requires itemId in s.copies && s.copies[itemId].status == Available
    requires s.copies[itemId].libraryId == Some(n.libraryId)
    ensures Step(s, Reserve(n, requester)).Success? && Valid(Step(s, Reserve(n, requester)).value)
    ensures var s1 := Step(s, Reserve(n, requester)).value;
      && Step(s1, Fulfill(s.nextId, itemId)).Success?
      && var s2 := Step(s1, Fulfill(s.nextId, itemId)).value;
      && Valid(s2)
      && Step(s2, Complete(s.nextId)).Success?
      && var s3 := Step(s2, Complete(s.nextId)).value;
      && s3.reservations[s.nextId].status == Completed
      && s3.copies[itemId].status == Available
      && s.nextId + 1 in s3.lendings
      && s3.lendings[s.nextId + 1] == Lending(s.nextId + 1, Reservations.Borrower(n, requester), itemId,
                                              Some(s.nextId), s.today + s.config.lendingDueDay, None, None)
  {
    var id := s.nextId;
    ReserveById(s, n, requester);
    var s1 := Step(s, Reserve(n, requester)).value;
    FulfillThenComplete(s1, id, itemId);
  }

  /** Fulfil a fresh pending hold with an available copy of its library,
      then complete it: the loan goes under the next id. */
  lemma FulfillThenComplete(s: State, id: int, itemId: int)
    requires Valid(s) && id in s.reservations
    requires s.reservations[id].status == Pending && s.reservations[id].bookItemId == None
    requires itemId in s.copies && s.copies[itemId].status == Available
    requires s.copies[itemId].libraryId == Some(s.reservations[id].libraryId)
    requires s.reservations[id].userId in s.users && Auth.IsActive(s.users[s.reservations[id].userId])
    ensures Step(s, Fulfill(id, itemId)).Success?
    ensures var s2 := Step(s, Fulfill(id, itemId)).value;
      && Valid(s2)
      && Step(s2, Complete(id)).Success?
      && var s3 := Step(s2, Complete(id)).value;
      && s3.reservations[id].status == Completed
      && s3.copies[itemId].status == Available
      && s.nextId in s3.lendings
      && s3.lendings[s.nextId] == Lending(s.nextId, s.reservations[id].userId, itemId,
                                          Some(id), s.today + s.config.lendingDueDay, None, None)
  {
    FulfillById(s, id, itemId);
    var s2 := Step(s, Fulfill(id, itemId)).value;
    CompleteById(s2, id);
  }

  /** The same path against the schema as migrated: when no library carries
      the new hold's id, the loan insert of the completion is refused and
      the whole completion fails, where `ReserveFulfillComplete` succeeds. */
  lemma ReserveFulfillCompleteAsWritten(s: State, n: Reservations.NewReservation, requester: User, itemId: int)
    requires Valid(s)
    requires Reservations.CreateReservation(s, n, requester).Success?
    requires Reservations.Borrower(n, requester) in s.users
    requires Auth.IsActive(s.users[Reservations.Borrower(n, requester)])
    requires itemId in s.copies && s.copies[itemId].status == Available
    requires s.copies[itemId].libraryId == Some(n.libraryId)
    requires s.nextId !in s.libraries
    ensures Step(s, Reserve(n, requester)).Success? && Valid(Step(s, Reserve(n, requester)).value)
    ensures var s1 := Step(s, Reserve(n, requester)).value;
      var s2 := Step(s1, Fulfill(s.nextId, itemId)).value;
      && s.nextId in s2.reservations
      && Reservations.CompleteReservation(s2, s2.reservations[s.nextId]).Success?
      && Reservations.CompleteReservationAsWritten(s2, s2.reservations[s.nextId])
         == Raise(ServerError, Lendings.ReservationKeyViolation)
  {
    var id := s.nextId;
    ReserveById(s, n, requester);
    var s1 := Step(s, Reserve(n, requester)).value;
    FulfillById(s1, id, itemId);
    var s2 := Step(s1, Fulfill(id, itemId)).value;
    CompleteById(s2, id);
    assert s2.libraries == s.libraries;
    CompleteStepAsWritten(s2, id);
  }

  /** A completion step that succeeds against the intended schema is
      refused as migrated when no library carries the hold's id. */
  lemma CompleteStepAsWritten(s: State, id: int)
    requires Valid(s) && Step(s, Complete(id)).Success?
    requires id !in s.libraries
    ensures id in s.reservations
    ensures Reservations.CompleteReservation(s, s.reservations[id]).Success?
    ensures Reservations.CompleteReservationAsWritten(s, s.reservations[id])
            == Raise(ServerError, Lendings.ReservationKeyViolation)
  {
    var h := Reservations.GetReservationByIdFromPath(s, id).value;
    assert h == s.reservations[id];
  }

  /** Creating a hold stores it, pending, under the next id. */
  lemma ReserveById(s: State, n: Reservations.NewReservation, requester: User)
    requires Valid(s)
    requires Reservations.CreateReservation(s, n, requester).Success?
    ensures Step(s, Reserve(n, requester)).Success?
    ensures var t := Step(s, Reserve(n, requester)).value;
      && Valid(t) && t.nextId == s.nextId + 1
      && t.reservations == s.reservations[s.nextId := Reservation(s.nextId, n.bookId, n.libraryId,
                                                                Reservations.Borrower(n, requester), Pending, None, None)]
      && t == s.(reservations := t.reservations, nextId := t.nextId)
  {
    StepPreservesValid(s, Reserve(n, requester));
  }

  /** Completing a hold leaves its copy `available` while the new loan is
      outstanding, so the same copy can be lent again to any active user:
      two open loans of one copy. */
  lemma CopyOnLoanCanBeLentAgain(s: State, id: int, userId: int)
    requires Valid(s) && Step(s, Complete(id)).Success?
    requires userId in s.users && Auth.IsActive(s.users[userId])
    ensures var t := Step(s, Complete(id)).value;
      var k := s.reservations[id].bookItemId.value;
      && s.nextId in t.lendings && t.lendings[s.nextId].bookItemId == k && t.lendings[s.nextId].returnDate.None?
      && Step(t, Lend(userId, k, None)).Success?
  {
    var h := s.reservations[id];
    var k := h.bookItemId.value;
    var mid := Reservations.WriteReservation(s, id, h.bookItemId, Completed).(copies := s.copies[k := s.copies[k].(status := Available)]);
    assert Valid(mid);
    Lendings.LendingsPreserveValid(mid, h.userId, k, Some(id), 0);
  }
}

=== FILE: reservations.dfy ===
/** The reservation manager: creating a hold on a title at a library,
    fulfilling it with a specific available copy, cancelling it, completing
    it into a loan, and the daily sweep that cancels holds left waiting past
    their due date; with the reservation path and filter dependencies and
    the reservations list query.

    Each repository operation receives the reservation record its caller
    read (the path dependency, or the sweep's list), as the source does, and
    decides on that record's status and copy.
 */
module Reservations {
  import opened Wrappers
  import opened Enums
  import opened Store
  import opened Filters
  import Auth
  import Users
  import BookItems
  import Lendings

  const NoUser := "No user found with that id."
  const UserNotActive := "Given user is not active."
  const NoLibrary := "No library found with that id."
  const NoBook := "No book found with that id."
  const NoReservation := "No reservation found with that id."
  const AlreadyFulfilled := "Reservation is already fulfilled."
  const NoBookItem := "No book item found with that id."
  const ItemUnavailable := "Given book item is unavailable."
  const WrongLibrary := "Given book item does not belong to reservation library."
  const ReservedItemUnavailable := "Reserved book item is unavailable."
  const BadStatus := "value is not a valid enumeration member; permitted: 'pending', 'waiting', 'cancelled', 'completed'"

  /** `f"Reservation is already {reservation.status}."` */
  function AlreadyIn(st: ReservationStatus): string {
    "Reservation is already " + ReservationStatusName(st) + "."
  }

  /** `ReservationCreate`: a `user_id` of 0 stands for the requester. */
  datatype NewReservation = NewReservation(bookId: int, libraryId: int, userId: int)

  // --------------------------------------------------------------- create

  /** `validate_user_and_library`: another user than the requester must
      exist and be active; the library must exist. */
  function ValidateUserAndLibrary(s: State, n: NewReservation, requester: User): (o: Outcome)
    ensures requester.id != n.userId && n.userId !in s.users ==> o == Fail(Error(NotFound, NoUser))
    ensures requester.id != n.userId && n.userId in s.users && !Auth.IsActive(s.users[n.userId])
      ==> o == Fail(Error(BadRequest, UserNotActive))
    ensures o == Pass <==>
      && (requester.id != n.userId ==> n.userId in s.users && Auth.IsActive(s.users[n.userId]))
      && n.libraryId in s.libraries
    ensures o.Fail? && (requester.id == n.userId || (n.userId in s.users && Auth.IsActive(s.users[n.userId])))
      ==> o == Fail(Error(NotFound, NoLibrary))
  {
    var user := Users.GetUserById(s, n.userId);
    if requester.id != n.userId && user.None? then Fail(Error(NotFound, NoUser))
    else if requester.id != n.userId && user.value.status != Some(Active) then Fail(Error(BadRequest, UserNotActive))
    else if n.libraryId !in s.libraries then Fail(Error(NotFound, NoLibrary))
    else Pass
  }

  /** The borrower a new reservation is for. */
  function Borrower(n: NewReservation, requester: User): int {
    if n.userId == 0 then requester.id else n.userId
  }

  /** `create_reservation`: a pending hold with no copy and no due date.
      The requester is never checked for being active here (the routes'
      authentication does that). */
  function CreateReservation(s: State, n: NewReservation, requester: User): (r: Result<(State, Reservation)>)
    ensures var m := n.(userId := Borrower(n, requester));
      ValidateUserAndLibrary(s, m, requester).Fail? ==> r == Failure(ValidateUserAndLibrary(s, m, requester).error)
    ensures r.Success? <==>
      ValidateUserAndLibrary(s, n.(userId := Borrower(n, requester)), requester) == Pass && n.bookId in s.books
    ensures ValidateUserAndLibrary(s, n.(userId := Borrower(n, requester)), requester) == Pass && n.bookId !in s.books
      ==> r == Raise(NotFound, NoBook)
    ensures r.Success? ==>
      var h := r.value.1;
      && h == Reservation(s.nextId, n.bookId, n.libraryId, Borrower(n, requester), Pending, None, None)
      && r.value.0 == s.(reservations := s.reservations[h.id := h], nextId := s.nextId + 1)
    ensures r.Success? && n.userId == 0 ==> r.value.1.userId == requester.id
  {
    var m := n.(userId := Borrower(n, requester));
    var o := ValidateUserAndLibrary(s, m, requester);
    if o.Fail? then Failure(o.error)
    else if n.bookId !in s.books then Raise(NotFound, NoBook)
    else
      var h := Reservation(s.nextId, m.bookId, m.libraryId, m.userId, Pending, None, None);
      Success((s.(reservations := s.reservations[h.id := h], nextId := s.nextId + 1), h))
  }

  // ------------------------------------------------------- status writes

  /** `UPDATE_RESERVATION_BY_ID_QUERY`: the one write every transition
      uses.  It sets the copy and the status and always resets the due date
      to `reservation_due_day` days from today. */
  function WriteReservation(s: State, id: int, itemId: Option<int>, st: ReservationStatus): (t: State)
    requires id in s.reservations
    ensures id in t.reservations
    ensures t.reservations[id].status == st && t.reservations[id].bookItemId == itemId
    ensures t.reservations[id].dueDate == Some(s.today + s.config.reservationDueDay)
    ensures t.reservations[id].(status := s.reservations[id].status, bookItemId := s.reservations[id].bookItemId,
                                dueDate := s.reservations[id].dueDate) == s.reservations[id]
    ensures t == s.(reservations := t.reservations)
    ensures t.reservations.Keys == s.reservations.Keys
    ensures forall k :: k in s.reservations && k != id ==> t.reservations[k] == s.reservations[k]
  {
    var h := s.reservations[id].(bookItemId := itemId, status := st, dueDate := Some(s.today + s.config.reservationDueDay));
    s.(reservations := s.reservations[id := h])
  }

  /** An internal `BookItemInternalUpdate(status=...)` on one copy, through
      the ledger update (which always accepts it). */
  function SetCopyStatus(s: State, itemId: int, st: BookItemStatus): (t: State)
    requires itemId in s.copies
    ensures t == s.(copies := s.copies[itemId := s.copies[itemId].(status := st)])
    ensures BookItems.UpdateBookItem(s, itemId, BookItems.StatusOnly(st)) == Success((t, t.copies[itemId]))
  {
    BookItems.StatusOnlyUpdateSucceeds(s, itemId, st);
    BookItems.UpdateBookItem(s, itemId, BookItems.StatusOnly(st)).value.0
  }

  // -------------------------------------------------------------- fulfill

  /** `fulfill_reservation`: a pending hold without a copy takes an
      available copy of its own library; the copy becomes reserved and the
      hold waits until the reservation due day. */
  function FulfillReservation(s: State, h: Reservation, itemId: int): (r: Result<(State, Reservation)>)
    requires h.id in s.reservations
    ensures h.status != Pending ==> r == Raise(BadRequest, AlreadyIn(h.status))
    ensures h.status == Pending && TruthyId(h.bookItemId) ==> r == Raise(BadRequest, AlreadyFulfilled)
    ensures h.status == Pending && !TruthyId(h.bookItemId) && itemId !in s.copies ==> r == Raise(NotFound, NoBookItem)
    ensures h.status == Pending && !TruthyId(h.bookItemId) && itemId in s.copies && s.copies[itemId].status != Available
      ==> r == Raise(BadRequest, ItemUnavailable)
    ensures && h.status == Pending && !TruthyId(h.bookItemId) && itemId in s.copies
            && s.copies[itemId].status == Available && s.copies[itemId].libraryId != Some(h.libraryId)
      ==> r == Raise(BadRequest, WrongLibrary)
    ensures r.Success? <==>
      && h.status == Pending && !TruthyId(h.bookItemId) && itemId in s.copies
      && s.copies[itemId].status == Available && s.copies[itemId].libraryId == Some(h.libraryId)
    ensures r.Success? ==>
      var t := r.value.0;
      && h.id in t.reservations && r.value.1 == t.reservations[h.id]
      && t.reservations[h.id].status == Waiting && t.reservations[h.id].bookItemId == Some(itemId)
      && t.reservations[h.id].dueDate == Some(s.today + s.config.reservationDueDay)
      && t.copies == s.copies[itemId := s.copies[itemId].(status := Reserved)]
      && t == WriteReservation(s, h.id, Some(itemId), Waiting).(copies := t.copies)
  {
    if h.status != Pending then Raise(BadRequest, AlreadyIn(h.status))
    else if TruthyId(h.bookItemId) then Raise(BadRequest, AlreadyFulfilled)
    else if itemId !in s.copies then Raise(NotFound, NoBookItem)
    else if s.copies[itemId].status != Available then Raise(BadRequest, ItemUnavailable)
    else if s.copies[itemId].libraryId != Some(h.libraryId) then Raise(BadRequest, WrongLibrary)
    else
      var t := WriteReservation(SetCopyStatus(s, itemId, Reserved), h.id, Some(itemId), Waiting);
      Success((t, t.reservations[h.id]))
  }

  // --------------------------------------------------------------- cancel

  /** The copy a cancellation or completion hands back: the hold's copy
      when it exists and is neither lost nor written off. */
  predicate Releases(s: State, h: Reservation) {
    Lookup(s.copies, h.bookItemId).Some? && Lookup(s.copies, h.bookItemId).value.status !in {Lost, WrittenOff}
  }

  /** The status write that hands the hold's copy back, when it does. */
  function ReleaseCopy(s: State, h: Reservation): (t: State)
    ensures t == s.(copies := t.copies)
    ensures Releases(s, h) ==>
      t.copies == s.copies[h.bookItemId.value := s.copies[h.bookItemId.value].(status := Available)]
    ensures !Releases(s, h) ==> t == s
  {
    if Releases(s, h) then SetCopyStatus(s, h.bookItemId.value, Available) else s
  }

  /** `cancel_reservation`: refused on a cancelled or completed hold;
      otherwise the copy goes back to available (unless lost or written
      off), and the hold is cancelled, keeping its copy and getting a fresh
      due date. */
  function CancelReservation(s: State, h: Reservation): (r: Result<(State, Reservation)>)
    requires h.id in s.reservations
    ensures IsTerminal(h.status) ==> r == Raise(BadRequest, AlreadyIn(h.status))
    ensures r.Success? <==> !IsTerminal(h.status)
    ensures r.Success? ==>
      var t := r.value.0;
      && h.id in t.reservations && t.reservations == s.reservations[h.id := t.reservations[h.id]]
      && r.value.1 == t.reservations[h.id]
      && r.value.1 == s.reservations[h.id].(bookItemId := h.bookItemId, status := Cancelled,
                                             dueDate := Some(s.today + s.config.reservationDueDay))
      && t.copies == (if Releases(s, h) then s.copies[h.bookItemId.value := s.copies[h.bookItemId.value].(status := Available)]
                      else s.copies)
      && OnlyCopiesAndReservationsDiffer(t, s)
  {
    if IsTerminal(h.status) then Raise(BadRequest, AlreadyIn(h.status))
    else
      var t := WriteReservation(ReleaseCopy(s, h), h.id, h.bookItemId, Cancelled);
      Success((t, t.reservations[h.id]))
  }

  // ------------------------------------------------------------- complete

  /** `complete_reservation`: refused on a cancelled or completed hold and
      when its copy is missing, lost or written off; otherwise the copy is
      set to available, the hold is completed, and a loan of that copy to
      the hold's user is created.  When the loan is refused the whole
      transaction fails and nothing changes.  The copy stays available
      while on loan. */
  function CompleteReservation(s: State, h: Reservation): (r: Result<(State, Lending)>)
    requires h.id in s.reservations
    ensures IsTerminal(h.status) ==> r == Raise(BadRequest, AlreadyIn(h.status))
    ensures !IsTerminal(h.status) && !Releases(s, h) ==> r == Raise(BadRequest, ReservedItemUnavailable)
    ensures r.Success? ==> !IsTerminal(h.status) && Releases(s, h)
    ensures !IsTerminal(h.status) && Releases(s, h) ==>
      var k := h.bookItemId.value;
      var mid := WriteReservation(s, h.id, h.bookItemId, Completed).(copies := s.copies[k := s.copies[k].(status := Available)]);
      r == Lendings.CreateLending(mid, h.userId, k, Some(h.id))
    ensures r.Success? ==>
      var t := r.value.0;
      var k := h.bookItemId.value;
      && t.reservations[h.id].status == Completed
      && t.copies == s.copies[k := s.copies[k].(status := Available)]
      && r.value.1.userId == h.userId && r.value.1.bookItemId == k && r.value.1.reservationId == Some(h.id)
      && r.value.1.returnDate == None
  {
    if IsTerminal(h.status) then Raise(BadRequest, AlreadyIn(h.status))
    else if !Releases(s, h) then Raise(BadRequest, ReservedItemUnavailable)
    else
      var k := h.bookItemId.value;
      var t := WriteReservation(SetCopyStatus(s, k, Available), h.id, h.bookItemId, Completed);
      Lendings.CreateLending(t, h.userId, k, Some(h.id))
  }

  /** `complete_reservation` against the schema as migrated: the same
      steps, with the loan insert of `CreateLendingAsWritten`. */
  function CompleteReservationAsWritten(s: State, h: Reservation): (r: Result<(State, Lending)>)
    requires h.id in s.reservations
    ensures r.Success? ==> r == CompleteReservation(s, h)
    ensures CompleteReservation(s, h).Success? && h.id !in s.libraries ==> r == Raise(ServerError, Lendings.ReservationKeyViolation)
  {
    if IsTerminal(h.status) then Raise(BadRequest, AlreadyIn(h.status))
    else if !Releases(s, h) then Raise(BadRequest, ReservedItemUnavailable)
    else
      var k := h.bookItemId.value;
      var t := WriteReservation(SetCopyStatus(s, k, Available), h.id, h.bookItemId, Completed);
      Lendings.CreateLendingAsWritten(t, h.userId, k, Some(h.id))
  }

  // -------------------------------------------------------- dependencies

  /** `get_reservation_by_id_from_path`. */
  function GetReservationByIdFromPath(s: State, id: int): (r: Result<Reservation>)
    ensures id < 1 ==> r == Raise(BadRequest, BelowOne)
    ensures id >= 1 && id !in s.reservations ==> r == Raise(NotFound, NoReservation)
    ensures r.Success? <==> id >= 1 && id in s.reservations
    ensures r.Success? ==> r.value == s.reservations[id]
  {
    if id < 1 then Raise(BadRequest, BelowOne)
    else if id !in s.reservations then Raise(NotFound, NoReservation)
    else Success(s.reservations[id])
  }

  /** `verify_reservation_access`: the holder, or a librarian or above. */
  function VerifyReservationAccess(h: Reservation, current: User): (o: Outcome)
    ensures o == Pass <==> h.userId == current.id || RoleRank(current.role) >= RoleRank(Some(Librarian))
    ensures o.Fail? ==> o.error == Error(Forbidden, Auth.NotAuthorized)
  {
    Auth.OwnerOrLibrarian(h.userId, current)
  }

  /** `get_reservation_filters_from_query`: ids below 1 and unknown status
      names are rejected by validation; each given parameter is copied into
      the dict under its own name. */
  function ReservationFiltersFromQuery(bookId: Option<int>, bookItemId: Option<int>, libraryId: Option<int>,
                                       status: Option<string>, dueBy: Option<int>): (r: Result<FilterDict>)
    ensures r.Success? <==>
      && (bookId.None? || bookId.value >= 1) && (bookItemId.None? || bookItemId.value >= 1)
      && (libraryId.None? || libraryId.value >= 1)
      && (status.None? || ParseReservationStatus(status.value).Some?)
    ensures r.Success? ==>
      && ("book_id" in r.value <==> bookId.Some?)
      && ("book_item_id" in r.value <==> bookItemId.Some?)
      && ("library_id" in r.value <==> libraryId.Some?)
      && ("status" in r.value <==> status.Some?)
      && ("due_by" in r.value <==> dueBy.Some?)
      && (bookId.Some? ==> r.value["book_id"] == IntVal(bookId.value))
      && (bookItemId.Some? ==> r.value["book_item_id"] == IntVal(bookItemId.value))
      && (libraryId.Some? ==> r.value["library_id"] == IntVal(libraryId.value))
      && (status.Some? ==> r.value["status"] == TextVal(status.value))
      && (dueBy.Some? ==> r.value["due_by"] == DateVal(dueBy.value))
      && (forall k :: k in r.value ==> k in {"book_id", "book_item_id", "library_id", "status", "due_by"})
  {
    if (bookId.Some? && bookId.value < 1) || (bookItemId.Some? && bookItemId.value < 1)
       || (libraryId.Some? && libraryId.value < 1) then
      Raise(BadRequest, BelowOne)
    else if status.Some? && ParseReservationStatus(status.value).None? then
      Raise(BadRequest, BadStatus)
    else
      var f1: FilterDict := if bookId.Some? then map["book_id" := IntVal(bookId.value)] else map[];
      var f2 := if bookItemId.Some? then f1["book_item_id" := IntVal(bookItemId.value)] else f1;
      var f3 := if libraryId.Some? then f2["library_id" := IntVal(libraryId.value)] else f2;
      var f4 := if status.Some? then f3["status" := TextVal(status.value)] else f3;
      var f5 := if dueBy.Some? then f4["due_by" := DateVal(dueBy.value)] else f4;
      Success(f5)
  }

  // ----------------------------------------------------------- list query

  const ListStart := "\n    SELECT \n        R.id,\n        R.book_id,\n        R.library_id,\n        R.user_id,\n        R.status,\n        R.book_item_id,\n        R.due_date,\n        R.created_at,\n        R.updated_at,\n        count(*) OVER() AS query_count\n    FROM reservations R\n"

  const ByBook := "R.book_id = :book_id"
  const ByItem := "R.book_item_id = :book_item_id"
  const ByLibrary := "R.library_id = :library_id"
  const ByUser := "R.user_id = :user_id"
  const ByStatus := "R.status = :status"
  const DueBefore := "R.due_date < :due_by"

  const Rules: seq<Rule> := [
    Rule("book_id", ByBook),
    Rule("book_item_id", ByItem),
    Rule("library_id", ByLibrary),
    Rule("user_id", ByUser),
    Rule("status", ByStatus),
    Rule("due_by", DueBefore)
  ]

  const OrderBy := " ORDER BY R.id "

  /** `list_reservations_filtered_query`. */
  function ListReservationsQuery(f: FilterDict, addSemicolon: bool): (q: string)
    ensures Text.StartsWith(q, ListStart)
    ensures HasWhere(q, ListStart) <==> exists i :: 0 <= i < |Rules| && Has(f, Rules[i].key)
    ensures var cs := Select(f, Rules);
      cs != [] ==> Text.StartsWith(q, ListStart + " WHERE " + Text.Join(cs, " AND ") + OrderBy)
    ensures Select(f, Rules) == [] ==> Text.StartsWith(q, ListStart + OrderBy)
    ensures Text.EndsWith(q, OrderBy + Paging(f) + Terminator(addSemicolon))
    ensures |q| == |ListStart| + |WhereClause(Select(f, Rules))| + |OrderBy| + |Paging(f)| + |Terminator(addSemicolon)|
    ensures |q| > 0 && (q[|q| - 1] == ';' <==> addSemicolon)
  {
    Assemble(ListStart, Select(f, Rules), OrderBy, f, addSemicolon)
  }

  /** The meaning of each conjunct for one row; a comparison with a NULL
      column is never true. */
  predicate ConjunctHolds(c: string, f: FilterDict, h: Reservation) {
    if c == ByBook then Get(f, "book_id") == IntVal(h.bookId)
    else if c == ByItem then h.bookItemId.Some? && Get(f, "book_item_id") == IntVal(h.bookItemId.value)
    else if c == ByLibrary then Get(f, "library_id") == IntVal(h.libraryId)
    else if c == ByUser then Get(f, "user_id") == IntVal(h.userId)
    else if c == ByStatus then Get(f, "status") == TextVal(ReservationStatusName(h.status))
    else if c == DueBefore then h.dueDate.Some? && Get(f, "due_by").DateVal? && h.dueDate.value < Get(f, "due_by").d
    else false
  }

  predicate Listed(f: FilterDict, h: Reservation) {
    var cs := Select(f, Rules);
    forall i :: 0 <= i < |cs| ==> ConjunctHolds(cs[i], f, h)
  }

  /** What the list query selects, stated on the filter values. */
  lemma ListedMeans(f: FilterDict, h: Reservation)
    ensures Listed(f, h) <==>
      && (Has(f, "book_id") ==> Get(f, "book_id") == IntVal(h.bookId))
      && (Has(f, "book_item_id") ==> h.bookItemId.Some? && Get(f, "book_item_id") == IntVal(h.bookItemId.value))
      && (Has(f, "library_id") ==> Get(f, "library_id") == IntVal(h.libraryId))
      && (Has(f, "user_id") ==> Get(f, "user_id") == IntVal(h.userId))
      && (Has(f, "status") ==> Get(f, "status") == TextVal(ReservationStatusName(h.status)))
      && (Has(f, "due_by") ==> h.dueDate.Some? && Get(f, "due_by").DateVal? && h.dueDate.value < Get(f, "due_by").d)
  {
    var cs := Select(f, Rules);
    assert Rules[0] == Rule("book_id", ByBook) && Rules[1] == Rule("book_item_id", ByItem);
    assert Rules[2] == Rule("library_id", ByLibrary) && Rules[3] == Rule("user_id", ByUser);
    assert Rules[4] == Rule("status", ByStatus) && Rules[5] == Rule("due_by", DueBefore);
    if Listed(f, h) {
      forall k | 0 <= k < |Rules| && Has(f, Rules[k].key)
        ensures ConjunctHolds(Rules[k].condition, f, h)
      {
        assert Rules[k].condition in cs;
        var i :| 0 <= i < |cs| && cs[i] == Rules[k].condition;
      }
      assert Has(f, "book_id") ==> ConjunctHolds(ByBook, f, h);
      assert Has(f, "book_item_id") ==> ConjunctHolds(ByItem, f, h);
      assert Has(f, "library_id") ==> ConjunctHolds(ByLibrary, f, h);
      assert Has(f, "user_id") ==> ConjunctHolds(ByUser, f, h);
      assert Has(f, "status") ==> ConjunctHolds(ByStatus, f, h);
      assert Has(f, "due_by") ==> ConjunctHolds(DueBefore, f, h);
    }
    if && (Has(f, "book_id") ==> Get(f, "book_id") == IntVal(h.bookId))
       && (Has(f, "book_item_id") ==> h.bookItemId.Some? && Get(f, "book_item_id") == IntVal(h.bookItemId.value))
       && (Has(f, "library_id") ==> Get(f, "library_id") == IntVal(h.libraryId))
       && (Has(f, "user_id") ==> Get(f, "user_id") == IntVal(h.userId))
       && (Has(f, "status") ==> Get(f, "status") == TextVal(ReservationStatusName(h.status)))
       && (Has(f, "due_by") ==> h.dueDate.Some? && Get(f, "due_by").DateVal? && h.dueDate.value < Get(f, "due_by").d)
    {
      forall i | 0 <= i < |cs| ensures ConjunctHolds(cs[i], f, h) {
        assert cs[i] in cs;
        var j :| 0 <= j < |Rules| && Has(f, Rules[j].key) && Rules[j].condition == cs[i];
        assert j in {0, 1, 2, 3, 4, 5};
      }
    }
  }

  // ---------------------------------------------------------------- sweep

  /** The dict `cancel_due_reservations` lists with: due before today,
      status waiting, and explicit `None` for limit and offset. */
  function SweepFilters(today: int): FilterDict {
    map["due_by" := DateVal(today), "status" := TextVal("waiting"), "limit" := NoneVal, "offset" := NoneVal]
  }

  /** A hold the sweep cancels: waiting, with a due date strictly before
      today.  A hold due today survives until tomorrow's sweep. */
  predicate IsDue(today: int, h: Reservation) {
    h.status == Waiting && h.dueDate.Some? && h.dueDate.value < today
  }

  /** The sweep's list query selects exactly the due holds, and has no
      LIMIT or OFFSET. */
  lemma SweepListsDue(today: int, h: Reservation)
    ensures Listed(SweepFilters(today), h) <==> IsDue(today, h)
    ensures Paging(SweepFilters(today)) == ""
  {
    var f := SweepFilters(today);
    ListedMeans(f, h);
    assert !Has(f, "book_id") && !Has(f, "book_item_id") && !Has(f, "library_id") && !Has(f, "user_id");
    assert Get(f, "status") == TextVal("waiting") && Get(f, "due_by") == DateVal(today);
    assert TextVal(ReservationStatusName(h.status)) == TextVal("waiting") <==> h.status == Waiting;
  }

  ghost function DueIds(s: State): set<int> {
    set id | id in s.reservations && IsDue(s.today, s.reservations[id])
  }

  /** The copies the holds `ids` name. */
  ghost function ItemsOf(s: State, ids: set<int>): set<int> {
    set id | id in ids && id in s.reservations && s.reservations[id].bookItemId.Some? :: s.reservations[id].bookItemId.value
  }

  /** A copy the sweep hands back to the shelf. */
  ghost predicate Freed(s: State, ids: set<int>, k: int)
    requires k in s.copies
  {
    k in ItemsOf(s, ids) && s.copies[k].status !in {Lost, WrittenOff}
  }

  /** The state after cancelling the holds `ids` of `s`, one by one. */
  ghost predicate SweptState(s: State, ids: set<int>, t: State) {
    && OnlyCopiesAndReservationsDiffer(t, s)
    && t.reservations.Keys == s.reservations.Keys
    && t.copies.Keys == s.copies.Keys
    && (forall id :: id in s.reservations ==>
          t.reservations[id] == if id in ids
            then s.reservations[id].(status := Cancelled, dueDate := Some(s.today + s.config.reservationDueDay))
            else s.reservations[id])
    && (forall k :: k in s.copies ==>
          t.copies[k] == if Freed(s, ids, k) then s.copies[k].(status := Available) else s.copies[k])
  }

  /** The due holds with an id below `k`. */
  ghost function DueBelow(s: State, k: int): set<int> {
    set id | id in DueIds(s) && id < k
  }

  /** `cancel_due_reservations`: lists the due holds once, ordered by id,
      then cancels each listed record.  Every cancellation succeeds: every
      due hold is cancelled with a fresh due date, the copy of each goes
      back to available unless lost or written off, and nothing else
      changes. */
  method CancelDueReservations(s: State) returns (t: State)
    requires Valid(s)
    ensures SweptState(s, DueIds(s), t)
  {
    t := s;
    var k := 1;
    while k < s.nextId
      invariant 1 <= k <= s.nextId
      invariant SweptState(s, DueBelow(s, k), t)
    {
      if k in s.reservations && IsDue(s.today, s.reservations[k]) {
        var res := CancelReservation(t, s.reservations[k]);
        ghost var t0 := t;
        t := res.value.0;
        SweepStep(s, DueBelow(s, k), t0, k, t);
        assert DueBelow(s, k + 1) == DueBelow(s, k) + {k};
      } else {
        assert DueBelow(s, k + 1) == DueBelow(s, k);
      }
      k := k + 1;
    }
    assert DueBelow(s, k) == DueIds(s);
  }

  /** What the sweep leaves of each hold and each copy. */
  lemma SweptMeans(s: State, t: State)
    requires SweptState(s, DueIds(s), t)
    ensures forall id :: id in s.reservations && !IsDue(s.today, s.reservations[id]) ==> t.reservations[id] == s.reservations[id]
    ensures forall id :: id in s.reservations && IsDue(s.today, s.reservations[id]) ==>
      t.reservations[id].status == Cancelled && t.reservations[id].dueDate == Some(s.today + s.config.reservationDueDay)
  {
  }

  /** One cancellation extends a partial sweep by one due hold. */
  lemma SweepStep(s: State, done: set<int>, t0: State, id: int, t: State)
    requires Valid(s)
    requires id in s.reservations && id in DueIds(s) && id !in done && done <= DueIds(s)
    requires SweptState(s, done, t0)
    requires CancelReservation(t0, s.reservations[id]).Success?
    requires t == CancelReservation(t0, s.reservations[id]).value.0
    ensures SweptState(s, done + {id}, t)
  {
    var h := s.reservations[id];
    assert t0.today == s.today && t0.config == s.config;
    assert ItemsOf(s, done + {id}) == ItemsOf(s, done) + (if h.bookItemId.Some? then {h.bookItemId.value} else {});
    forall k | k in s.copies
      ensures t.copies[k] == if Freed(s, done + {id}, k) then s.copies[k].(status := Available) else s.copies[k]
    {
      assert t0.copies[k].status in {Lost, WrittenOff} <==> s.copies[k].status in {Lost, WrittenOff};
    }
  }

  /** A hold due today is not cancelled by today's sweep. */
  lemma DueTodaySurvives(s: State, id: int, t: State)
    requires id in s.reservations && s.reservations[id].dueDate == Some(s.today)
    requires SweptState(s, DueIds(s), t)
    ensures t.reservations[id] == s.reservations[id]
  {
  }
}

=== FILE: store.dfy ===
/** The database of the library backend as one immutable value: a map from
    id to row for every table the core touches, the single system
    configuration row, and the current day.

    Dates are whole day numbers (`today`, due dates, return dates), and the
    `Numeric` daily fee is a whole number, so a fee is days times rate.
 */
module Store {
  import opened Wrappers
  import opened Enums

  /** The `system_config` row: days a fulfilled reservation waits, days of a
      loan, and the fee per overdue day. */
  datatype Config = Config(reservationDueDay: int, lendingDueDay: int, lendingDailyFee: int)

  /** The row the migration seeds with the column defaults 7, 14 and 5. */
  const DefaultConfig: Config := Config(7, 14, 5)

  datatype User = User(
    id: int,
    username: string,
    email: Option<string>,
    emailVerified: bool,
    password: string,              // the salted hash, never the clear text
    salt: string,
    role: Option<UserRole>,
    status: Option<UserStatus>,
    libraryCardNumber: Option<string>)

  datatype Profile = Profile(id: int, userId: int, firstName: Option<string>, surname: Option<string>)

  datatype Library = Library(id: int, name: Option<string>)

  /** The column is nullable in the schema, but a rack is always created
      with its library and goes with it (ON DELETE CASCADE). */
  datatype Rack = Rack(id: int, libraryId: int)

  datatype Book = Book(
    id: int,
    isbn: Option<string>,
    title: string,
    description: Option<string>,
    publisher: Option<string>,
    pageCount: Option<int>,
    publishDate: Option<int>)

  /** One physical copy of a book (`book_items`). */
  datatype BookItem = BookItem(
    id: int,
    barcode: string,
    condition: BookItemCondition,
    status: BookItemStatus,
    bookId: int,
    libraryId: Option<int>,
    rackId: Option<int>)

  /** The schema lets `library_id` (and `book_id`, `user_id`) become NULL
      when the referenced row is deleted (ON DELETE SET NULL); no operation
      of this model deletes those rows, so the model keeps plain ids. */
  datatype Reservation = Reservation(
    id: int,
    bookId: int,
    libraryId: int,
    userId: int,
    status: ReservationStatus,
    bookItemId: Option<int>,
    dueDate: Option<int>)

  datatype Lending = Lending(
    id: int,
    userId: int,
    bookItemId: int,
    reservationId: Option<int>,
    dueDate: int,
    returnDate: Option<int>,
    fee: Option<int>)

  datatype State = State(
    config: Config,
    today: int,
    users: map<int, User>,
    profiles: map<int, Profile>,       // keyed by the owning user's id
    libraries: map<int, Library>,
    racks: map<int, Rack>,
    books: map<int, Book>,
    authors: set<string>,              // the `authors` table (names)
    bookAuthors: map<int, set<string>>,// `books_to_authors`, grouped by book id
    copies: map<int, BookItem>,
    reservations: map<int, Reservation>,
    lendings: map<int, Lending>,
    librarians: map<int, int>,         // `libraries_to_librarians`: user id -> library id
    nextId: int)                       // the next id a serial column hands out

  /** A freshly migrated database on day `today`. */
  function Init(today: int): (s: State)
    ensures s.config == DefaultConfig
  {
    State(DefaultConfig, today, map[], map[], map[], map[], map[], {}, map[], map[], map[], map[], map[], 1)
  }

  /** Rows sit under their own id, and every id is below the serial counter,
      so the next insert never overwrites an existing row. */
  ghost predicate Valid(s: State) {
    && s.nextId >= 1
    && (forall k :: k in s.users ==> 1 <= k < s.nextId && s.users[k].id == k)
    && (forall k :: k in s.profiles ==> 1 <= s.profiles[k].id < s.nextId && s.profiles[k].userId == k)
    && (forall k :: k in s.books ==> 1 <= k < s.nextId && s.books[k].id == k)
    && (forall k :: k in s.copies ==> 1 <= k < s.nextId && s.copies[k].id == k)
    && (forall k :: k in s.reservations ==> 1 <= k < s.nextId && s.reservations[k].id == k)
    && (forall k :: k in s.lendings ==> 1 <= k < s.nextId && s.lendings[k].id == k)
    && (forall k :: k in s.libraries ==> s.libraries[k].id == k)
    && (forall k :: k in s.racks ==> s.racks[k].id == k)
  }

  lemma InitIsValid(today: int)
    ensures Valid(Init(today))
    ensures Init(today).config == Config(7, 14, 5)
  {
  }

  /** Every table except the copies is the same in both states. */
  ghost predicate OnlyCopiesDiffer(s: State, t: State) {
    s == t.(copies := s.copies)
  }

  /** Every table except the copies and the reservations is the same. */
  ghost predicate OnlyCopiesAndReservationsDiffer(s: State, t: State) {
    s == t.(copies := s.copies, reservations := s.reservations)
  }
}

=== FILE: text.dfy ===
/** Character and string helpers: `str.join`, prefixes, the character
    classes of the request validators, and the code-point order the model
    uses for SQL `ORDER BY` on text columns.
 */
module Text {

  /** Python's `sep.join(parts)`. */
  function Join(parts: seq<string>, sep: string): (r: string)
    ensures parts == [] ==> r == ""
    ensures |parts| == 1 ==> r == parts[0]
  {
    if |parts| == 0 then ""
    else if |parts| == 1 then parts[0]
    else parts[0] + sep + Join(parts[1..], sep)
  }

  predicate StartsWith(s: string, p: string) {
    |p| <= |s| && s[..|p|] == p
  }

  predicate EndsWith(s: string, suffix: string) {
    |suffix| <= |s| && s[|s| - |suffix|..] == suffix
  }

  lemma PrefixOfConcat(a: string, b: string)
    ensures StartsWith(a + b, a) && EndsWith(a + b, b)
  {
    assert (a + b)[..|a|] == a;
    assert (a + b)[|a|..] == b;
  }

  /** A prefix `a + o` and a suffix `o + b` that overlap in exactly `o`
      determine the whole string. */
  lemma PinnedByEnds(s: string, a: string, o: string, b: string)
    requires StartsWith(s, a + o) && EndsWith(s, o + b) && |s| == |a| + |o| + |b|
    ensures s == a + o + b
  {
    assert s == s[..|a + o|] + s[|a + o|..];
    assert s[|a + o|..] == (o + b)[|o|..];
    assert (o + b)[|o|..] == b;
  }

  lemma PrefixTrans(s: string, p: string, q: string)
    requires StartsWith(s, p) && StartsWith(p, q)
    ensures StartsWith(s, q)
  {
    assert s[..|q|] == s[..|p|][..|q|];
  }

  predicate IsDigit(c: char) {
    '0' <= c <= '9'
  }

  /** The class `[a-zA-Z0-9_-]` of the username pattern. */
  predicate IsWordChar(c: char) {
    ('a' <= c <= 'z') || ('A' <= c <= 'Z') || IsDigit(c) || c == '_' || c == '-'
  }

  predicate AllDigits(s: string) {
    forall i :: 0 <= i < |s| ==> IsDigit(s[i])
  }

  predicate AllWordChars(s: string) {
    forall i :: 0 <= i < |s| ==> IsWordChar(s[i])
  }

  // ------------------------------------------------------- code-point order

  /** `a` sorts before or equal to `b`, comparing code points left to right,
      a proper prefix first. */
  predicate LexLe(a: string, b: string)
    decreases |a|
  {
    if |a| == 0 then true
    else if |b| == 0 then false
    else if a[0] != b[0] then a[0] < b[0]
    else LexLe(a[1..], b[1..])
  }

  lemma {:induction false} LexLeReflexive(a: string)
    ensures LexLe(a, a)
    decreases |a|
  {
    if |a| > 0 {
      LexLeReflexive(a[1..]);
    }
  }

  lemma {:induction false} LexLeTotal(a: string, b: string)
    ensures LexLe(a, b) || LexLe(b, a)
    decreases |a|
  {
    if |a| > 0 && |b| > 0 && a[0] == b[0] {
      LexLeTotal(a[1..], b[1..]);
    }
  }

  lemma {:induction false} LexLeAntisymmetric(a: string, b: string)
    requires LexLe(a, b) && LexLe(b, a)
    ensures a == b
    decreases |a|
  {
    if |a| > 0 {
      LexLeAntisymmetric(a[1..], b[1..]);
      assert a == [a[0]] + a[1..];
      assert b == [b[0]] + b[1..];
    }
  }

  lemma {:induction false} LexLeTransitive(a: string, b: string, c: string)
    requires LexLe(a, b) && LexLe(b, c)
    ensures LexLe(a, c)
    decreases |a|
  {
    if |a| > 0 && a[0] == b[0] && b[0] == c[0] {
      LexLeTransitive(a[1..], b[1..], c[1..]);
    }
  }
}

=== FILE: users.dfy ===
/** Accounts: the request validators of the user models, registration (with
    the profile every new user gets), login by email or username, the
    partial update, the user lookups, and the route guards that reserve
    role and status changes to administrators.

    Hashing is outside the model: `get_salted_password_update` draws a
    random salt and a bcrypt hash, so its result is passed in as
    `Credentials`, and password verification is a function parameter.
 */
module Users {
  import opened Wrappers
  import opened Enums
  import opened Store
  import opened Text
  import Auth

  const EmailTaken := "That email is already taken. Login with that email or register with another one."
  const UsernameTaken := "That username is already taken. Please try another one."
  const CardAssigned := "That library card number is assigned to another user."
  const EmailTakenOnUpdate := "That email is already taken."
  const OnlyAdmins := "Only Administrators are allowed to change user roles and statuses"
  const NoUserByName := "No user found with that username."

  // ------------------------------------------------------------ validators

  /** `re.match("^[...]+$", s)` for a character class: `$` also matches
      just before a final newline, so one trailing `\n` is let through. */
  predicate MatchesClass(s: string, digitsOnly: bool) {
    var body := if |s| > 0 && s[|s| - 1] == '\n' then s[..|s| - 1] else s;
    |body| > 0 && (if digitsOnly then AllDigits(body) else AllWordChars(body))
  }

  /** `constr(min_length=3, regex="^[a-zA-Z0-9_-]+$")`. */
  predicate ValidUsername(u: string) {
    |u| >= 3 && MatchesClass(u, false)
  }

  /** `constr(min_length=7, max_length=100)`. */
  predicate ValidPassword(p: string) {
    7 <= |p| <= 100
  }

  /** `constr(min_length=7, max_length=14, regex="^[0-9]+$")`. */
  predicate ValidCard(c: string) {
    7 <= |c| <= 14 && MatchesClass(c, true)
  }

  /** The username pattern accepts a name followed by exactly one newline,
      and nothing with a newline anywhere else. */
  lemma UsernameNewlineGap(t: string)
    requires |t| >= 3 && AllWordChars(t)
    ensures ValidUsername(t) && ValidUsername(t + "\n")
    ensures !ValidUsername(t + "\n\n")
    ensures !ValidUsername("\n" + t)
  {
    assert (t + "\n")[..|t|] == t;
    var u := t + "\n\n";
    assert u[..|u| - 1] == t + "\n";
    assert !IsWordChar((t + "\n")[|t|]);
    assert !IsWordChar(("\n" + t)[0]);
  }

  const TooShort3 := "ensure this value has at least 3 characters"
  const TooShort7 := "ensure this value has at least 7 characters"
  const TooLong14 := "ensure this value has at most 14 characters"
  const TooLong100 := "ensure this value has at most 100 characters"
  const BadUsername := "string does not match regex \"^[a-zA-Z0-9_-]+$\""
  const BadCard := "string does not match regex \"^[0-9]+$\""

  /** Length first, then the pattern, as `constr` checks them. */
  function CheckUsername(u: string): (o: Outcome)
    ensures o == Pass <==> ValidUsername(u)
  {
    if |u| < 3 then Fail(Error(BadRequest, TooShort3))
    else if !MatchesClass(u, false) then Fail(Error(BadRequest, BadUsername))
    else Pass
  }

  function CheckPassword(p: string): (o: Outcome)
    ensures o == Pass <==> ValidPassword(p)
  {
    if |p| < 7 then Fail(Error(BadRequest, TooShort7))
    else if |p| > 100 then Fail(Error(BadRequest, TooLong100))
    else Pass
  }

  function CheckCard(c: string): (o: Outcome)
    ensures o == Pass <==> ValidCard(c)
  {
    if |c| < 7 then Fail(Error(BadRequest, TooShort7))
    else if |c| > 14 then Fail(Error(BadRequest, TooLong14))
    else if !MatchesClass(c, true) then Fail(Error(BadRequest, BadCard))
    else Pass
  }

  /** An optional constrained field: absent or `null` always passes. */
  function CheckGiven(f: Field<string>, check: string -> Outcome): Outcome {
    if f.Set? && f.given.Some? then check(f.given.value) else Pass
  }

  // ------------------------------------------------------------- requests

  /** `UserCreate`; the email address is taken as given. */
  datatype UserCreate = UserCreate(
    email: string,
    password: string,
    username: string,
    role: Field<UserRole>,
    status: Field<UserStatus>,
    libraryCardNumber: Field<string>)

  /** Left out, a role is `default` and a status `active`; sent as `null`
      they stay `None`. */
  function RoleOf(f: Field<UserRole>): Option<UserRole> {
    if f.Set? then f.given else Some(Default)
  }

  function StatusOf(f: Field<UserStatus>): Option<UserStatus> {
    if f.Set? then f.given else Some(Active)
  }

  function CardOf(f: Field<string>): Option<string> {
    if f.Set? then f.given else None
  }

  /** Field validation of `UserCreate`, reporting the first field in
      declaration order that fails. */
  function ValidateUserCreate(c: UserCreate): (o: Outcome)
    ensures o == Pass <==>
      ValidPassword(c.password) && ValidUsername(c.username) && (CardOf(c.libraryCardNumber).Some? ==> ValidCard(CardOf(c.libraryCardNumber).value))
    ensures o.Fail? ==> o.error.kind == BadRequest
  {
    var pw := CheckPassword(c.password);
    var name := CheckUsername(c.username);
    if pw.Fail? then pw else if name.Fail? then name else CheckGiven(c.libraryCardNumber, CheckCard)
  }

  /** `UserUpdate`; `CurrentUserUpdate` is the same with only email and
      password sent. */
  datatype UserUpdate = UserUpdate(
    email: Field<string>,
    password: Field<string>,
    role: Field<UserRole>,
    status: Field<UserStatus>,
    libraryCardNumber: Field<string>)

  function CurrentUserUpdate(email: Field<string>, password: Field<string>): UserUpdate {
    UserUpdate(email, password, Unset, Unset, Unset)
  }

  function ValidateUserUpdate(u: UserUpdate): (o: Outcome)
    ensures o == Pass <==>
      && (u.password.Set? && u.password.given.Some? ==> ValidPassword(u.password.given.value))
      && (u.libraryCardNumber.Set? && u.libraryCardNumber.given.Some? ==> ValidCard(u.libraryCardNumber.given.value))
  {
    var pw := CheckGiven(u.password, CheckPassword);
    if pw.Fail? then pw else CheckGiven(u.libraryCardNumber, CheckCard)
  }

  /** The salted hash and the salt `get_salted_password_update` produced. */
  datatype Credentials = Credentials(hashed: string, salt: string)

  // -------------------------------------------------------------- lookups

  predicate HasEmail(s: State, e: string) {
    exists k :: k in s.users && s.users[k].email == Some(e)
  }

  predicate HasUsername(s: State, name: string) {
    exists k :: k in s.users && s.users[k].username == name
  }

  predicate HasCard(s: State, c: string) {
    exists k :: k in s.users && s.users[k].libraryCardNumber == Some(c)
  }

  /** `user` is a row of the users table. */
  predicate IsStored(s: State, user: User) {
    exists k :: k in s.users && s.users[k] == user
  }

  /** The UNIQUE constraints on `users.email` and `users.username`. */
  ghost predicate UniqueLogins(s: State) {
    && (forall a, b :: a in s.users && b in s.users && s.users[a].email.Some? && s.users[a].email == s.users[b].email ==> a == b)
    && (forall a, b :: a in s.users && b in s.users && s.users[a].username == s.users[b].username ==> a == b)
  }

  /** `get_user_by_email`. */
  function UserByEmail(s: State, e: string): (r: Option<User>)
    requires UniqueLogins(s)
    ensures r.Some? <==> HasEmail(s, e)
    ensures r.Some? ==> r.value.email == Some(e) && IsStored(s, r.value)
  {
    if HasEmail(s, e) then
      var k :| k in s.users && s.users[k].email == Some(e);
      Some(s.users[k])
    else None
  }

  /** `get_user_by_username`. */
  function UserByUsername(s: State, name: string): (r: Option<User>)
    requires UniqueLogins(s)
    ensures r.Some? <==> HasUsername(s, name)
    ensures r.Some? ==> r.value.username == name && IsStored(s, r.value)
  {
    if HasUsername(s, name) then
      var k :| k in s.users && s.users[k].username == name;
      Some(s.users[k])
    else None
  }

  /** `get_user_by_id`: the row with that id. */
  function GetUserById(s: State, id: int): (r: Option<User>)
    ensures r.Some? <==> id in s.users
    ensures r.Some? ==> r.value == s.users[id]
  {
    if id in s.users then Some(s.users[id]) else None
  }

  /** `get_user_by_username_from_path`. */
  function GetUserByUsernameFromPath(s: State, name: string): (r: Result<User>)
    requires UniqueLogins(s)
    ensures !ValidUsername(name) ==> r.Failure? && r.error.kind == BadRequest
    ensures ValidUsername(name) && !HasUsername(s, name) ==> r == Raise(NotFound, NoUserByName)
    ensures r.Success? <==> ValidUsername(name) && HasUsername(s, name)
    ensures r.Success? ==> r.value.username == name && IsStored(s, r.value)
  {
    var o := CheckUsername(name);
    if o.Fail? then Failure(o.error)
    else match UserByUsername(s, name)
      case None => Raise(NotFound, NoUserByName)
      case Some(u) => Success(u)
  }

  // --------------------------------------------------------- registration

  /** `register_new_user`: the email and then the username must be free;
      the user is stored with the salted hash, unverified, and gets an
      empty profile.  The card number is not checked here. */
  function RegisterNewUser(s: State, c: UserCreate, cred: Credentials): (r: Result<(State, User)>)
    ensures HasEmail(s, c.email) ==> r == Raise(BadRequest, EmailTaken)
    ensures !HasEmail(s, c.email) && HasUsername(s, c.username) ==> r == Raise(BadRequest, UsernameTaken)
    ensures r.Success? <==> !HasEmail(s, c.email) && !HasUsername(s, c.username)
    ensures r.Success? ==>
      var u := r.value.1;
      var t := r.value.0;
      && u.id == s.nextId && u.username == c.username && u.email == Some(c.email) && !u.emailVerified
      && u.password == cred.hashed && u.salt == cred.salt
      && u.role == RoleOf(c.role) && u.status == StatusOf(c.status) && u.libraryCardNumber == CardOf(c.libraryCardNumber)
      && t.users == s.users[u.id := u]
      && t.profiles == s.profiles[u.id := Profile(s.nextId + 1, u.id, None, None)]
      && t == s.(users := t.users, profiles := t.profiles, nextId := s.nextId + 2)
  {
    if HasEmail(s, c.email) then Raise(BadRequest, EmailTaken)
    else if HasUsername(s, c.username) then Raise(BadRequest, UsernameTaken)
    else
      var u := User(s.nextId, c.username, Some(c.email), false, cred.hashed, cred.salt,
                    RoleOf(c.role), StatusOf(c.status), CardOf(c.libraryCardNumber));
      var p := Profile(s.nextId + 1, u.id, None, None);
      Success((s.(users := s.users[u.id := u], profiles := s.profiles[u.id := p], nextId := s.nextId + 2), u))
  }

  /** Registration keeps the id discipline and the unique logins, and the
      new user can be found by email and by username. */
  lemma RegisterPreservesInvariants(s: State, c: UserCreate, cred: Credentials)
    requires Valid(s) && UniqueLogins(s)
    requires RegisterNewUser(s, c, cred).Success?
    ensures var t := RegisterNewUser(s, c, cred).value.0;
      Valid(t) && UniqueLogins(t) && HasEmail(t, c.email) && HasUsername(t, c.username)
      && t.profiles[s.nextId].userId == s.nextId
  {
    var t := RegisterNewUser(s, c, cred).value.0;
    assert t.users[s.nextId].email == Some(c.email);
    assert t.users[s.nextId].username == c.username;
  }

  /** The guard of `POST /users/`: a role above default or a status other
      than active needs an administrator. */
  function RegisterGuard(current: User, c: UserCreate): (o: Outcome)
    ensures o.Fail? <==>
      (RoleRank(RoleOf(c.role)) > RoleRank(Some(Default)) || StatusOf(c.status) != Some(Active))
      && RoleRank(current.role) < RoleRank(Some(Admin))
    ensures o.Fail? ==> o.error == Error(BadRequest, OnlyAdmins)
  {
    if (RoleRank(RoleOf(c.role)) > RoleRank(Some(Default)) || StatusOf(c.status) != Some(Active))
       && RoleRank(current.role) < RoleRank(Some(Admin)) then
      Fail(Error(BadRequest, OnlyAdmins))
    else Pass
  }

  /** Leaving role and status out never needs an administrator, while a
      status sent as `null` does. */
  lemma RegisterGuardDefaults(current: User, c: UserCreate)
    ensures c.role == Unset && c.status == Unset ==> RegisterGuard(current, c) == Pass
    ensures c.status == Set(None) && current.role != Some(Admin) ==> RegisterGuard(current, c).Fail?
  {
  }

  /** `POST /users/`: librarian authentication, body validation, the guard,
      then registration. */
  function RegisterRoute(s: State, session: Option<User>, c: UserCreate, cred: Credentials): (r: Result<(State, User)>)
    ensures r.Success? ==> Auth.CurrentUserWithPermissions(session, Librarian).Success?
    ensures r.Success? ==> ValidateUserCreate(c) == Pass
    ensures r.Success? && (RoleRank(r.value.1.role) > RoleRank(Some(Default)) || r.value.1.status != Some(Active))
      ==> session.value.role == Some(Admin)
    ensures && Auth.CurrentUserWithPermissions(session, Librarian).Success? && ValidateUserCreate(c) == Pass
            && RegisterGuard(session.value, c) == Pass
      ==> r == RegisterNewUser(s, c, cred)
  {
    var current :- Auth.CurrentUserWithPermissions(session, Librarian);
    :- ValidateUserCreate(c);
    :- RegisterGuard(current, c);
    RegisterNewUser(s, c, cred)
  }

  // ---------------------------------------------------------------- login

  /** `authenticate_user`: the login is tried as an email first and only
      then as a username; the password must verify against that user. */
  function AuthenticateUser(s: State, login: string, password: string, verify: (string, string, string) -> bool)
    : (r: Option<User>)
    requires UniqueLogins(s)
    ensures r.Some? ==> IsStored(s, r.value) && verify(password, r.value.salt, r.value.password)
    ensures r.Some? ==> r.value.email == Some(login) || (!HasEmail(s, login) && r.value.username == login)
    ensures !HasEmail(s, login) && !HasUsername(s, login) ==> r == None
    ensures HasEmail(s, login) ==>
      r == (if verify(password, UserByEmail(s, login).value.salt, UserByEmail(s, login).value.password)
            then UserByEmail(s, login) else None)
    ensures !HasEmail(s, login) && HasUsername(s, login) ==>
      r == (if verify(password, UserByUsername(s, login).value.salt, UserByUsername(s, login).value.password)
            then UserByUsername(s, login) else None)
  {
    var byEmail := UserByEmail(s, login);
    var user := if byEmail.Some? then byEmail else UserByUsername(s, login);
    if user.None? then None
    else if !verify(password, user.value.salt, user.value.password) then None
    else user
  }

  /** The email match wins: when one user's email equals another user's
      username, the second can never log in with that username. */
  lemma EmailShadowsUsername(s: State, login: string, password: string, verify: (string, string, string) -> bool, k: int)
    requires UniqueLogins(s)
    requires k in s.users && s.users[k].username == login && s.users[k].email != Some(login)
    requires HasEmail(s, login)
    ensures AuthenticateUser(s, login, password, verify) != Some(s.users[k])
  {
  }

  // --------------------------------------------------------------- update

  /** `user.copy(update=user_update.dict(exclude_unset=True, exclude={"password"}))`,
      then `change_password` when a non-empty password was sent. */
  function ApplyUpdate(user: User, u: UserUpdate, cred: Credentials): (m: User)
    ensures m.id == user.id && m.username == user.username && m.emailVerified == user.emailVerified
    ensures m.email == (if u.email.Set? then u.email.given else user.email)
    ensures m.role == (if u.role.Set? then u.role.given else user.role)
    ensures m.status == (if u.status.Set? then u.status.given else user.status)
    ensures m.libraryCardNumber == (if u.libraryCardNumber.Set? then u.libraryCardNumber.given else user.libraryCardNumber)
    ensures (m.password, m.salt) == (if u.password.Set? && TruthyText(u.password.given) then (cred.hashed, cred.salt)
                                     else (user.password, user.salt))
  {
    var m := user.(
      email := if u.email.Set? then u.email.given else user.email,
      role := if u.role.Set? then u.role.given else user.role,
      status := if u.status.Set? then u.status.given else user.status,
      libraryCardNumber := if u.libraryCardNumber.Set? then u.libraryCardNumber.given else user.libraryCardNumber);
    if u.password.Set? && TruthyText(u.password.given) then m.(password := cred.hashed, salt := cred.salt) else m
  }

  predicate CardConflict(s: State, user: User, u: UserUpdate) {
    u.libraryCardNumber.Set? && TruthyText(u.libraryCardNumber.given)
    && u.libraryCardNumber.given != user.libraryCardNumber && HasCard(s, u.libraryCardNumber.given.value)
  }

  predicate EmailConflict(s: State, user: User, u: UserUpdate) {
    u.email.Set? && TruthyText(u.email.given) && u.email.given != user.email && HasEmail(s, u.email.given.value)
  }

  /** `update_user`: the card number and then the email must not belong to
      anyone else when they change; the row is rewritten from the merged
      record, except the username, which the statement never sets. */
  function UpdateUser(s: State, user: User, u: UserUpdate, cred: Credentials): (r: Result<(State, User)>)
    requires user.id in s.users
    ensures CardConflict(s, user, u) ==> r == Raise(BadRequest, CardAssigned)
    ensures !CardConflict(s, user, u) && EmailConflict(s, user, u) ==> r == Raise(BadRequest, EmailTakenOnUpdate)
    ensures r.Success? <==> !CardConflict(s, user, u) && !EmailConflict(s, user, u)
    ensures r.Success? ==>
      && r.value.1 == ApplyUpdate(user, u, cred).(username := s.users[user.id].username)
      && r.value.0 == s.(users := s.users[user.id := r.value.1])
  {
    if CardConflict(s, user, u) then Raise(BadRequest, CardAssigned)
    else if EmailConflict(s, user, u) then Raise(BadRequest, EmailTakenOnUpdate)
    else
      var stored := ApplyUpdate(user, u, cred).(username := s.users[user.id].username);
      Success((s.(users := s.users[user.id := stored]), stored))
  }

  /** An update that sends only a password changes nothing but the
      credentials; sending nothing changes nothing. */
  lemma UpdateUserLaws(s: State, user: User, p: string, cred: Credentials)
    requires user.id in s.users && s.users[user.id] == user
    ensures var r := UpdateUser(s, user, UserUpdate(Unset, Set(Some(p)), Unset, Unset, Unset), cred);
      r.Success? && r.value.1 == (if p != "" then user.(password := cred.hashed, salt := cred.salt) else user)
    ensures UpdateUser(s, user, UserUpdate(Unset, Unset, Unset, Unset, Unset), cred) == Success((s, user))
  {
    assert s.(users := s.users[user.id := user]) == s;
  }

  /** The guard of `PUT /users/{username}/`: sending a role or a status at
      all, even as `null`, needs an administrator. */
  function UpdateUserGuard(current: User, u: UserUpdate): (o: Outcome)
    ensures o.Fail? <==> (u.role.Set? || u.status.Set?) && RoleRank(current.role) < RoleRank(Some(Admin))
    ensures o.Fail? ==> o.error == Error(Forbidden, OnlyAdmins)
  {
    if (u.role.Set? || u.status.Set?) && RoleRank(current.role) < RoleRank(Some(Admin)) then
      Fail(Error(Forbidden, OnlyAdmins))
    else Pass
  }

  /** A stored user sits under its own id. */
  lemma StoredUserIsKeyed(s: State, user: User)
    requires Valid(s) && IsStored(s, user)
    ensures user.id in s.users && s.users[user.id] == user
  {
  }

  /** `PUT /users/{username}/`: librarian authentication, the user in the
      path, body validation, the guard, then the update.  A non-admin can
      never change anyone's role or status. */
  function UpdateUserRoute(s: State, session: Option<User>, name: string, u: UserUpdate, cred: Credentials)
    : (r: Result<(State, User)>)
    requires Valid(s) && UniqueLogins(s)
    ensures r.Success? ==> Auth.CurrentUserWithPermissions(session, Librarian).Success?
    ensures r.Success? ==> GetUserByUsernameFromPath(s, name).Success? && ValidateUserUpdate(u) == Pass
    ensures r.Success? && session.value.role != Some(Admin) ==>
      var before := GetUserByUsernameFromPath(s, name).value;
      r.value.1.role == before.role && r.value.1.status == before.status
    ensures r.Success? ==>
      var user := GetUserByUsernameFromPath(s, name).value;
      user.id in s.users && r == UpdateUser(s, user, u, cred)
    ensures Auth.CurrentUserWithPermissions(session, Librarian).Success? && GetUserByUsernameFromPath(s, name).Success?
      && ValidateUserUpdate(u) == Pass && UpdateUserGuard(session.value, u) == Pass
      ==> var user := GetUserByUsernameFromPath(s, name).value;
          user.id in s.users && r == UpdateUser(s, user, u, cred)
    ensures Auth.CurrentUserWithPermissions(session, Librarian).Success? && GetUserByUsernameFromPath(s, name).Success?
      && ValidateUserUpdate(u) == Pass && UpdateUserGuard(session.value, u).Fail?
      ==> r == Raise(Forbidden, OnlyAdmins)
  {
    var current :- Auth.CurrentUserWithPermissions(session, Librarian);
    var user :- GetUserByUsernameFromPath(s, name);
    assert user.id in s.users by { StoredUserIsKeyed(s, user); }
    :- ValidateUserUpdate(u);
    :- UpdateUserGuard(current, u);
    UpdateUser(s, user, u, cred)
  }

  /** `PUT /users/me/`: any active user may change their own email and
      password, never their role, status or card number. */
  function UpdateCurrentUserRoute(s: State, session: Option<User>, email: Field<string>, password: Field<string>, cred: Credentials)
    : (r: Result<(State, User)>)
    requires session.Some? ==> session.value.id in s.users
    ensures r.Success? ==> Auth.CurrentActiveUser(session).Success?
    ensures r.Success? ==>
      && r.value.1.role == session.value.role && r.value.1.status == session.value.status
      && r.value.1.libraryCardNumber == session.value.libraryCardNumber
    ensures Auth.CurrentActiveUser(session).Success? && ValidateUserUpdate(CurrentUserUpdate(email, password)) == Pass
      ==> r == UpdateUser(s, session.value, CurrentUserUpdate(email, password), cred)
    ensures r.Success? && email.Set? ==> r.value.1.email == email.given
    ensures r.Success? && password.Set? && TruthyText(password.given) ==>
      r.value.1.password == cred.hashed && r.value.1.salt == cred.salt
    ensures r.Success? && !(password.Set? && TruthyText(password.given)) ==>
      r.value.1.password == session.value.password && r.value.1.salt == session.value.salt
  {
    var current :- Auth.CurrentActiveUser(session);
    var u := CurrentUserUpdate(email, password);
    :- ValidateUserUpdate(u);
    UpdateUser(s, current, u, cred)
  }

  /** The attribute error the repository's update raises when handed the
      two-field body of `PUT /users/me/`. */
  const NoCardAttribute := "'CurrentUserUpdate' object has no attribute 'library_card_number'"

  /** `update_current_user` as the code stands: the body model it hands to
      `update_user` has no `library_card_number`, and the repository reads
      that attribute before any write, so every request that passes
      authentication and body validation ends in a server error and
      changes nothing. */
  function UpdateCurrentUserRouteAsWritten(s: State, session: Option<User>, email: Field<string>, password: Field<string>)
    : (r: Result<(State, User)>)
    ensures r.Failure?
    ensures Auth.CurrentActiveUser(session).Failure? ==> r == Failure(Auth.CurrentActiveUser(session).error)
    ensures Auth.CurrentActiveUser(session).Success? && ValidateUserUpdate(CurrentUserUpdate(email, password)) == Pass
      ==> r == Raise(ServerError, NoCardAttribute)
  {
    var current :- Auth.CurrentActiveUser(session);
    var u := CurrentUserUpdate(email, password);
    :- ValidateUserUpdate(u);
    Raise(ServerError, NoCardAttribute)
  }

  /** Every request the intended route would carry out fails as written. */
  lemma UpdateCurrentUserNeverApplies(s: State, session: Option<User>, email: Field<string>, password: Field<string>, cred: Credentials)
    requires session.Some? ==> session.value.id in s.users
    requires UpdateCurrentUserRoute(s, session, email, password, cred).Success?
    ensures UpdateCurrentUserRouteAsWritten(s, session, email, password) == Raise(ServerError, NoCardAttribute)
  {
  }

  /** A concrete request: an active user asking to change only their email. */
  lemma UpdateCurrentUserEmailFails(s: State, me: User, cred: Credentials)
    requires me.id in s.users && me.status == Some(Active)
    requires !EmailConflict(s, me, CurrentUserUpdate(Set(Some("new@example.com")), Unset))
    ensures UpdateCurrentUserRoute(s, Some(me), Set(Some("new@example.com")), Unset, cred).Success?
    ensures UpdateCurrentUserRouteAsWritten(s, Some(me), Set(Some("new@example.com")), Unset).Failure?
  {
  }

  /** `GET /users/{username}/`: a user may read their own record;
      reading anyone else's needs a librarian. */
  function ViewUserRoute(s: State, session: Option<User>, name: string): (r: Result<User>)
    requires UniqueLogins(s)
    ensures r.Success? ==> Auth.CurrentActiveUser(session).Success? && r.value.username == name
    ensures r.Success? ==> r.value.id == session.value.id || RoleRank(session.value.role) >= RoleRank(Some(Librarian))
    ensures r.Success? <==>
      && Auth.CurrentActiveUser(session).Success? && GetUserByUsernameFromPath(s, name).Success?
      && (GetUserByUsernameFromPath(s, name).value.id == session.value.id
          || RoleRank(session.value.role) >= RoleRank(Some(Librarian)))
    ensures r.Success? ==> r == GetUserByUsernameFromPath(s, name)
    ensures Auth.CurrentActiveUser(session).Success? && GetUserByUsernameFromPath(s, name).Success?
      && GetUserByUsernameFromPath(s, name).value.id != session.value.id
      && RoleRank(session.value.role) < RoleRank(Some(Librarian))
      ==> r == Raise(Forbidden, Auth.NotAuthorized)
  {
    var current :- Auth.CurrentActiveUser(session);
    var user :- GetUserByUsernameFromPath(s, name);
    :- Auth.OwnerOrLibrarian(user.id, current);
    Success(user)
  }
}

=== FILE: wrappers.dfy ===
/** Failure-compatible result types shared by every repository operation.

    A repository method in the library backend either commits its whole
    transaction or raises an HTTP exception that rolls it back.  The model
    mirrors this: an operation returns `Success((newState, value))` or a
    `Failure(error)` that carries no state at all, so a failed operation can
    never have changed anything.
 */
module Wrappers {

  datatype Option<+T> = None | Some(value: T) {
    function GetOr(default: T): T {
      match this
      case Some(v) => v
      case None => default
    }
  }

  /** The abstract kinds behind the HTTP status codes the routes raise:
      404, 400 (and the 422 of request validation), 401 and 403, and the
      500 of a statement the database rejects. */
  datatype ErrorKind = NotFound | BadRequest | Unauthorized | Forbidden | ServerError

  /** An error kind together with the `detail` text the source attaches. */
  datatype Error = Error(kind: ErrorKind, detail: string)

  datatype Result<+T> = Success(value: T) | Failure(error: Error) {
    predicate IsFailure() {
      Failure?
    }

    function PropagateFailure<U>(): Result<U>
      requires Failure?
    {
      Failure(error)
    }

    function Extract(): T
      requires Success?
    {
      value
    }
  }

  /** A check that either passes or raises. */
  datatype Outcome = Pass | Fail(error: Error) {
    predicate IsFailure() {
      Fail?
    }

    function PropagateFailure<U>(): Result<U>
      requires Fail?
    {
      Failure(error)
    }
  }

  /** A field of a partial-update body: left out of the request (`Unset`,
      dropped by `exclude_unset`), or sent, possibly as `null`. */
  datatype Field<+T> = Unset | Set(given: Option<T>)

  function Raise<T>(kind: ErrorKind, detail: string): Result<T> {
    Failure(Error(kind, detail))
  }

  /** The validation error of a `ge=1` path or query parameter. */
  const BelowOne := "ensure this value is greater than or equal to 1"

  /** Python truthiness of an optional integer id: `None` and `0` are false. */
  predicate TruthyId(x: Option<int>) {
    x.Some? && x.value != 0
  }

  /** Python truthiness of an optional string: `None` and `""` are false. */
  predicate TruthyText(x: Option<string>) {
    x.Some? && x.value != ""
  }

  /** Reading a row by an optional key: `WHERE id = NULL` matches nothing. */
  function Lookup<V>(m: map<int, V>, key: Option<int>): (r: Option<V>)
    ensures r.Some? <==> key.Some? && key.value in m
    ensures r.Some? ==> r.value == m[key.value]
  {
    if key.Some? && key.value in m then Some(m[key.value]) else None
  }
}
